=== FILE: README.md ===
# DizzySync in Dafny

DizzySync mirrors a user's purchased albums from the Dizzylab music store onto
the local disk. It reads the user's id from the home page and a listing token
from the user's music page. It then walks the paged collection listing. For
each album it merges in the details scraped from the album's page and chooses
a directory from a name template. It writes a README and an NFO sidecar, and
for every configured format (`128`, `MP3`, `FLAC`, `gift`) it reads the
download key from the page, downloads the file (following one redirection to
the CDN), and either unpacks it (ZIP or RAR) or saves it as it is.

This project models that core — the client (`src/client.rs`), the
downloader (`src/downloader.rs`) and the configuration (`src/config.rs`) — and
proves properties of the model.

- The web site is a value, `Client.Site`. It says what the server answers to
  the n-th request of a run, so download keys may change between requests.
  The client records every request it makes, in order.
- The disk is `Files.Fs`: a map from paths to bytes, and a set of
  directories. `Files.FileSystem` is a class holding that state. Its methods
  change it in place, and each can fail the way the corresponding `std::fs`
  call fails.
- Every operation of `DizzylabClient` and `Downloader` is a method on a class
  whose fields the operation updates. Each method is proved equal to a
  specification function over the site, the request log and the disk. The
  properties are lemmas about those functions.
- HTML pages are parsed by the site's `parse` function into a sequence of
  elements (`Html.Document`). Each CSS selector is a predicate on elements.
  Each regular expression is an explicit leftmost-first scan.
- The clock, the archive readers and the GBK decoder are parameters
  (`Naming.Clock`, `Extraction.Codecs`).

Modules: `Wrappers`, `Text` (substring search, trim, replace, join), `Utf8`
(RFC 3629 encoding and decoding), `Html`, `Scrapers` (the `extract_*`
functions), `Client`, `Configuration`, `Archive`, `Naming` (names, dates and
sidecar texts), `Files`, `Extraction` (ZIP and RAR unpacking) and `Sync` (the
downloader).

Points where the code's behaviour is easy to misread:

- No download status is checked. `download_file` follows a redirection that
  carries a `Location`. Any other answer, an error page included, becomes the
  file (`Client.DownloadIgnoresStatus`). Only covers check the status.
- The description threshold ("longer than 20") is on UTF-8 bytes
  (`str::len`), not characters.
- With `flatten`, a member keeps its whole relative path under the album
  directory (`album_dir.join(name)`). Nothing of it is discarded.
- The downloader reads `behavior.metadata_only`, which `src/config.rs` does
  not declare. The model adds it to `BehaviorConfig` with default `false`.
- The skip-existing check happens after the album's detail page has been
  fetched, since the directory name depends on the details.

## Model

| member | source | states |
|---|---|---|
| Configuration.DefaultTrue | src/config.rs:40-42 | the serde default for the two generator flags is true |
| Configuration.Default | src/config.rs:44-66 | the default configuration: empty cookie, formats MP3 then FLAC, no flattening, `./DizzySync`, template `{album}/@{label}`, skip existing, single-threaded, both sidecars on, metadata-only off |
| Configuration.BehaviorFrom | src/config.rs:30-38 | reading `[behavior]` succeeds exactly when `skip_existing` and `single_threaded` are present; those are copied; a missing generator flag reads as true and a missing `metadata_only` as false; a present flag is read as given |
| Configuration.BehaviorRoundTrip | src/config.rs:30-38 | every behaviour, written out with every key and read back, is itself |
| Configuration.SparseTableIsDefault | src/config.rs:34-37 | a table naming only the two required keys (both true) reads as the default behaviour |
| Client.DizzylabClient.constructor | src/client.rs:50-56 | a new client is bound to its site and has made no request |
| Client.DizzylabClient.GetPage | src/client.rs:59-73 | a page request appends one request to the log and returns the site's answer for that position |
| Client.DizzylabClient.GetUserInfo | src/client.rs:96-118 | equals `UserInfoSpec`: one home-page request; the uid of the first user link; `allcount` 0 |
| Client.UserInfoSpec | src/client.rs:96-118 | one home-page request; a page error is passed through; otherwise the result is `extract_user_id`'s error, or the uid with `allcount` 0 |
| Scrapers.ExtractUserId | src/client.rs:347-362 | the first user link whose `href` matches `/u/(\d+)` decides: the result is its number exactly when that number is below 2^32, and an error otherwise; a page without such a link is an error |
| Scrapers.UidIn | src/client.rs:353-354 | the capture of `/u/(\d+)` in an `href` is digits, taken at the leftmost position where the pattern matches; there is none exactly when it matches nowhere |
| Scrapers.ParseU32 | src/client.rs:355 | parsing digits succeeds exactly when their value fits 32 bits, and gives that value |
| Scrapers.UidAt | src/client.rs:353 | a match at `i` is `/u/` then a maximal non-empty run of digits; no match means no `/u/` or no digit after it |
| Client.DizzylabClient.GetUserToken | src/client.rs:321-345 | equals the specification: one music-page request, then the token scan |
| Client.TokenSpec | src/client.rs:321-345 | one music-page request for the user; a failed page is its error; otherwise the result is the token scan of the page |
| Scrapers.TokenFrom | src/client.rs:335-344 | a token holds no quote and sits between the first `token = '` and the next quote; the scan fails exactly when there is no marker or no closing quote |
| Scrapers.TokenShape | src/client.rs:335-341 | the token found after the marker, followed by a quote, occurs at the marker |
| Client.DizzylabClient.GetUserAlbums | src/client.rs:120-165 | the offset loop equals the listing walk: token first, then pages of 20 until one says there are no more |
| Client.UserAlbumsSpec | src/client.rs:120-165 | the token request comes first, after the earlier log; a token failure ends the run with that error; otherwise the result is the listing walk from offset 0 with that token |
| Client.Walk | src/client.rs:130-164 | the walk first asks for page `k`; the albums it returns start with those already collected; asking past the last page fails |
| Client.WalkRequests | src/client.rs:130-147 | the walk's requests go to offsets 20k, 20(k+1), ... each for the next 20 albums, same uid and token, after the earlier log |
| Client.WalkCollects | src/client.rs:149-164 | when page n is the first without more, the result is every album of pages k..n in order, one request per page |
| Client.WalkFails | src/client.rs:149-155 | the walk fails, keeping no albums, exactly when no page ends the listing before a failure |
| Client.UserAlbumsRequests | src/client.rs:128-147 | the token page is requested once, first; every later request is a listing page with that uid and token |
| Client.Enriched | src/client.rs:204-216 | merging a page keeps id, cover and gift flag; title and label are overwritten by what the page gives (or the placeholder) only while they are the placeholders; release date, description, tags, year and authors are exactly what the page gives |
| Client.EnrichedConsistent | src/client.rs:212-216 | after a merge there is a year exactly when there is a release date, and it is the date's first four characters; authors only with a description |
| Client.EnrichedIdempotent | src/client.rs:204-216 | merging the same page twice is merging it once |
| Client.DetailsSpec | src/client.rs:190-219 | fetching details makes exactly one album-page request and keeps the album's id; a page error is passed through with the album unchanged; otherwise the album is merged with the parsed page |
| Client.DizzylabClient.GetAlbumDetails | src/client.rs:190-219 | the field-by-field update equals the merge, or leaves the album as it was when the page fails |
| Client.AlbumByIdFields | src/client.rs:167-188 | an album fetched by id has that id, no cover, no gift flag, and the page's title and label or the placeholders |
| Client.AlbumByIdSpec | src/client.rs:167-188 | one album-page request; a page error is passed through; a page gives `Ok` of the placeholder album for the id with the parsed page merged in |
| Client.DizzylabClient.GetAlbumById | src/client.rs:167-188 | equals `AlbumByIdSpec`: the placeholder album with its page merged in, or the page's error |
| Client.DownloadUrl | src/client.rs:251-261 | a link ends with `k=<key>`, and starts with the gift prefix exactly when the format is `gift` |
| Client.LinksFrom | src/client.rs:237-268 | no key: no links for `gift`, an error for other formats; a key: exactly one link, for the format, built from that key |
| Client.LinksSpec | src/client.rs:221-234 | asking for links makes exactly one album-page request; a page error is passed through; otherwise the result is the links read from the parsed page |
| Client.DizzylabClient.GetDownloadLinks | src/client.rs:221-269 | equals the specification |
| Client.KeyAfterPrefix | src/client.rs:418-420 | the key scan reads `key` back from `p + "k=" + key` when no `k=` occurs in `p + "k"` |
| Client.DownloadKeyRoundTrip | src/client.rs:251-261 | the key scan reads back the key of any link built here, when neither id nor format contains `k=` |
| Client.GiftKeyRoundTrip | src/client.rs:251-255 | the key of a gift link is read back when the id contains no `k=` |
| Client.FormatKeyRoundTrip | src/client.rs:256-260 | the key of a link for any other format is read back when neither id nor format contains `k=` |
| Scrapers.ExtractDownloadKey | src/client.rs:410-447 | a key is non-empty and has no `&`; it comes from the first anchor for the format; the scan fails exactly when that anchor has no `k=` capture or there is none |
| Scrapers.KeyAt | src/client.rs:418 | a capture at `i` is `k=` then a maximal non-empty run without `&`; there is one whenever `k=` at `i` is followed by a character other than `&` |
| Scrapers.KeyIn | src/client.rs:418-420 | a capture is non-empty, has no `&`, and `k=` followed by it occurs in the text |
| Scrapers.KeyInLeftmost | src/client.rs:418-420 | the capture is the one at the leftmost position where `k=([^&]+)` matches; there is none exactly when it matches nowhere |
| Client.DownloadFileSpec | src/client.rs:271-319 | a download makes one request, or two when it follows a redirection to the CDN; the first is the link itself |
| Client.DownloadIgnoresStatus | src/client.rs:291-300 | an answer that is not a redirection with a location is the file, whatever its status |
| Client.DownloadFollowsRedirect | src/client.rs:291-296 | a redirection with a visible-ASCII `Location` logs the link then the CDN request for that location, and the download is the CDN's body or its error; any other location fails with the header-conversion error after one request |
| Client.DizzylabClient.DownloadFile | src/client.rs:271-319 | equals `DownloadFileSpec`, so the request log and the result are those of the two lemmas above |
| Client.DizzylabClient.Fetch | src/client.rs:274-280 | `send` appends one request to the log and returns the site's answer for that position |
| Client.AsciiText | src/client.rs:293 | the `Location` header read as text keeps its length and every byte's value as a character |
| Client.DizzylabClient.DownloadCover | src/client.rs:533-561 | equals the cover specification, on the result and the request log |
| Client.CoverSpec | src/client.rs:533-561 | an empty URL fails without a request; otherwise exactly one cover request; a transport error is that error; a status outside 200-299 is an error; a success is the body of a 2xx answer |
| Scrapers.ExtractTitle | src/client.rs:364-385 | the title is trimmed; a `title` element gives its text before the first ` - `, trimmed; otherwise the first `h1`'s non-empty trimmed text |
| Scrapers.ExtractLabel | src/client.rs:387-408 | a label is non-empty and trimmed, the trimmed text of the first label-class element or of the first `/l/` link; none only when each of those that exists has blank text |
| Scrapers.LabelPrecedence | src/client.rs:390-407 | a non-blank label-class element wins; the first `/l/` link is used when there is no label-class element or its text is blank; with neither there is no label |
| Scrapers.ExtractReleaseDate | src/client.rs:449-466 | a date is a whole `\d{4}年\d{1,2}月\d{1,2}日`; it is the capture of the first paragraph in which `发布于` and a date match; none exactly when no paragraph has one |
| Scrapers.ReleaseDateIn | src/client.rs:455-457 | the capture is a Chinese date following `发布于` in the text, at the leftmost position where the pattern matches; there is none exactly when it matches nowhere |
| Scrapers.ReleaseDateAtComplete | src/client.rs:457 | every `发布于` followed by a whole Chinese date is a match at that position, capturing that date |
| Scrapers.ReleaseDateAt | src/client.rs:457 | a capture at `i` is a Chinese date right after `发布于` |
| Scrapers.DateAt | src/client.rs:457 | a match at `j` is a Chinese date whose digit runs are as long as the greedy scan reads them |
| Scrapers.DateAtComplete | src/client.rs:457 | every date written at `j` is found there, with its exact length |
| Scrapers.ExtractYear | src/client.rs:497-508 | there is a year exactly when there is a release date; the year is the date's first four characters, four digits |
| Scrapers.YearOfDate | src/client.rs:500 | on a Chinese date, `(\d{4})年` matches at its start and captures its four-digit year |
| Scrapers.ExtractDescription | src/client.rs:468-481 | a description is non-empty, trimmed and longer than 20 UTF-8 bytes, from the first such `h3`; none exactly when no `h3` qualifies |
| Scrapers.ExtractTags | src/client.rs:483-495 | the loop collects exactly the tags of the page |
| Scrapers.TagsOf | src/client.rs:487-491 | a page yields at most one tag per element |
| Scrapers.TagsOfAppend | src/client.rs:487-491 | the tags of two consecutive parts of a page are those of each part, in order |
| Scrapers.TagsAreHashTags | src/client.rs:487-491 | every tag is the text of a tag link with its leading `#` removed |
| Scrapers.HashTagsAreTags | src/client.rs:487-491 | every tag link starting with `#` contributes its tag |
| Scrapers.AuthorAt | src/client.rs:515-518 | an author capture at `i` is non-empty and holds no line end or `<`; it exists exactly when the name and a colon are at `i` and a capture can start after them, and it is the run the back-tracking regex engine takes |
| Scrapers.BackoffFinds | src/client.rs:515-518 | `\s*` gives back white space: the capture starts at the latest point, up to the end of the white space after the colon, from which a capture can start; none exactly when none can |
| Scrapers.AuthorInLeftmost | src/client.rs:522-523 | an expression's capture is the one at the leftmost position where it matches; none exactly when it matches nowhere |
| Scrapers.FirstFound | src/client.rs:521-527 | no capture exactly when no name gives one |
| Scrapers.FirstFoundIsFirst | src/client.rs:521-527 | the capture found is that of the first name, in list order, that gives one |
| Scrapers.FirstAuthor | src/client.rs:521-527 | the capture has no line end; none exactly when no expression matches |
| Scrapers.FirstAuthorIsFirst | src/client.rs:521-527 | a capture comes from the first expression, in list order, that matches |
| Scrapers.AuthorsIn | src/client.rs:514-527 | authors read from a description are the trimmed capture of the first expression that matches, holding no line end; none exactly when no expression matches |
| Scrapers.ExtractAuthors | src/client.rs:510-531 | authors exist only with a description; they are the trimmed capture of the first of `music`, `作曲`, `作词`, `Lyrics` that matches in it; none exactly when there is no description or none matches |
| Html.First | src/client.rs:367 | `select(..).next()` is the first selected element, and there is none exactly when the selector selects nothing |
| Html.FirstIsUnique | src/client.rs:367 | there is at most one first selected element |
| Text.IndexOf | src/client.rs:335-337 | `find` returns the first occurrence at or after the start, or reports that there is none |
| Text.BeforeFirst | src/client.rs:370 | the first piece of `split` is a prefix without the separator, the whole text when there is no separator |
| Text.Trim | src/client.rs:371 | `trim` returns a text with no white space at either end, made only of the input's characters, and leaves a text without such white space unchanged |
| Text.TrimInfix | src/client.rs:371 | the trimmed text is a contiguous piece of the input with only white space before and after it |
| Text.TrimIdempotent | src/client.rs:371 | trimming twice is trimming once |
| Text.Leftmost | src/client.rs:353 | a regex capture is at the leftmost position where the pattern matches |
| Text.Replace | src/downloader.rs:329-347 | `str::replace` leaves a text without the pattern unchanged |
| Text.ReplaceSkipsPrefix | src/downloader.rs:329-347 | a prefix in which no occurrence starts is copied unchanged by `replace` |
| Text.ReplaceLeading | src/downloader.rs:330 | a leading occurrence is replaced and the scan goes on after it |
| Utf8.DecodeEncode | src/downloader.rs:175-176 | every text survives UTF-8 encoding then decoding |
| Utf8.EncodeDecode | src/downloader.rs:175-176 | bytes that decode are exactly the encoding of what they decode to |
| Archive.DetectArchiveFormat | src/downloader.rs:209-230 | under 4 bytes is never an archive; ZIP exactly for a `PK` start; RAR exactly for a RAR 5 or RAR 4 signature without a `PK` start |
| Archive.DetectionUsesEightBytes | src/downloader.rs:209-230 | the classification depends on the first eight bytes only |
| Archive.ShortPkIsUnknown | src/downloader.rs:210-217 | a bare `PK` is unknown; `PK\x03\x04` is ZIP |
| Naming.ReplaceReserved | src/downloader.rs:368-373 | the same length, each reserved character `_`, every other character kept |
| Naming.SanitizeFilename | src/downloader.rs:366-376 | the result has no reserved character and no outer white space, adds no character but `_`, and leaves a clean name unchanged |
| Naming.SanitizeTrimmedName | src/downloader.rs:366-376 | a trimmed name keeps its length, with exactly the reserved characters replaced |
| Naming.SanitizeIdempotent | src/downloader.rs:366-376 | sanitising twice is sanitising once |
| Naming.Pad2 | src/downloader.rs:356-360 | `{:02}` of a value below 100 is two digits whose value is it |
| Naming.IsoAt | src/downloader.rs:356-360 | the rewritten date is `YYYY-MM-DD`, with the date's own four year digits, and month and day of the same value as the date's |
| Naming.ConvertChineseDateToIso | src/downloader.rs:352-364 | a text with no Chinese date is returned unchanged; otherwise the result is the leftmost date alone, as `YYYY-MM-DD`, and the text around it is dropped |
| Naming.FoundIsLeftmost | src/downloader.rs:353-354 | the date the scan finds is a match, and it is at the leftmost position where a date matches |
| Naming.NoDateFound | src/downloader.rs:354 | where the scan finds no date there is none at any position |
| Naming.IsoOfFound | src/downloader.rs:354-360 | a date found is rewritten as `YYYY-MM-DD`, different from the text |
| Naming.IsoOfChineseDate | src/downloader.rs:352-364 | a whole Chinese date converts to its year, month and day |
| Naming.IsoExample | src/downloader.rs:353 | `2025年6月10日` converts to `2025-06-10` |
| Naming.FileExtension | src/downloader.rs:378-386 | `mp3` exactly for 128 and MP3, `flac` for FLAC, `unknown` for gift, `bin` for anything else |
| Naming.DirectoryName | src/downloader.rs:321-350 | a template without braces is the directory name itself |
| Naming.DirectoryNameSteps | src/downloader.rs:329-347 | the name is the five replacements `{album}`, `{label}`, `{authors}`, `{year}`, `{date}` applied in that order |
| Naming.DirectoryNameAlbum | src/downloader.rs:330 | `{album}` alone in a template becomes the sanitised title, the text around it kept |
| Naming.DirectoryNameLabel | src/downloader.rs:331 | `{label}` alone becomes the sanitised label name |
| Naming.DirectoryNameAuthors | src/downloader.rs:334-336 | `{authors}` alone becomes the sanitised authors, or the sanitised label name when there are none |
| Naming.DirectoryNameYear | src/downloader.rs:339-341 | `{year}` alone becomes the album's year, or the current year |
| Naming.DirectoryNameDate | src/downloader.rs:344-347 | `{date}` alone becomes the release date in ISO form, or today's date |
| Naming.DirectoryField | src/downloader.rs:329-347 | any one directory placeholder alone in a template becomes its value, the text around it kept |
| Naming.DefaultTemplateAlbum | src/downloader.rs:330 | `{album}` in the default template is replaced by the album name |
| Naming.DefaultTemplateLabel | src/downloader.rs:331 | `{label}` is then replaced by the label name |
| Naming.DefaultTemplateName | src/downloader.rs:321-350 | the default template gives `<sanitised title>/@<sanitised label>` |
| Naming.ReadmeText | src/downloader.rs:436-457 | a README template without braces is copied verbatim |
| Naming.ReadmeTextSplit | src/downloader.rs:437-456 | the text is the first `k` replacements in source order followed by the remaining ones, for every `k` |
| Naming.ReadmeField | src/downloader.rs:439-454 | any one README placeholder alone in a template becomes its value, the text around it kept |
| Naming.ReadmeNames | src/downloader.rs:439-442 | `{album}`, `{label}`, `{id}` and `{cover}` become the title, label name, id and cover URL |
| Naming.ReadmeReleaseDate | src/downloader.rs:443-444 | `{release_date}` becomes the release date, or `未知` |
| Naming.ReadmeDescription | src/downloader.rs:445-446 | `{description}` becomes the description, or `暂无描述` |
| Naming.ReadmeTags | src/downloader.rs:447 | `{tags}` becomes the tags joined with `, ` |
| Naming.ReadmeAuthors | src/downloader.rs:448-449 | `{authors}` becomes the authors, or the label name |
| Naming.ReadmeYear | src/downloader.rs:450-451 | `{year}` becomes the year, or `未知` |
| Naming.ReadmeDownloadDate | src/downloader.rs:452-453 | `{download_date}` becomes the current timestamp |
| Naming.ReadmeFormats | src/downloader.rs:454 | `{formats}` becomes the configured formats joined with `, ` |
| Naming.NfoContent | src/downloader.rs:459-488 | the document is the XML header and `<album>`, then the title, artist, genre, year, release date, label, id and plot fields, then the `<tags>` block with one `<tag>` line per tag, the `Dizzylab` source and the album URL before `</album>`; its frame, its artist fallback and its genre fallback are proved by `NfoFrame`, `NfoNamesArtist` and `NfoNamesGenre` |
| Naming.NfoFrame | src/downloader.rs:459-488 | the NFO opens with the XML declaration and `<album>` and closes with the album URL and `</album>` |
| Naming.NfoNamesArtist | src/downloader.rs:464 | the NFO's artist is the authors, or the label when there are none |
| Naming.NfoNamesGenre | src/downloader.rs:465 | the NFO's genre is the first tag, or `Music` |
| Files.SplitSlashJoin | src/downloader.rs:189 | splitting a name on `/` and joining the pieces with `/` gives it back |
| Files.JoinPlainName | src/downloader.rs:189-194 | joining a name of plain components puts it under the base, one level per component |
| Files.ResolveIsNormal | src/downloader.rs:189 | a joined path never holds an empty, `.` or `..` component |
| Files.CreateDirAllSpec | src/downloader.rs:87 | `create_dir_all` fails exactly when the path or an ancestor is a file; otherwise files are kept, the path is a directory, and the state stays well formed |
| Files.CreateDirAllAdds | src/downloader.rs:87 | the directories added are exactly the path and its ancestors |
| Files.WriteSpec | src/downloader.rs:393 | `fs::write` fails exactly when the path is a directory or its parent is not one; otherwise it holds the data and directories are kept |
| Files.WriteFrame | src/downloader.rs:297 | a write leaves every other file as it was, present or absent |
| Files.RemoveFileSpec | src/downloader.rs:253 | `remove_file` succeeds exactly on a file and removes only it |
| Files.ReadToStringSpec | src/downloader.rs:406-408 | reading succeeds exactly on a file holding valid UTF-8, and the text read encodes back to the file |
| Files.WriteThenRead | src/downloader.rs:389-393 | a text written as UTF-8 reads back as itself |
| Files.FileSystem.CreateDirAll | src/downloader.rs:87 | the in-place update equals the specification, and a failure changes nothing |
| Files.FileSystem.Write | src/downloader.rs:393 | the in-place update equals the specification, and a failure changes nothing |
| Files.FileSystem.RemoveFile | src/downloader.rs:253 | the in-place update equals the specification |
| Files.FileSystem.PathExists | src/downloader.rs:80 | `exists` holds exactly for a file or a directory |
| Extraction.ZipName | src/downloader.rs:173-178 | a name that is valid UTF-8 is read as such and encodes back to its bytes; otherwise it is decoded as GBK |
| Extraction.ZipNameUtf8 | src/downloader.rs:175-176 | a name stored as UTF-8 is read back exactly |
| Extraction.MemberPath | src/downloader.rs:187-195 | `album_dir/<name>` when flattening, `album_dir/<format>/<name>` otherwise, joined lexically: over a base of plain components every component of the result is plain (no empty, `.` or `..`); `MemberPathPlain` gives the exact path for plain names |
| Files.JoinPathIsNormal | src/downloader.rs:187-195 | joining any relative or absolute name onto a base of plain components leaves only plain components |
| Extraction.MemberPathPlain | src/downloader.rs:187-195 | a plain member name goes under the album directory, or under its format folder when not flattening |
| Extraction.PrepareFolders | src/downloader.rs:187-200 | creating a member's folders changes no file and removes no directory; on success the member's parent directory exists |
| Extraction.CreateAndCopy | src/downloader.rs:202-203 | success exactly when the file can be created and the member reads completely, the file then holding the data; a read that breaks off is an error and leaves the bytes copied so far; a file that cannot be created changes nothing |
| Extraction.ZipMember | src/downloader.rs:171-203 | an unreadable member fails with nothing changed; a member without a target (a directory) changes nothing; a successful file member's target holds its data and nothing else changes; a member whose data breaks off is an error |
| Extraction.ExtractZipEntries | src/downloader.rs:170-204 | the member loop keeps the disk well formed |
| Extraction.ZipUntouched | src/downloader.rs:170-204 | a file no member targets keeps its contents, or stays absent |
| Extraction.ZipMemberFrame | src/downloader.rs:171-203 | one member's step leaves alone every file but its own target |
| Extraction.ZipLastWriteWins | src/downloader.rs:170-204 | after a successful extraction each target holds the data of the last member written to it |
| Extraction.ZipDirectoriesWriteNothing | src/downloader.rs:180-183 | an archive of directory members only changes nothing |
| Extraction.ExtractZipSpec | src/downloader.rs:160-207 | an archive that cannot be opened is that error and changes nothing; otherwise the disk stays well formed and no directory is removed |
| Extraction.RarMember | src/downloader.rs:280-297 | a header whose data reads has its target hold that data on success; on failure no file changes; unreadable data is an error |
| Extraction.ProcessRarHeaders | src/downloader.rs:260-313 | the header loop removes no file and keeps the disk well formed |
| Extraction.RarHeaderErrorEndsLoop | src/downloader.rs:305-308 | headers after one that cannot be read are never looked at, and the loop ends as if the archive ended there |
| Extraction.RarSuccess | src/downloader.rs:239-257 | extraction succeeds exactly when the copy is written, the archive opens and its headers are processed; after a success the copy is gone |
| Extraction.RarFailureLeavesCopy | src/downloader.rs:243-250 | when processing fails after the copy was written, the copy stays on disk |
| Extraction.RarUntouched | src/downloader.rs:260-313 | a file no header targets keeps its contents, or stays absent |
| Extraction.RarLastWriteWins | src/downloader.rs:260-313 | after a successful header loop each target holds the data of the last header written to it |
| Extraction.RarDirectoriesWriteNothing | src/downloader.rs:272-276 | an archive of directory headers only changes nothing |
| Extraction.ExtractRarSpec | src/downloader.rs:232-258 | extracting a RAR keeps the disk well formed and removes no directory |
| Sync.ReadmeDefault | src/downloader.rs:388-396 | without a template file the README is the default template filled in, and it reads back as that text |
| Sync.ReadmeSpec | src/downloader.rs:388-396 | the README write succeeds exactly when `README.md` can be written there; it then reads back as the template file's text filled in, or the default template filled in when the template cannot be read |
| Sync.NfoSpec | src/downloader.rs:398-404 | the NFO write succeeds exactly when `album.nfo` can be written; it then reads back as the NFO document |
| Sync.PlacePayload | src/downloader.rs:139-155 | a payload that is not an archive is saved as `<title>.<extension>` in the album directory; no directory is removed |
| Sync.AttemptRequests | src/downloader.rs:124-137 | one attempt at a format asks for the album page, then possibly the download and one redirection |
| Sync.AttemptPageRequests | src/downloader.rs:124 | each attempt at a format asks for the album page exactly once |
| Sync.DownloadFormatSpec | src/downloader.rs:120-158 | a format's download makes the attempt's requests, keeps the disk well formed and removes no directory |
| Sync.NoLinksWritesNothing | src/downloader.rs:126-130 | an album without the format costs one request, writes nothing and is not an error |
| Sync.FormatsSpec | src/downloader.rs:108-115 | the format loop only appends to the request log and removes no directory |
| Sync.EveryFormatAttempted | src/downloader.rs:108-115 | every configured format is attempted, whatever happened to the others |
| Sync.ReadmeStep | src/downloader.rs:90-94 | the README step adds no directory and no file but `README.md` |
| Sync.NfoStep | src/downloader.rs:96-100 | the NFO step adds no directory and no file but `album.nfo` |
| Sync.AlbumAfterDetails | src/downloader.rs:78-117 | unless skipped, an album fails exactly when its directory cannot be created, and on success the directory exists; the request log is only extended and no directory is removed |
| Sync.DownloadAlbumSpec | src/downloader.rs:70-118 | processing an album keeps the disk well formed and removes no directory |
| Sync.DetailsFailureDoesNotAbort | src/downloader.rs:72-75 | a failure to fetch the details is ignored and the album is processed as it was |
| Sync.SkipWritesNothing | src/downloader.rs:80-83 | an existing album directory with `skip_existing`: only the details request, nothing written |
| Sync.MetadataOnlyWritesSidecars | src/downloader.rs:102-106 | with `metadata_only` no request follows the directory, and only the two sidecars can be new files |
| Sync.MetadataOnlyDownloadsNothing | src/downloader.rs:102-106 | with `metadata_only` the detail page is the album's only request |
| Sync.Cleared | src/downloader.rs:47-53 | an album without a release date loses description, tags, year and authors; identity fields are kept |
| Sync.AlbumsLoop | src/downloader.rs:38-64 | the album loop keeps the disk well formed and removes no directory |
| Sync.AlbumsLoopAppend | src/downloader.rs:38-64 | processing a list is processing a first part, then the rest from where it left off |
| Sync.SyncSpec | src/downloader.rs:31-68 | a run fails exactly when the output directory cannot be created, and then changes nothing; otherwise the output directory exists afterwards |
| Sync.Downloader.constructor | src/downloader.rs:27-29 | a downloader holds its client, disk, configuration and parameters |
| Sync.Downloader.GenerateDirectoryName | src/downloader.rs:321-350 | the in-place chain of five replacements equals the directory name, whose per-placeholder values are stated by the `Naming.DirectoryName*` rows |
| Sync.Downloader.GetAlbumDirectory | src/downloader.rs:315-319 | the album directory is the name joined onto the output directory |
| Sync.Downloader.ApplyTemplateVariables | src/downloader.rs:436-457 | the in-place chain of eleven replacements equals the README text, whose per-placeholder values are stated by the `Naming.Readme*` rows |
| Sync.Downloader.GenerateReadme | src/downloader.rs:388-396 | equals the specification; a failed write changes nothing |
| Sync.Downloader.GenerateNfo | src/downloader.rs:398-404 | equals the specification; a failed write changes nothing |
| Sync.Downloader.PrepareMemberFolders | src/downloader.rs:187-200 | equals the folder-preparation function |
| Sync.Downloader.ExtractZipMember | src/downloader.rs:171-203 | equals the member specification |
| Sync.Downloader.CreateAndCopyMember | src/downloader.rs:202-203 | equals the create-then-copy specification, a broken read leaving the bytes copied so far |
| Sync.Downloader.ExtractZipFile | src/downloader.rs:160-207 | the member loop equals the extraction specification, stopping at the first failure |
| Sync.Downloader.ExtractRarMember | src/downloader.rs:280-297 | equals the header specification |
| Sync.Downloader.ProcessRarArchive | src/downloader.rs:260-313 | the header loop equals the specification, a header that cannot be read ending it |
| Sync.Downloader.ExtractRarFile | src/downloader.rs:232-258 | equals the specification, copy and removal included |
| Sync.Downloader.DownloadFormat | src/downloader.rs:120-158 | equals the format specification, on the request log and the disk |
| Sync.Downloader.DownloadAlbum | src/downloader.rs:70-118 | equals the album specification |
| Sync.Downloader.ProcessAlbum | src/downloader.rs:78-117 | equals the album specification after the details |
| Sync.Downloader.WriteSidecars | src/downloader.rs:89-100 | equals the README step followed by the NFO step |
| Sync.Downloader.DownloadFormats | src/downloader.rs:108-115 | the loop equals the format-loop specification |
| Sync.Downloader.SyncAllAlbums | src/downloader.rs:31-68 | the loop equals the synchronisation specification |

## Left out

- Logging, debug output, the pacing sleeps (500 ms between listing pages,
  2 s between albums), `single_threaded` beyond being read, and async
  execution: none of them changes what is requested or written.
- HTTP headers, cookies, the user agent and the JSON decoding of the listing:
  the site answers requests directly, and a listing page is either a decoded
  page or an error.
- The listing is finite: a request past the site's last page is an error.
  The `u32` offset never overflows in the model.
- `TOML` loading and saving of the configuration, `create_default_config` and
  `src/main.rs` are not part of this model. Deserialisation is modelled only
  for the `[behavior]` table.
- The clock is a parameter: the current year and date used by directory
  names, and the timestamp used by READMEs.
- Decompression is not modelled. The ZIP and RAR readers and the GBK decoder
  are uninterpreted functions. RAR names arrive as text and get no GBK
  fallback, as in the code.
- Paths are resolved lexically: `..` goes up a component, and `\` is not a
  separator. Symbolic links, permissions, and I/O errors other than a file in
  the way are not modelled. `create_dir_all` fails only when the path or an
  ancestor is a file.
- Sidecar and template texts are stored as their UTF-8 encoding. Rust's
  `String` is modelled as a sequence of scalar values.
- `\d` in the scanners is read as an ASCII digit. The Rust regex engine reads
  it as any Unicode decimal digit.
- Client.DownloadFileSpec: its own ensures state only the shape of the
  request log; the result in each case is stated by
  `Client.DownloadIgnoresStatus` and `Client.DownloadFollowsRedirect`.
- Sync.AlbumAfterDetails: the prefix of the request log is stated per album.
  The run-level request sequence of `SyncAllAlbums` is not stated beyond the
  per-album lemmas.
- reqwest's default client follows 3xx redirections by itself
  (`src/client.rs:51-53`), so the manual redirection branch of `download_file`
  (`src/client.rs:291-296`) rarely fires. The site is modelled as answering
  the download request itself, so the model takes that branch whenever a
  redirection with a location is answered.
- The selector built from the format name (`src/client.rs:433`) is parsed
  with `unwrap`, which panics for a format containing `"`. The model treats
  every format name as a valid selector and does not model the panic.
- Extraction.ExtractZipEntries: its own contract states only that the disk
  stays well formed and keeps its directories; what it writes is stated by
  `ZipLastWriteWins`, `ZipUntouched` and `ZipDirectoriesWriteNothing`. The
  same holds for `Extraction.ProcessRarHeaders` with `RarLastWriteWins`,
  `RarUntouched` and `RarDirectoriesWriteNothing`.

=== FILE: archive.dfy ===
/** Telling a downloaded payload's container format from its first bytes. */
module Archive {
  import opened Utf8

  datatype ArchiveFormat = Zip | Rar | Unknown

  /** The first two bytes of a ZIP local file header signature, `PK`
      (section 4.3.7 of PKWARE's APPNOTE.TXT). */
  const ZipMagic: Bytes := [0x50, 0x4B]

  /** `Rar!\x1a\x07\x01\x00`, the RAR 5.0 signature. */
  const Rar5Magic: Bytes := [0x52, 0x61, 0x72, 0x21, 0x1A, 0x07, 0x01, 0x00]

  /** `Rar!\x1a\x07\x00`, the RAR 1.5 to 4.x signature. */
  const Rar4Magic: Bytes := [0x52, 0x61, 0x72, 0x21, 0x1A, 0x07, 0x00]

  predicate HasPrefix(data: Bytes, magic: Bytes) {
    |magic| <= |data| && data[..|magic|] == magic
  }

  /** `detect_archive_format`: fewer than four bytes are never an archive;
      then a `PK` start is ZIP, and either RAR signature is RAR. */
  function DetectArchiveFormat(data: Bytes): (f: ArchiveFormat)
    ensures |data| < 4 ==> f == Unknown
    ensures f == Zip <==> |data| >= 4 && HasPrefix(data, ZipMagic)
    ensures f == Rar <==> |data| >= 4 && !HasPrefix(data, ZipMagic)
                          && (HasPrefix(data, Rar5Magic) || HasPrefix(data, Rar4Magic))
  {
    if |data| < 4 then Unknown
    else if HasPrefix(data, ZipMagic) then Zip
    else if |data| >= 8 && data[..8] == Rar5Magic then Rar
    else if |data| >= 7 && data[..7] == Rar4Magic then Rar
    else Unknown
  }

  /** The classification looks at no more than the first eight bytes. */
  lemma {:induction false} DetectionUsesEightBytes(data: Bytes)
    ensures var n := if |data| < 8 then |data| else 8;
      DetectArchiveFormat(data) == DetectArchiveFormat(data[..n])
  {
    var n := if |data| < 8 then |data| else 8;
    var head := data[..n];
    assert forall m :: 0 <= m <= n ==> head[..m] == data[..m];
    assert HasPrefix(data, ZipMagic) <==> HasPrefix(head, ZipMagic);
    assert HasPrefix(data, Rar5Magic) <==> HasPrefix(head, Rar5Magic);
    assert HasPrefix(data, Rar4Magic) <==> HasPrefix(head, Rar4Magic);
  }

  /** A bare `PK` (or any payload shorter than four bytes) is not taken for a
      ZIP archive. */
  lemma ShortPkIsUnknown()
    ensures DetectArchiveFormat([0x50, 0x4B]) == Unknown
    ensures DetectArchiveFormat([0x50, 0x4B, 0x03, 0x04]) == Zip
  {
  }
}

=== FILE: client.dfy ===
/** The Dizzylab client: the album records it reads, the pages and files it
    requests, and what it makes of the answers. The web site is a value of
    type `Site` (what it answers to the n-th request of the run); the client
    keeps the requests it has made, in order, in `log`. Every operation is a
    method of `DizzylabClient` proved equal to a specification function over
    the site and the log, and the properties of the operations are lemmas
    about those functions. */
module Client {
  import opened Wrappers
  import opened Text
  import opened Html
  import opened Scrapers
  import opened Utf8

  datatype UserInfo = UserInfo(uid: nat, allcount: nat)

  datatype Album = Album(
    id: string,
    title: string,
    labelName: string,
    cover: string,
    onlyHaveGift: bool,
    releaseDate: Option<string>,
    description: Option<string>,
    tags: seq<string>,
    year: Option<string>,
    authors: Option<string>)

  /** One page of the user's collection, as the listing API returns it. */
  datatype AlbumListResponse = AlbumListResponse(user: UserInfo, discs: seq<Album>, canShowMore: bool)

  /** Placeholders an album carries until its page says otherwise. */
  const UnknownTitle: string := "未知专辑"
  const UnknownLabel: string := "未知厂牌"

  /** Number of albums the client asks for per listing page. */
  const PageSize: nat := 20

  /** The requests the client makes. */
  datatype Request =
    | HomePage                                            // https://www.dizzylab.net/
    | MusicPage(uid: nat)                                 // /u/{uid}/music/
    | AlbumListPage(l: nat, r: nat, uid: nat, token: string) // /apis/getotheruserinfo/?l=&r=&uid=&token=
    | AlbumPage(albumId: string)                          // /d/{id}/
    | Download(url: string, albumId: string)              // a download link, with cookie and referer
    | Cdn(url: string)                                    // where a download redirects to, no cookie
    | Cover(url: string, albumId: string)                 // a cover image, referer only

  /** An answer to a binary request: status, `Location` header and body. */
  datatype Response = Response(status: nat, location: Option<Bytes>, body: Result<Bytes>)

  /** The web site, as the client sees it. `page` and `fetch` are told how
      many requests came before, so answers may change during a run (download
      keys do); `listing[k]` is the listing page for offset `20 * k`, and the
      server answers an offset past the last page with an error; `parse` is
      the HTML parser. */
  datatype Site = Site(
    page: (Request, nat) -> Result<string>,
    parse: string -> Document,
    listing: seq<Result<AlbumListResponse>>,
    fetch: (Request, nat) -> Result<Response>)

  // ---------------------------------------------------------------- user info and token

  /** `get_user_info`: the home page, and the user id in it. */
  function UserInfoSpec(site: Site, log: seq<Request>): (r: (Result<UserInfo>, seq<Request>))
    ensures r.1 == log + [HomePage]
    ensures site.page(HomePage, |log|).Err? ==> r.0 == Err(site.page(HomePage, |log|).error)
    ensures site.page(HomePage, |log|).Ok? ==>
      var id := ExtractUserId(site.parse(site.page(HomePage, |log|).value));
      (id.Err? ==> r.0 == Err(id.error)) && (id.Ok? ==> r.0 == Ok(UserInfo(id.value, 0)))
  {
    var log' := log + [HomePage];
    match site.page(HomePage, |log|)
    case Err(e) => (Err(e), log')
    case Ok(html) =>
      match ExtractUserId(site.parse(html))
      case Err(e) => (Err(e), log')
      case Ok(uid) => (Ok(UserInfo(uid, 0)), log')
  }

  /** `get_user_token`: the user's music page, and the token in its script. */
  function TokenSpec(site: Site, log: seq<Request>, uid: nat): (r: (Result<string>, seq<Request>))
    ensures r.1 == log + [MusicPage(uid)]
    ensures site.page(MusicPage(uid), |log|).Err? ==> r.0 == Err(site.page(MusicPage(uid), |log|).error)
    ensures site.page(MusicPage(uid), |log|).Ok? ==> r.0 == TokenFrom(site.page(MusicPage(uid), |log|).value)
  {
    var log' := log + [MusicPage(uid)];
    match site.page(MusicPage(uid), |log|)
    case Err(e) => (Err(e), log')
    case Ok(html) => (TokenFrom(html), log')
  }

  // ---------------------------------------------------------------- the collection

  function ListRequest(uid: nat, token: string, k: nat): Request {
    AlbumListPage(PageSize * k, PageSize * k + PageSize, uid, token)
  }

  /** The listing loop from page `k` on, with `acc` collected so far: ask for
      the page, append its albums, go on while it says there are more. */
  function Walk(site: Site, log: seq<Request>, uid: nat, token: string, k: nat, acc: seq<Album>)
    : (r: (Result<seq<Album>>, seq<Request>))
    ensures |r.1| > |log| && r.1[..|log|] == log && r.1[|log|] == ListRequest(uid, token, k)
    ensures r.0.Ok? ==> |acc| <= |r.0.value| && r.0.value[..|acc|] == acc
    ensures k >= |site.listing| ==> r.0.Err?
    decreases |site.listing| - k
  {
    var log' := log + [ListRequest(uid, token, k)];
    if k >= |site.listing| then (Err("listing request failed"), log')
    else match site.listing[k]
      case Err(e) => (Err(e), log')
      case Ok(p) =>
        if !p.canShowMore then (Ok(acc + p.discs), log')
        else
          var r := Walk(site, log', uid, token, k + 1, acc + p.discs);
          assert r.1[..|log|] == r.1[..|log'|][..|log|];
          assert r.0.Ok? ==> r.0.value[..|acc|] == r.0.value[..|acc + p.discs|][..|acc|];
          r
  }

  /** `get_user_albums`: the token, then the listing from offset 0. */
  function UserAlbumsSpec(site: Site, log: seq<Request>, uid: nat): (r: (Result<seq<Album>>, seq<Request>))
    ensures |r.1| > |log| && r.1[..|log|] == log && r.1[|log|] == MusicPage(uid)
    ensures TokenSpec(site, log, uid).0.Err? ==> r == (Err(TokenSpec(site, log, uid).0.error), log + [MusicPage(uid)])
    ensures TokenSpec(site, log, uid).0.Ok? ==>
      r == Walk(site, log + [MusicPage(uid)], uid, TokenSpec(site, log, uid).0.value, 0, [])
  {
    var (token, log') := TokenSpec(site, log, uid);
    match token
    case Err(e) => (Err(e), log')
    case Ok(t) => Walk(site, log', uid, t, 0, [])
  }

  /** Pages `k` to `n` all arrived, all but page `n` said there were more,
      and page `n` said there were no more. */
  predicate StopsAt(listing: seq<Result<AlbumListResponse>>, k: nat, n: nat) {
    k <= n < |listing|
    && (forall j :: k <= j <= n ==> listing[j].Ok?)
    && (forall j :: k <= j < n ==> listing[j].value.canShowMore)
    && !listing[n].value.canShowMore
  }

  /** The albums of pages `k` to `n - 1`, in order. */
  function Discs(listing: seq<Result<AlbumListResponse>>, k: nat, n: nat): seq<Album>
    requires k <= n <= |listing| && forall j :: k <= j < n ==> listing[j].Ok?
    decreases n - k
  {
    if k == n then [] else listing[k].value.discs + Discs(listing, k + 1, n)
  }

  /** The listing requests go to offsets `20k`, `20(k+1)`, ..., each asking
      for the twenty albums after its offset, with the same user and token. */
  lemma {:induction false} WalkRequests(site: Site, log: seq<Request>, uid: nat, token: string, k: nat, acc: seq<Album>)
    ensures var log' := Walk(site, log, uid, token, k, acc).1;
      |log'| > |log| && log'[..|log|] == log
      && forall j :: |log| <= j < |log'| ==> log'[j] == ListRequest(uid, token, k + j - |log|)
    decreases |site.listing| - k
  {
    var log1 := log + [ListRequest(uid, token, k)];
    if k < |site.listing| && site.listing[k].Ok? && site.listing[k].value.canShowMore {
      var p := site.listing[k].value;
      WalkRequests(site, log1, uid, token, k + 1, acc + p.discs);
      var log' := Walk(site, log, uid, token, k, acc).1;
      assert log' == Walk(site, log1, uid, token, k + 1, acc + p.discs).1;
      assert log'[..|log1|][..|log|] == log'[..|log|];
    }
  }

  /** When the listing stops at page `n`, the walk returns every album of
      pages `k` to `n` after `acc`, in order, having made one request per page. */
  lemma {:induction false} WalkCollects(site: Site, log: seq<Request>, uid: nat, token: string, k: nat, acc: seq<Album>, n: nat)
    requires StopsAt(site.listing, k, n)
    ensures Walk(site, log, uid, token, k, acc).0 == Ok(acc + Discs(site.listing, k, n + 1))
    ensures |Walk(site, log, uid, token, k, acc).1| == |log| + n - k + 1
    decreases n - k
  {
    var p := site.listing[k].value;
    var log1 := log + [ListRequest(uid, token, k)];
    if k == n {
      assert Walk(site, log, uid, token, k, acc) == (Ok(acc + p.discs), log1);
      assert Discs(site.listing, k, n + 1) == p.discs;
    } else {
      assert StopsAt(site.listing, k + 1, n);
      assert Walk(site, log, uid, token, k, acc) == Walk(site, log1, uid, token, k + 1, acc + p.discs);
      WalkCollects(site, log1, uid, token, k + 1, acc + p.discs, n);
      var d := Discs(site.listing, k + 1, n + 1);
      assert Discs(site.listing, k, n + 1) == p.discs + d;
      assert acc + p.discs + d == acc + (p.discs + d);
    }
  }

  /** The walk fails, returning no albums at all, exactly when the listing
      never stops: some page fails before a page says there are no more. */
  lemma {:induction false} WalkFails(site: Site, log: seq<Request>, uid: nat, token: string, k: nat, acc: seq<Album>)
    ensures Walk(site, log, uid, token, k, acc).0.Err? <==> forall n :: !StopsAt(site.listing, k, n)
    decreases |site.listing| - k
  {
    var r := Walk(site, log, uid, token, k, acc).0;
    if n :| StopsAt(site.listing, k, n) {
      WalkCollects(site, log, uid, token, k, acc, n);
    } else if k < |site.listing| && site.listing[k].Ok? {
      var p := site.listing[k].value;
      if !p.canShowMore {
        assert StopsAt(site.listing, k, k);
      } else {
        var next := k + 1;
        forall n | StopsAt(site.listing, next, n) ensures false {
          assert StopsAt(site.listing, k, n);
        }
        WalkFails(site, log + [ListRequest(uid, token, k)], uid, token, next, acc + p.discs);
      }
    }
  }

  /** The token is asked for once, first; every later request of the walk is
      a listing page carrying that token. */
  lemma UserAlbumsRequests(site: Site, log: seq<Request>, uid: nat)
    ensures var log' := UserAlbumsSpec(site, log, uid).1;
      |log'| > |log| && log'[..|log| + 1] == log + [MusicPage(uid)]
      && forall j :: |log| < j < |log'| ==>
           log'[j].AlbumListPage? && log'[j].uid == uid && Ok(log'[j].token) == TokenSpec(site, log, uid).0
  {
    var (token, log1) := TokenSpec(site, log, uid);
    if token.Ok? {
      WalkRequests(site, log1, uid, token.value, 0, []);
      var log' := UserAlbumsSpec(site, log, uid).1;
      assert log'[..|log1|] == log1;
      assert log'[..|log| + 1] == log1;
    }
  }

  // ---------------------------------------------------------------- album details

  /** The album a bare id starts as: placeholders, no cover, no gift flag. */
  function Placeholder(id: string): Album {
    Album(id, UnknownTitle, UnknownLabel, "", false, None, None, [], None, None)
  }

  /** The album after the fields of its page `doc` are merged in: title and
      label only while they are still placeholders, everything the page
      describes always. */
  function Enriched(a: Album, doc: Document): (r: Album)
    ensures r.id == a.id && r.cover == a.cover && r.onlyHaveGift == a.onlyHaveGift
    ensures a.title != UnknownTitle ==> r.title == a.title
    ensures a.labelName != UnknownLabel ==> r.labelName == a.labelName
    ensures a.title == UnknownTitle ==> r.title == ExtractTitle(doc).GetOr(UnknownTitle)
    ensures a.labelName == UnknownLabel ==> r.labelName == ExtractLabel(doc).GetOr(UnknownLabel)
    ensures r.releaseDate == ExtractReleaseDate(doc) && r.description == ExtractDescription(doc)
    ensures r.tags == TagsOf(doc) && r.year == ExtractYear(doc) && r.authors == ExtractAuthors(doc)
  {
    a.(title := if a.title == UnknownTitle then ExtractTitle(doc).GetOr(a.title) else a.title,
       labelName := if a.labelName == UnknownLabel then ExtractLabel(doc).GetOr(a.labelName) else a.labelName,
       releaseDate := ExtractReleaseDate(doc),
       description := ExtractDescription(doc),
       tags := TagsOf(doc),
       year := ExtractYear(doc),
       authors := ExtractAuthors(doc))
  }

  /** The fields read from one page agree with each other: there is a year
      exactly when there is a release date, and it is the date's first four
      characters; there are authors only when there is a description. */
  lemma EnrichedConsistent(a: Album, doc: Document)
    ensures var r := Enriched(a, doc);
      (r.year.Some? <==> r.releaseDate.Some?)
      && (r.year.Some? ==> |r.releaseDate.value| >= 4 && r.year.value == r.releaseDate.value[..4])
      && (r.authors.Some? ==> r.description.Some?)
  {
  }

  /** Merging the same page twice changes nothing the first merge did not. */
  lemma EnrichedIdempotent(a: Album, doc: Document)
    ensures Enriched(Enriched(a, doc), doc) == Enriched(a, doc)
  {
  }

  /** `get_album_details`: the album's page, merged in; when the page cannot
      be fetched, the album is left as it was. */
  function DetailsSpec(site: Site, log: seq<Request>, a: Album): (r: (Result<()>, Album, seq<Request>))
    ensures r.2 == log + [AlbumPage(a.id)]
    ensures r.1.id == a.id
    ensures site.page(AlbumPage(a.id), |log|).Err? ==>
      r.0 == Err(site.page(AlbumPage(a.id), |log|).error) && r.1 == a
    ensures site.page(AlbumPage(a.id), |log|).Ok? ==>
      r.0 == Ok(()) && r.1 == Enriched(a, site.parse(site.page(AlbumPage(a.id), |log|).value))
  {
    var log' := log + [AlbumPage(a.id)];
    match site.page(AlbumPage(a.id), |log|)
    case Err(e) => (Err(e), a, log')
    case Ok(html) => (Ok(()), Enriched(a, site.parse(html)), log')
  }

  /** `get_album_by_id`: one album-page request; a page error is passed
      through, and a page yields the placeholder album with the page merged in. */
  function AlbumByIdSpec(site: Site, log: seq<Request>, id: string): (r: (Result<Album>, seq<Request>))
    ensures r.1 == log + [AlbumPage(id)]
    ensures site.page(AlbumPage(id), |log|).Err? ==>
      r.0 == Err(site.page(AlbumPage(id), |log|).error)
    ensures site.page(AlbumPage(id), |log|).Ok? ==>
      r.0 == Ok(Enriched(Placeholder(id), site.parse(site.page(AlbumPage(id), |log|).value)))
  {
    var (r, a, log') := DetailsSpec(site, log, Placeholder(id));
    match r
    case Err(e) => (Err(e), log')
    case Ok(_) => (Ok(a), log')
  }

  /** An album fetched by id has that id, no cover, no gift flag, and the
      page's title and label where the page has them. */
  lemma AlbumByIdFields(site: Site, log: seq<Request>, id: string)
    ensures var r := AlbumByIdSpec(site, log, id).0;
      r.Ok? ==>
        r.value.id == id && r.value.cover == "" && !r.value.onlyHaveGift
        && (exists html :: site.page(AlbumPage(id), |log|) == Ok(html)
              && r.value.title == ExtractTitle(site.parse(html)).GetOr(UnknownTitle)
              && r.value.labelName == ExtractLabel(site.parse(html)).GetOr(UnknownLabel))
  {
  }

  // ---------------------------------------------------------------- download links

  const SiteRoot: string := "https://www.dizzylab.net"
  const GiftUrlPrefix: string := SiteRoot + "/albums/download_gift/"
  const DownloadUrlPrefix: string := SiteRoot + "/albums/download/?d="

  /** The download link for `format`, with the key substituted. */
  function DownloadUrl(id: string, format: string, key: string): (u: string)
    ensures EndsWith(u, "k=" + key)
    ensures format == "gift" <==> StartsWith(u, GiftUrlPrefix)
  {
    if format == "gift" then
      var u := GiftUrlPrefix + id + "/?k=" + key;
      assert u[|u| - |"k=" + key|..] == "k=" + key;
      u
    else
      var u := DownloadUrlPrefix + id + "&tp=" + format + "&k=" + key;
      assert u[|u| - |"k=" + key|..] == "k=" + key;
      assert u[..|GiftUrlPrefix|][40] != GiftUrlPrefix[40];
      u
  }

  /** The links of a page for one format: a missing gift key means the album
      has no gift (no links); a missing key for any other format is an error. */
  function LinksFrom(doc: Document, id: string, format: string): (r: Result<map<string, string>>)
    ensures r.Ok? && |r.value| == 0 <==> format == "gift" && ExtractDownloadKey(doc, format).Err?
    ensures r.Err? <==> format != "gift" && ExtractDownloadKey(doc, format).Err?
    ensures r.Ok? && |r.value| != 0 ==>
      r.value.Keys == {format} && r.value[format] == DownloadUrl(id, format, ExtractDownloadKey(doc, format).value)
  {
    match ExtractDownloadKey(doc, format)
    case Err(_) => if format == "gift" then Ok(map[]) else Err("download key not found for format " + format)
    case Ok(k) => Ok(map[format := DownloadUrl(id, format, k)])
  }

  /** `get_download_links`. */
  function LinksSpec(site: Site, log: seq<Request>, id: string, format: string)
    : (r: (Result<map<string, string>>, seq<Request>))
    ensures r.1 == log + [AlbumPage(id)]
    ensures site.page(AlbumPage(id), |log|).Err? ==> r.0 == Err(site.page(AlbumPage(id), |log|).error)
    ensures site.page(AlbumPage(id), |log|).Ok? ==>
      r.0 == LinksFrom(site.parse(site.page(AlbumPage(id), |log|).value), id, format)
  {
    var log' := log + [AlbumPage(id)];
    match site.page(AlbumPage(id), |log|)
    case Err(e) => (Err(e), log')
    case Ok(html) => (LinksFrom(site.parse(html), id, format), log')
  }

  /** The key scanner reads `key` back from the end of `p + "k=" + key` when
      no `k=` starts inside `p` (one starting at its last character would
      need a `k` after it, hence the `p + "k"`). */
  lemma KeyAfterPrefix(p: string, key: string)
    requires !Occurs(p + "k", "k=") && key != [] && '&' !in key
    ensures KeyIn(p + "k=" + key) == Some(key)
  {
    var u := p + "k=" + key;
    forall j: nat | j < |p| ensures KeyAt(u, j).None? {
      assert (p + "k")[j..j + 2] == u[j..j + 2] by {
        assert (p + "k")[j] == u[j] && (p + "k")[j + 1] == u[j + 1];
      }
      assert !OccursAt(p + "k", "k=", j);
    }
    assert u[|p|..|p| + 2] == "k=";
    assert u[|p| + 2..] == key;
    forall k | |p| + 2 <= k < |u| ensures NotAmp(u[k]) {
      assert u[k] == key[k - |p| - 2];
    }
    assert RunLength(u, |p| + 2, |u|, NotAmp) == |key|;
    assert u[|p| + 2..|p| + 2 + |key|] == key;
    assert OccursAt(u, "k=", |p|);
    assert KeyAt(u, |p|) == Some(key);
    LeftmostAt(|u|, 0, KeyMatcher(u), |p|);
  }

  /** No `k=` starts in `a + x + b` when `a` has no `k`, `x` and `b` have
      no `k=` of their own and `b` does not start with `=`. */
  lemma NoKeyAcross(a: string, x: string, b: string)
    requires 'k' !in a && !Occurs(x, "k=") && !Occurs(b, "k=") && (b == [] || b[0] != '=')
    ensures !Occurs(a + x + b, "k=")
  {
    var s := a + x + b;
    forall j: nat | j <= |s| ensures !OccursAt(s, "k=", j) {
      if j + 2 <= |s| {
        assert s[j..j + 2] == [s[j], s[j + 1]];
        if j < |a| {
          assert s[j] == a[j];
        } else if j + 1 < |a| + |x| {
          assert x[j - |a|..j - |a| + 2] == s[j..j + 2];
          assert !OccursAt(x, "k=", j - |a|);
        } else if j < |a| + |x| {
          assert s[j + 1] == b[0];
        } else {
          assert b[j - |a| - |x|..j - |a| - |x| + 2] == s[j..j + 2];
          assert !OccursAt(b, "k=", j - |a| - |x|);
        }
      }
    }
  }

  /** A text whose only `k` is its last character holds no `k=`. */
  lemma NoKeyIn(b: string)
    requires |b| > 0 && 'k' !in b[..|b| - 1]
    ensures !Occurs(b, "k=")
  {
    forall j: nat | j + 2 <= |b| ensures b[j] != 'k' {
      assert b[j] == b[..|b| - 1][j];
    }
    forall j: nat | j <= |b| ensures !OccursAt(b, "k=", j) {
      if j + 2 <= |b| {
        assert b[j..j + 2][0] == b[j];
      }
    }
  }

  /** Neither link prefix holds a `k`. */
  lemma PrefixesHaveNoK()
    ensures 'k' !in GiftUrlPrefix && 'k' !in DownloadUrlPrefix
  {
  }

  /** The key scanner reads back the key of a link built here, as long as
      neither the album id nor the format holds a `k=` (which would be found
      first). */
  lemma DownloadKeyRoundTrip(id: string, format: string, key: string)
    requires !Occurs(id, "k=") && !Occurs(format, "k=")
    requires key != [] && '&' !in key
    ensures KeyIn(DownloadUrl(id, format, key)) == Some(key)
  {
    if format == "gift" {
      GiftKeyRoundTrip(id, key);
    } else {
      FormatKeyRoundTrip(id, format, key);
    }
  }

  /** The gift link's key is read back. */
  lemma GiftKeyRoundTrip(id: string, key: string)
    requires !Occurs(id, "k=") && key != [] && '&' !in key
    ensures KeyIn(GiftUrlPrefix + id + "/?k=" + key) == Some(key)
  {
    PrefixesHaveNoK();
    var p := GiftUrlPrefix + id + "/?";
    assert GiftUrlPrefix + id + "/?k=" + key == p + "k=" + key;
    NoKeyIn("/?k");
    NoKeyAcross(GiftUrlPrefix, id, "/?k");
    assert p + "k" == GiftUrlPrefix + id + "/?k";
    KeyAfterPrefix(p, key);
  }

  /** The key of a link for any other format is read back. */
  lemma FormatKeyRoundTrip(id: string, format: string, key: string)
    requires !Occurs(id, "k=") && !Occurs(format, "k=") && key != [] && '&' !in key
    ensures KeyIn(DownloadUrlPrefix + id + "&tp=" + format + "&k=" + key) == Some(key)
  {
    PrefixesHaveNoK();
    var p := DownloadUrlPrefix + id + "&tp=" + format + "&";
    assert DownloadUrlPrefix + id + "&tp=" + format + "&k=" + key == p + "k=" + key;
    NoKeyIn("&k");
    NoKeyAcross("&tp=", format, "&k");
    NoKeyAcross(DownloadUrlPrefix, id, "&tp=" + format + "&k");
    assert p + "k" == DownloadUrlPrefix + id + ("&tp=" + format + "&k");
    KeyAfterPrefix(p, key);
  }

  // ---------------------------------------------------------------- downloads

  /** `HeaderValue::to_str` accepts visible ASCII and tab only. */
  predicate VisibleAscii(b: Bytes) {
    forall k :: 0 <= k < |b| ==> b[k] == 9 || 32 <= b[k] < 127
  }

  function AsciiText(b: Bytes): (s: string)
    ensures |s| == |b|
    ensures forall k :: 0 <= k < |b| ==> s[k] as int == b[k] as int
  {
    if b == [] then [] else [b[0] as int as char] + AsciiText(b[1..])
  }

  predicate IsRedirection(status: nat) {
    300 <= status <= 399
  }

  /** `download_file`: the link is fetched with cookie and referer; a
      redirection that carries a `Location` is followed to the CDN without
      them; no status is checked, the body of whatever answered is the file.
      A download makes one request, or two when it follows a redirection. */
  function DownloadFileSpec(site: Site, log: seq<Request>, url: string, id: string)
    : (r: (Result<Bytes>, seq<Request>))
    ensures |r.1| == |log| + 1 || (|r.1| == |log| + 2 && r.1[|log| + 1].Cdn?)
    ensures r.1[..|log|] == log && r.1[|log|] == Download(url, id)
  {
    var log' := log + [Download(url, id)];
    match site.fetch(Download(url, id), |log|)
    case Err(e) => (Err(e), log')
    case Ok(resp) =>
      if IsRedirection(resp.status) && resp.location.Some? then
        if !VisibleAscii(resp.location.value) then (Err("failed to convert header to a str"), log')
        else
          var cdn := Cdn(AsciiText(resp.location.value));
          match site.fetch(cdn, |log'|)
          case Err(e) => (Err(e), log' + [cdn])
          case Ok(c) => (c.body, log' + [cdn])
      else (resp.body, log')
  }

  /** An answer that is not a redirection with a location is taken as the
      file whatever its status: an error page becomes the download. */
  lemma DownloadIgnoresStatus(site: Site, log: seq<Request>, url: string, id: string, resp: Response)
    requires site.fetch(Download(url, id), |log|) == Ok(resp)
    requires !IsRedirection(resp.status) || resp.location.None?
    ensures DownloadFileSpec(site, log, url, id) == (resp.body, log + [Download(url, id)])
  {
  }

  /** A redirection whose `Location` is visible ASCII is followed: the CDN
      request for that location is logged after the link, and its answer's
      body, or its error, is the download. A location with other bytes fails
      after the first request. */
  lemma DownloadFollowsRedirect(site: Site, log: seq<Request>, url: string, id: string, resp: Response)
    requires site.fetch(Download(url, id), |log|) == Ok(resp)
    requires IsRedirection(resp.status) && resp.location.Some?
    ensures !VisibleAscii(resp.location.value) ==>
      DownloadFileSpec(site, log, url, id) == (Err("failed to convert header to a str"), log + [Download(url, id)])
    ensures VisibleAscii(resp.location.value) ==>
      var cdn := Cdn(AsciiText(resp.location.value));
      var answer := site.fetch(cdn, |log| + 1);
      DownloadFileSpec(site, log, url, id).1 == log + [Download(url, id), cdn]
      && (answer.Err? ==> DownloadFileSpec(site, log, url, id).0 == Err(answer.error))
      && (answer.Ok? ==> DownloadFileSpec(site, log, url, id).0 == answer.value.body)
  {
  }

  /** `download_cover`: an empty URL fails without a request; any answer
      outside 200-299 fails. */
  function CoverSpec(site: Site, log: seq<Request>, url: string, id: string): (r: (Result<Bytes>, seq<Request>))
    ensures url == [] ==> r.0.Err? && r.1 == log
    ensures url != [] ==> r.1 == log + [Cover(url, id)]
    ensures url != [] && site.fetch(Cover(url, id), |log|).Err? ==> r.0 == Err(site.fetch(Cover(url, id), |log|).error)
    ensures r.0.Ok? ==> site.fetch(Cover(url, id), |log|).Ok?
                        && 200 <= site.fetch(Cover(url, id), |log|).value.status <= 299
                        && r.0 == site.fetch(Cover(url, id), |log|).value.body
    ensures (url != [] && site.fetch(Cover(url, id), |log|).Ok?
             && !(200 <= site.fetch(Cover(url, id), |log|).value.status <= 299)) ==> r.0.Err?
  {
    if url == [] then (Err("cover URL is empty"), log)
    else
      var log' := log + [Cover(url, id)];
      match site.fetch(Cover(url, id), |log|)
      case Err(e) => (Err(e), log')
      case Ok(resp) =>
        if !(200 <= resp.status <= 299) then (Err("cover download failed"), log')
        else (resp.body, log')
  }

  // ---------------------------------------------------------------- the client

  class DizzylabClient {
    const site: Site
    var log: seq<Request>

    constructor(site: Site)
      ensures this.site == site && log == []
    {
      this.site := site;
      log := [];
    }

    /** Requests a page and returns its text. */
    method GetPage(req: Request) returns (r: Result<string>)
      modifies this
      ensures r == site.page(req, |old(log)|) && log == old(log) + [req]
    {
      r := site.page(req, |log|);
      log := log + [req];
    }

    /** Requests a file. */
    method Fetch(req: Request) returns (r: Result<Response>)
      modifies this
      ensures r == site.fetch(req, |old(log)|) && log == old(log) + [req]
    {
      r := site.fetch(req, |log|);
      log := log + [req];
    }

    method GetUserInfo() returns (r: Result<UserInfo>)
      modifies this
      ensures (r, log) == UserInfoSpec(site, old(log))
    {
      var html := GetPage(HomePage);
      if html.Err? {
        return Err(html.error);
      }
      var uid := ExtractUserId(site.parse(html.value));
      if uid.Err? {
        return Err(uid.error);
      }
      r := Ok(UserInfo(uid.value, 0));
    }

    method GetUserToken(uid: nat) returns (r: Result<string>)
      modifies this
      ensures (r, log) == TokenSpec(site, old(log), uid)
    {
      var html := GetPage(MusicPage(uid));
      if html.Err? {
        return Err(html.error);
      }
      r := TokenFrom(html.value);
    }

    method GetUserAlbums(uid: nat) returns (r: Result<seq<Album>>)
      modifies this
      ensures (r, log) == UserAlbumsSpec(site, old(log), uid)
    {
      var token := GetUserToken(uid);
      if token.Err? {
        return Err(token.error);
      }
      var all: seq<Album> := [];
      var offset: nat := 0;
      ghost var start := log;
      while true
        invariant offset % PageSize == 0
        invariant UserAlbumsSpec(site, old(log), uid) == Walk(site, start, uid, token.value, 0, [])
        invariant Walk(site, start, uid, token.value, 0, []) == Walk(site, log, uid, token.value, offset / PageSize, all)
        decreases |site.listing| - offset / PageSize
      {
        var k := offset / PageSize;
        var req := AlbumListPage(offset, offset + PageSize, uid, token.value);
        assert req == ListRequest(uid, token.value, k);
        var page := if k < |site.listing| then site.listing[k] else Err("listing request failed");
        log := log + [req];
        if page.Err? {
          return Err(page.error);
        }
        all := all + page.value.discs;
        if !page.value.canShowMore {
          return Ok(all);
        }
        offset := offset + PageSize;
      }
    }

    /** `get_album_details`, on a copy: returns the album with the page's
        fields merged in, one field after the other. */
    method GetAlbumDetails(album: Album) returns (r: Result<()>, updated: Album)
      modifies this
      ensures (r, updated, log) == DetailsSpec(site, old(log), album)
    {
      updated := album;
      var html := GetPage(AlbumPage(album.id));
      if html.Err? {
        return Err(html.error), updated;
      }
      var doc := site.parse(html.value);
      if updated.title == UnknownTitle {
        updated := updated.(title := ExtractTitle(doc).GetOr(updated.title));
      }
      if updated.labelName == UnknownLabel {
        updated := updated.(labelName := ExtractLabel(doc).GetOr(updated.labelName));
      }
      updated := updated.(releaseDate := ExtractReleaseDate(doc));
      updated := updated.(description := ExtractDescription(doc));
      var tags := ExtractTags(doc);
      updated := updated.(tags := tags);
      updated := updated.(year := ExtractYear(doc));
      updated := updated.(authors := ExtractAuthors(doc));
      r := Ok(());
    }

    method GetAlbumById(id: string) returns (r: Result<Album>)
      modifies this
      ensures (r, log) == AlbumByIdSpec(site, old(log), id)
    {
      var album := Placeholder(id);
      var res, updated := GetAlbumDetails(album);
      if res.Err? {
        return Err(res.error);
      }
      r := Ok(updated);
    }

    method GetDownloadLinks(id: string, format: string) returns (r: Result<map<string, string>>)
      modifies this
      ensures (r, log) == LinksSpec(site, old(log), id, format)
    {
      var html := GetPage(AlbumPage(id));
      if html.Err? {
        return Err(html.error);
      }
      var doc := site.parse(html.value);
      var key := ExtractDownloadKey(doc, format);
      if key.Err? {
        if format == "gift" {
          return Ok(map[]);
        }
        return Err("download key not found for format " + format);
      }
      r := Ok(map[format := DownloadUrl(id, format, key.value)]);
    }

    method DownloadFile(url: string, id: string) returns (r: Result<Bytes>)
      modifies this
      ensures (r, log) == DownloadFileSpec(site, old(log), url, id)
    {
      var resp := Fetch(Download(url, id));
      if resp.Err? {
        return Err(resp.error);
      }
      if IsRedirection(resp.value.status) && resp.value.location.Some? {
        if !VisibleAscii(resp.value.location.value) {
          return Err("failed to convert header to a str");
        }
        var cdn := Fetch(Cdn(AsciiText(resp.value.location.value)));
        if cdn.Err? {
          return Err(cdn.error);
        }
        return cdn.value.body;
      }
      r := resp.value.body;
    }

    method DownloadCover(url: string, id: string) returns (r: Result<Bytes>)
      modifies this
      ensures (r, log) == CoverSpec(site, old(log), url, id)
    {
      if url == [] {
        return Err("cover URL is empty");
      }
      var resp := Fetch(Cover(url, id));
      if resp.Err? {
        return Err(resp.error);
      }
      if !(200 <= resp.value.status <= 299) {
        return Err("cover download failed");
      }
      r := resp.value.body;
    }
  }
}

=== FILE: config.dfy ===
/** The synchroniser's configuration: who the user is, which formats to
    fetch and how to lay them out, where to write, and what to do besides
    downloading. */
module Configuration {
  import opened Wrappers

  datatype UserConfig = UserConfig(cookie: string)

  /** `formats` holds format names such as `128`, `MP3`, `FLAC` and `gift`. */
  datatype DownloadConfig = DownloadConfig(formats: seq<string>, flatten: bool)

  datatype PathsConfig = PathsConfig(outputDir: string, directoryTemplate: string)

  /** `metadataOnly` is read by the downloader; it is part of this record
      here (see README). */
  datatype BehaviorConfig = BehaviorConfig(
    skipExisting: bool,
    singleThreaded: bool,
    generateReadme: bool,
    generateNfo: bool,
    metadataOnly: bool)

  datatype Config = Config(
    user: UserConfig,
    download: DownloadConfig,
    paths: PathsConfig,
    behavior: BehaviorConfig)

  /** The value serde uses for a missing `generate_readme` or `generate_nfo`. */
  function DefaultTrue(): (b: bool)
    ensures b
  {
    true
  }

  /** `Config::default()`. */
  function Default(): (c: Config)
    ensures c.user.cookie == ""
    ensures c.download.formats == ["MP3", "FLAC"] && !c.download.flatten
    ensures c.paths.outputDir == "./DizzySync" && c.paths.directoryTemplate == "{album}/@{label}"
    ensures c.behavior.skipExisting && c.behavior.singleThreaded
    ensures c.behavior.generateReadme && c.behavior.generateNfo && !c.behavior.metadataOnly
  {
    Config(
      UserConfig(""),
      DownloadConfig(["MP3", "FLAC"], false),
      PathsConfig("./DizzySync", "{album}/@{label}"),
      BehaviorConfig(true, true, DefaultTrue(), DefaultTrue(), false))
  }

  /** The `[behavior]` table of a configuration file, each key present or not. */
  datatype BehaviorTable = BehaviorTable(
    skipExisting: Option<bool>,
    singleThreaded: Option<bool>,
    generateReadme: Option<bool>,
    generateNfo: Option<bool>,
    metadataOnly: Option<bool>)

  /** Deserialising the `[behavior]` table: `skip_existing` and
      `single_threaded` are required, the two generators default to true,
      and `metadata_only` to false. */
  function BehaviorFrom(t: BehaviorTable): (r: Result<BehaviorConfig>)
    ensures r.Ok? <==> t.skipExisting.Some? && t.singleThreaded.Some?
    ensures r.Ok? ==> r.value.skipExisting == t.skipExisting.value
                      && r.value.singleThreaded == t.singleThreaded.value
    ensures r.Ok? && t.generateReadme.None? ==> r.value.generateReadme
    ensures r.Ok? && t.generateNfo.None? ==> r.value.generateNfo
    ensures r.Ok? && t.metadataOnly.None? ==> !r.value.metadataOnly
    ensures r.Ok? && t.generateReadme.Some? ==> r.value.generateReadme == t.generateReadme.value
    ensures r.Ok? && t.generateNfo.Some? ==> r.value.generateNfo == t.generateNfo.value
    ensures r.Ok? && t.metadataOnly.Some? ==> r.value.metadataOnly == t.metadataOnly.value
  {
    match (t.skipExisting, t.singleThreaded)
    case (Some(skip), Some(single)) =>
      Ok(BehaviorConfig(skip, single,
                        t.generateReadme.GetOr(DefaultTrue()),
                        t.generateNfo.GetOr(DefaultTrue()),
                        t.metadataOnly.GetOr(false)))
    case (None, _) => Err("missing field `skip_existing`")
    case (_, None) => Err("missing field `single_threaded`")
  }

  /** Serialising a behaviour: every key written out. */
  function TableOf(b: BehaviorConfig): (t: BehaviorTable)
    ensures t.skipExisting.Some? && t.singleThreaded.Some? && t.generateReadme.Some?
    ensures t.generateNfo.Some? && t.metadataOnly.Some?
  {
    BehaviorTable(Some(b.skipExisting), Some(b.singleThreaded), Some(b.generateReadme),
                  Some(b.generateNfo), Some(b.metadataOnly))
  }

  /** Writing out any behaviour and reading it back gives it again. */
  lemma BehaviorRoundTrip(b: BehaviorConfig)
    ensures BehaviorFrom(TableOf(b)) == Ok(b)
  {
  }

  /** A table that names only the required keys reads as the default behaviour. */
  lemma SparseTableIsDefault()
    ensures BehaviorFrom(BehaviorTable(Some(true), Some(true), None, None, None)) == Ok(Default().behavior)
  {
  }
}

=== FILE: downloader.dfy ===
/** The synchroniser: for each album, fetch its details, choose its
    directory, write the README and NFO sidecars, then download and unpack
    every configured format, carrying on past failures. The network is the
    client's `Site`, the disk a `FileSystem`; the specification functions
    below describe a run as a function of both, and the `Downloader` methods
    are proved to follow them. */
module Sync {
  import opened Wrappers
  import opened Text
  import opened Utf8
  import opened Files
  import opened Extraction
  import opened Naming
  import opened Archive
  import Client
  import Configuration

  /** Everything a run changes: the requests made so far and the disk. */
  datatype World = World(log: seq<Client.Request>, fs: Fs)

  /** Everything a run reads besides the world: the site, the configuration,
      the working directory relative paths start from, the archive and text
      codecs, and the time. */
  datatype Env = Env(site: Client.Site, config: Configuration.Config, cwd: Path, codecs: Codecs, clock: Clock)

  /** `config.paths.output_dir`, from the working directory. */
  function OutputDir(env: Env): Path {
    JoinPath(env.cwd, env.config.paths.outputDir)
  }

  /** `get_album_directory`. */
  function AlbumDir(env: Env, a: Client.Album): Path {
    JoinPath(OutputDir(env), DirectoryName(env.config.paths.directoryTemplate, a, env.clock))
  }

  // ---------------------------------------------------------------- sidecars

  const ReadmeTemplateFile: string := "readme.template.md"

  /** `generate_readme`: the template from `readme.template.md` when it can
      be read as text, the default one otherwise, filled in and written to
      `README.md` in the album directory. */
  function ReadmeSpec(env: Env, fs: Fs, a: Client.Album, dir: Path): (r: Result<Fs>)
    ensures r.Ok? <==> WriteSpec(fs, JoinPath(dir, "README.md"), []).Ok?
    ensures r.Ok? ==> r.value.dirs == fs.dirs
    ensures r.Ok? && ReadToStringSpec(fs, JoinPath(env.cwd, ReadmeTemplateFile)).Ok? ==>
      ReadToStringSpec(r.value, JoinPath(dir, "README.md"))
        == Ok(ReadmeText(ReadToStringSpec(fs, JoinPath(env.cwd, ReadmeTemplateFile)).value, a,
                         env.config.download.formats, env.clock))
    ensures r.Ok? && ReadToStringSpec(fs, JoinPath(env.cwd, ReadmeTemplateFile)).Err? ==>
      ReadToStringSpec(r.value, JoinPath(dir, "README.md"))
        == Ok(ReadmeText(DefaultReadmeTemplate, a, env.config.download.formats, env.clock))
  {
    var template :=
      match ReadToStringSpec(fs, JoinPath(env.cwd, ReadmeTemplateFile))
      case Ok(t) => t
      case Err(_) => DefaultReadmeTemplate;
    var text := ReadmeText(template, a, env.config.download.formats, env.clock);
    var r := WriteSpec(fs, JoinPath(dir, "README.md"), Encode(text));
    assert r.Ok? ==> ReadToStringSpec(r.value, JoinPath(dir, "README.md")) == Ok(text) by {
      if r.Ok? { WriteThenRead(fs, JoinPath(dir, "README.md"), text); }
    }
    r
  }

  /** `generate_nfo`: the NFO document written to `album.nfo`. */
  function NfoSpec(fs: Fs, a: Client.Album, dir: Path): (r: Result<Fs>)
    ensures r.Ok? <==> WriteSpec(fs, JoinPath(dir, "album.nfo"), []).Ok?
    ensures r.Ok? ==> r.value.dirs == fs.dirs
    ensures r.Ok? ==> ReadToStringSpec(r.value, JoinPath(dir, "album.nfo")) == Ok(NfoContent(a))
  {
    var r := WriteSpec(fs, JoinPath(dir, "album.nfo"), Encode(NfoContent(a)));
    assert r.Ok? ==> ReadToStringSpec(r.value, JoinPath(dir, "album.nfo")) == Ok(NfoContent(a)) by {
      if r.Ok? { WriteThenRead(fs, JoinPath(dir, "album.nfo"), NfoContent(a)); }
    }
    r
  }

  /** Without a template file the README is the default template filled in. */
  lemma ReadmeDefault(env: Env, fs: Fs, a: Client.Album, dir: Path)
    requires JoinPath(env.cwd, ReadmeTemplateFile) !in fs.files
    requires WriteSpec(fs, JoinPath(dir, "README.md"), []).Ok?
    ensures ReadmeSpec(env, fs, a, dir).Ok?
    ensures ReadToStringSpec(ReadmeSpec(env, fs, a, dir).value, JoinPath(dir, "README.md"))
            == Ok(ReadmeText(DefaultReadmeTemplate, a, env.config.download.formats, env.clock))
  {
    var text := ReadmeText(DefaultReadmeTemplate, a, env.config.download.formats, env.clock);
    WriteThenRead(fs, JoinPath(dir, "README.md"), text);
  }

  // ---------------------------------------------------------------- one format

  /** What `download_format` does with a downloaded payload: unpack a ZIP or
      RAR archive, or save anything else as `<title>.<extension>`. */
  function PlacePayload(env: Env, fs: Fs, a: Client.Album, format: string, dir: Path, payload: Bytes): (r: (Result<()>, Fs))
    ensures Valid(fs) ==> Valid(r.1)
    ensures fs.dirs <= r.1.dirs
    ensures DetectArchiveFormat(payload) == Unknown && r.0.Ok? ==>
      var p := JoinPath(dir, a.title + "." + FileExtension(format));
      p in r.1.files && r.1.files[p] == payload
  {
    match DetectArchiveFormat(payload)
    case Zip => ExtractZipSpec(fs, payload, dir, format, env.config.download.flatten, env.codecs)
    case Rar => ExtractRarSpec(fs, payload, dir, format, env.config.download.flatten, a.id, env.codecs)
    case Unknown => Outcome(fs, WriteSpec(fs, JoinPath(dir, a.title + "." + FileExtension(format)), payload))
  }

  /** The requests one attempt at a format makes: the album page for the
      links, then the download and the redirection it may follow. */
  function AttemptRequests(site: Client.Site, log: seq<Client.Request>, id: string, format: string): (r: seq<Client.Request>)
    ensures |log| < |r| <= |log| + 3 && r[..|log|] == log && r[|log|] == Client.AlbumPage(id)
    ensures |r| > |log| + 1 ==> r[|log| + 1].Download?
    ensures |r| > |log| + 2 ==> r[|log| + 2].Cdn?
  {
    var links := Client.LinksSpec(site, log, id, format);
    if links.0.Ok? && |links.0.value| != 0 && format in links.0.value then
      var d := Client.DownloadFileSpec(site, links.1, links.0.value[format], id).1;
      DownloadAfterPage(log, links.1, d, id);
      d
    else
      assert links.1[..|log|] == log;
      links.1
  }

  /** A download (and the redirection it may follow) logged after the album
      page keeps the page request in its place. */
  lemma DownloadAfterPage(log: seq<Client.Request>, log1: seq<Client.Request>, d: seq<Client.Request>, id: string)
    requires log1 == log + [Client.AlbumPage(id)]
    requires |d| == |log1| + 1 || (|d| == |log1| + 2 && d[|log1| + 1].Cdn?)
    requires d[..|log1|] == log1 && d[|log1|].Download?
    ensures |log| < |d| <= |log| + 3 && d[..|log|] == log && d[|log|] == Client.AlbumPage(id)
    ensures |d| > |log| + 1 ==> d[|log| + 1].Download?
    ensures |d| > |log| + 2 ==> d[|log| + 2].Cdn?
  {
    assert d[..|log|] == d[..|log1|][..|log|];
    assert d[|log|] == d[..|log1|][|log|];
  }

  /** Each attempt at a format asks for the album page exactly once. */
  lemma AttemptPageRequests(site: Client.Site, log: seq<Client.Request>, id: string, format: string)
    ensures PageRequests(AttemptRequests(site, log, id, format)) == PageRequests(log) + 1
  {
    OnePageRequest(log, AttemptRequests(site, log, id, format), id);
  }

  /** A log extended by one album page and up to two requests of other
      kinds holds one more album page request. */
  lemma OnePageRequest(log: seq<Client.Request>, r: seq<Client.Request>, id: string)
    requires |log| < |r| <= |log| + 3 && r[..|log|] == log && r[|log|] == Client.AlbumPage(id)
    requires |r| > |log| + 1 ==> r[|log| + 1].Download?
    requires |r| > |log| + 2 ==> r[|log| + 2].Cdn?
    ensures PageRequests(r) == PageRequests(log) + 1
  {
    var extra := AttemptTail(log, r, id);
    NoPageRequests(extra);
    PageRequestsAppend(log + [Client.AlbumPage(id)], extra);
    PageRequestsAppend(log, [Client.AlbumPage(id)]);
    assert PageRequests([Client.AlbumPage(id)]) == 1 by {
      assert [Client.AlbumPage(id)][..0] == [];
    }
  }

  /** What follows the album page in such a log is no album page. */
  lemma AttemptTail(log: seq<Client.Request>, r: seq<Client.Request>, id: string) returns (extra: seq<Client.Request>)
    requires |log| < |r| <= |log| + 3 && r[..|log|] == log && r[|log|] == Client.AlbumPage(id)
    requires |r| > |log| + 1 ==> r[|log| + 1].Download?
    requires |r| > |log| + 2 ==> r[|log| + 2].Cdn?
    ensures r == log + [Client.AlbumPage(id)] + extra
    ensures forall k :: 0 <= k < |extra| ==> !extra[k].AlbumPage?
  {
    extra := r[|log| + 1..];
    assert r[..|log| + 1] == log + [Client.AlbumPage(id)];
    assert r == r[..|log| + 1] + extra;
    forall k | 0 <= k < |extra| ensures !extra[k].AlbumPage? {
      assert extra[k] == r[|log| + 1 + k];
    }
  }

  /** `download_format`: the links for the format; none at all means the
      album has no such format and is not an error; otherwise the link is
      downloaded and its payload placed. */
  function DownloadFormatSpec(env: Env, w: World, a: Client.Album, format: string, dir: Path): (r: (Result<()>, World))
    ensures Valid(w.fs) ==> Valid(r.1.fs)
    ensures w.fs.dirs <= r.1.fs.dirs
    ensures r.1.log == AttemptRequests(env.site, w.log, a.id, format)
  {
    var links := Client.LinksSpec(env.site, w.log, a.id, format);
    var log1 := links.1;
    match links.0
    case Err(e) => (Err(e), World(log1, w.fs))
    case Ok(m) =>
      if |m| == 0 then (Ok(()), World(log1, w.fs))
      else if format !in m then (Err("no download link for format " + format), World(log1, w.fs))
      else
        var data := Client.DownloadFileSpec(env.site, log1, m[format], a.id);
        match data.0
        case Err(e) => (Err(e), World(data.1, w.fs))
        case Ok(payload) =>
          var placed := PlacePayload(env, w.fs, a, format, dir, payload);
          (placed.0, World(data.1, placed.1))
  }

  /** An album without the format (no links at all) costs one request and
      writes nothing. */
  lemma NoLinksWritesNothing(env: Env, w: World, a: Client.Album, format: string, dir: Path)
    requires var links := Client.LinksSpec(env.site, w.log, a.id, format).0; links.Ok? && |links.value| == 0
    ensures DownloadFormatSpec(env, w, a, format, dir) == (Ok(()), World(w.log + [Client.AlbumPage(a.id)], w.fs))
  {
  }

  /** The download loop of `download_album`: every format in order, a failed
      one skipped. */
  function FormatsSpec(env: Env, w: World, a: Client.Album, formats: seq<string>, dir: Path): (r: World)
    ensures Valid(w.fs) ==> Valid(r.fs)
    ensures w.fs.dirs <= r.fs.dirs
    ensures |r.log| >= |w.log| && r.log[..|w.log|] == w.log
    decreases |formats|
  {
    if formats == [] then w
    else
      var w1 := DownloadFormatSpec(env, w, a, formats[0], dir).1;
      var r := FormatsSpec(env, w1, a, formats[1..], dir);
      assert r.log[..|w.log|] == r.log[..|w1.log|][..|w.log|];
      r
  }

  /** How many album pages a request log asks for. */
  function PageRequests(log: seq<Client.Request>): nat {
    if log == [] then 0
    else PageRequests(log[..|log| - 1]) + (if log[|log| - 1].AlbumPage? then 1 else 0)
  }

  lemma {:induction false} PageRequestsAppend(s: seq<Client.Request>, t: seq<Client.Request>)
    ensures PageRequests(s + t) == PageRequests(s) + PageRequests(t)
    decreases |t|
  {
    if t != [] {
      assert (s + t)[..|s + t| - 1] == s + t[..|t| - 1];
      assert (s + t)[|s + t| - 1] == t[|t| - 1];
      PageRequestsAppend(s, t[..|t| - 1]);
    } else {
      assert s + t == s;
    }
  }

  lemma {:induction false} NoPageRequests(s: seq<Client.Request>)
    requires forall k :: 0 <= k < |s| ==> !s[k].AlbumPage?
    ensures PageRequests(s) == 0
    decreases |s|
  {
    if s != [] {
      NoPageRequests(s[..|s| - 1]);
    }
  }

  /** Every configured format is attempted, whatever happens to the others:
      the loop asks for the album page once per format. */
  lemma {:induction false} EveryFormatAttempted(env: Env, w: World, a: Client.Album, formats: seq<string>, dir: Path)
    ensures PageRequests(FormatsSpec(env, w, a, formats, dir).log) == PageRequests(w.log) + |formats|
    decreases |formats|
  {
    if formats != [] {
      var w1 := DownloadFormatSpec(env, w, a, formats[0], dir).1;
      AttemptPageRequests(env.site, w.log, a.id, formats[0]);
      EveryFormatAttempted(env, w1, a, formats[1..], dir);
    }
  }

  // ---------------------------------------------------------------- one album

  /** The README step of `download_album`: a failure is only logged. */
  function ReadmeStep(env: Env, fs: Fs, a: Client.Album, dir: Path): (r: Fs)
    ensures Valid(fs) ==> Valid(r)
    ensures r.dirs == fs.dirs
    ensures forall q :: q in r.files ==> q in fs.files || q == JoinPath(dir, "README.md")
  {
    if env.config.behavior.generateReadme then Outcome(fs, ReadmeSpec(env, fs, a, dir)).1 else fs
  }

  /** The NFO step of `download_album`: a failure is only logged. */
  function NfoStep(env: Env, fs: Fs, a: Client.Album, dir: Path): (r: Fs)
    ensures Valid(fs) ==> Valid(r)
    ensures r.dirs == fs.dirs
    ensures forall q :: q in r.files ==> q in fs.files || q == JoinPath(dir, "album.nfo")
  {
    if env.config.behavior.generateNfo then Outcome(fs, NfoSpec(fs, a, dir)).1 else fs
  }

  /** `download_album` once the details are merged in (or not) and the
      directory is chosen: the skip check, the directory, the sidecars, the
      metadata-only exit, then the formats. */
  function AlbumAfterDetails(env: Env, w: World, a: Client.Album, dir: Path): (r: (Result<()>, World))
    ensures Valid(w.fs) ==> Valid(r.1.fs)
    ensures |r.1.log| >= |w.log| && r.1.log[..|w.log|] == w.log
    ensures w.fs.dirs <= r.1.fs.dirs
    ensures !(env.config.behavior.skipExisting && Exists(w.fs, dir)) ==>
      (r.0.Err? <==> CreateDirAllSpec(w.fs, dir).Err?) && (r.0.Ok? ==> dir in r.1.fs.dirs)
  {
    var b := env.config.behavior;
    if b.skipExisting && Exists(w.fs, dir) then (Ok(()), w)
    else match CreateDirAllSpec(w.fs, dir)
      case Err(e) => (Err(e), w)
      case Ok(fs1) =>
        var fs2 := NfoStep(env, ReadmeStep(env, fs1, a, dir), a, dir);
        if b.metadataOnly then (Ok(()), World(w.log, fs2))
        else (Ok(()), FormatsSpec(env, World(w.log, fs2), a, env.config.download.formats, dir))
  }

  /** `download_album`: a failure to fetch the details is only logged. */
  function DownloadAlbumSpec(env: Env, w: World, a: Client.Album): (r: (Result<()>, World))
    ensures Valid(w.fs) ==> Valid(r.1.fs)
    ensures w.fs.dirs <= r.1.fs.dirs
  {
    var details := Client.DetailsSpec(env.site, w.log, a);
    AlbumAfterDetails(env, World(details.2, w.fs), details.1, AlbumDir(env, details.1))
  }

  /** When the details cannot be fetched the album is still processed, as it was. */
  lemma DetailsFailureDoesNotAbort(env: Env, w: World, a: Client.Album)
    requires env.site.page(Client.AlbumPage(a.id), |w.log|).Err?
    ensures DownloadAlbumSpec(env, w, a) == AlbumAfterDetails(env, World(w.log + [Client.AlbumPage(a.id)], w.fs), a, AlbumDir(env, a))
  {
  }

  /** An existing album directory with `skip_existing` set: the details
      request is all that happens, and nothing is written. */
  lemma SkipWritesNothing(env: Env, w: World, a: Client.Album)
    requires env.config.behavior.skipExisting
    requires Exists(w.fs, AlbumDir(env, Client.DetailsSpec(env.site, w.log, a).1))
    ensures DownloadAlbumSpec(env, w, a) == (Ok(()), World(w.log + [Client.AlbumPage(a.id)], w.fs))
  {
  }

  /** With `metadata_only`, nothing is requested once the directory is
      made, and the only files written are the two sidecars. */
  lemma MetadataOnlyWritesSidecars(env: Env, w: World, a: Client.Album, dir: Path)
    requires env.config.behavior.metadataOnly
    ensures var r := AlbumAfterDetails(env, w, a, dir).1;
      r.log == w.log
      && forall q :: q in r.fs.files ==> q in w.fs.files || q == JoinPath(dir, "README.md") || q == JoinPath(dir, "album.nfo")
  {
  }

  /** With `metadata_only`, the album's detail page is the only request. */
  lemma MetadataOnlyDownloadsNothing(env: Env, w: World, a: Client.Album)
    requires env.config.behavior.metadataOnly
    ensures DownloadAlbumSpec(env, w, a).1.log == w.log + [Client.AlbumPage(a.id)]
  {
    var details := Client.DetailsSpec(env.site, w.log, a);
    MetadataOnlyWritesSidecars(env, World(details.2, w.fs), details.1, AlbumDir(env, details.1));
  }

  // ---------------------------------------------------------------- all albums

  /** Without a release date the page's other details are dropped too. */
  function Cleared(a: Client.Album): (r: Client.Album)
    ensures a.releaseDate.Some? ==> r == a
    ensures a.releaseDate.None? ==>
      r.releaseDate.None? && r.description.None? && r.tags == [] && r.year.None? && r.authors.None?
    ensures r.id == a.id && r.title == a.title && r.labelName == a.labelName && r.cover == a.cover
  {
    if a.releaseDate.None? then a.(releaseDate := None, description := None, tags := [], year := None, authors := None)
    else a
  }

  /** The album loop of `sync_all_albums`: in list order, a failed album
      logged and skipped. */
  function AlbumsLoop(env: Env, w: World, albums: seq<Client.Album>): (r: World)
    ensures Valid(w.fs) ==> Valid(r.fs)
    ensures w.fs.dirs <= r.fs.dirs
    decreases |albums|
  {
    if albums == [] then w
    else AlbumsLoop(env, DownloadAlbumSpec(env, w, Cleared(albums[0])).1, albums[1..])
  }

  /** Processing a list is processing its first part, then the rest from
      wherever the first part left off. */
  lemma {:induction false} AlbumsLoopAppend(env: Env, w: World, xs: seq<Client.Album>, ys: seq<Client.Album>)
    ensures AlbumsLoop(env, w, xs + ys) == AlbumsLoop(env, AlbumsLoop(env, w, xs), ys)
    decreases |xs|
  {
    if xs == [] {
      assert xs + ys == ys;
    } else {
      assert (xs + ys)[0] == xs[0] && (xs + ys)[1..] == xs[1..] + ys;
      AlbumsLoopAppend(env, DownloadAlbumSpec(env, w, Cleared(xs[0])).1, xs[1..], ys);
    }
  }

  /** `sync_all_albums`: the output directory, then every album. Only a
      failure to create the output directory is an error. */
  function SyncSpec(env: Env, w: World, albums: seq<Client.Album>): (r: (Result<()>, World))
    ensures r.0.Err? ==> r.1 == w
    ensures r.0.Err? <==> CreateDirAllSpec(w.fs, OutputDir(env)).Err?
    ensures r.0.Ok? ==> OutputDir(env) in r.1.fs.dirs
    ensures Valid(w.fs) ==> Valid(r.1.fs)
  {
    match CreateDirAllSpec(w.fs, OutputDir(env))
    case Err(e) => (Err(e), w)
    case Ok(fs1) => (Ok(()), AlbumsLoop(env, World(w.log, fs1), albums))
  }

  // ---------------------------------------------------------------- the downloader

  class Downloader {
    const client: Client.DizzylabClient
    const files: FileSystem
    const config: Configuration.Config
    const cwd: Path
    const codecs: Codecs
    const clock: Clock

    function Environment(): Env {
      Env(client.site, config, cwd, codecs, clock)
    }

    function Current(): World
      reads client, files
    {
      World(client.log, files.State())
    }

    constructor(client: Client.DizzylabClient, files: FileSystem, config: Configuration.Config,
                cwd: Path, codecs: Codecs, clock: Clock)
      ensures this.client == client && this.files == files && this.config == config
      ensures this.cwd == cwd && this.codecs == codecs && this.clock == clock
    {
      this.client := client;
      this.files := files;
      this.config := config;
      this.cwd := cwd;
      this.codecs := codecs;
      this.clock := clock;
    }

    /** `generate_directory_name`, one placeholder after the other. */
    method GenerateDirectoryName(album: Client.Album) returns (result: string)
      ensures result == DirectoryName(config.paths.directoryTemplate, album, clock)
    {
      var currentYear := clock.year;
      var currentDate := clock.date;
      result := config.paths.directoryTemplate;
      result := Replace(result, "{album}", SanitizeFilename(album.title));
      result := Replace(result, "{label}", SanitizeFilename(album.labelName));
      var authors := album.authors.GetOr(album.labelName);
      result := Replace(result, "{authors}", SanitizeFilename(authors));
      var year := album.year.GetOr(currentYear);
      result := Replace(result, "{year}", year);
      var date := match album.releaseDate case Some(d) => ConvertChineseDateToIso(d) case None => currentDate;
      result := Replace(result, "{date}", date);
      DirectoryNameSteps(config.paths.directoryTemplate, album, clock);
    }

    method GetAlbumDirectory(album: Client.Album) returns (dir: Path)
      ensures dir == AlbumDir(Environment(), album)
    {
      var name := GenerateDirectoryName(album);
      dir := JoinPath(JoinPath(cwd, config.paths.outputDir), name);
    }

    /** `apply_template_variables`, one placeholder after the other. */
    method ApplyTemplateVariables(template: string, album: Client.Album) returns (result: string)
      ensures result == ReadmeText(template, album, config.download.formats, clock)
    {
      result := template;
      result := Replace(result, "{album}", album.title);
      result := Replace(result, "{label}", album.labelName);
      result := Replace(result, "{id}", album.id);
      result := Replace(result, "{cover}", album.cover);
      result := Replace(result, "{release_date}", album.releaseDate.GetOr("未知"));
      result := Replace(result, "{description}", album.description.GetOr("暂无描述"));
      result := Replace(result, "{tags}", Join(album.tags, ", "));
      result := Replace(result, "{authors}", album.authors.GetOr(album.labelName));
      result := Replace(result, "{year}", album.year.GetOr("未知"));
      result := Replace(result, "{download_date}", clock.timestamp);
      result := Replace(result, "{formats}", Join(config.download.formats, ", "));
      ReadmeTextSplit(template, album, config.download.formats, clock, |ReadmePatterns|);
      assert ReadmePatterns[|ReadmePatterns|..] == [];
    }

    method GenerateReadme(album: Client.Album, dir: Path) returns (r: Result<()>)
      modifies files
      ensures (r, files.State()) == Outcome(old(files.State()), ReadmeSpec(Environment(), old(files.State()), album, dir))
    {
      var loaded := files.ReadToString(JoinPath(cwd, ReadmeTemplateFile));
      var template := if loaded.Ok? then loaded.value else DefaultReadmeTemplate;
      var content := ApplyTemplateVariables(template, album);
      r := files.Write(JoinPath(dir, "README.md"), Encode(content));
    }

    method GenerateNfo(album: Client.Album, dir: Path) returns (r: Result<()>)
      modifies files
      ensures (r, files.State()) == Outcome(old(files.State()), NfoSpec(old(files.State()), album, dir))
    {
      var content := NfoContent(album);
      r := files.Write(JoinPath(dir, "album.nfo"), Encode(content));
    }

    /** The folders a member needs: its format's folder unless flattening,
        then its parent. */
    method PrepareMemberFolders(format: string, dir: Path, out: Path) returns (r: Result<()>)
      modifies files
      ensures (r, files.State()) == PrepareFolders(old(files.State()), dir, format, config.download.flatten, out)
    {
      r := Ok(());
      if !config.download.flatten {
        r := files.CreateDirAll(JoinPath(dir, format));
        if r.Err? {
          return;
        }
      }
      if out != [] {
        r := files.CreateDirAll(out[..|out| - 1]);
      }
    }

    method ExtractZipMember(e: ZipEntry, format: string, dir: Path) returns (r: Result<()>)
      modifies files
      ensures (r, files.State()) == ZipMember(old(files.State()), e, dir, format, config.download.flatten, codecs.gbk)
    {
      if e.ZipEntryError? {
        return Err(e.msg);
      }
      var name := ZipName(e.rawName, codecs.gbk);
      if EndsWith(name, "/") {
        return Ok(());
      }
      var out := MemberPath(dir, format, config.download.flatten, name);
      r := PrepareMemberFolders(format, dir, out);
      if r.Err? {
        return;
      }
      r := CreateAndCopyMember(out, e.contents);
    }

    /** Creates the member's file, then copies its contents into it. */
    method CreateAndCopyMember(out: Path, contents: Contents) returns (r: Result<()>)
      modifies files
      ensures (r, files.State()) == CreateAndCopy(old(files.State()), out, contents)
    {
      ghost var prepared := files.State();
      r := files.Write(out, []);
      if r.Err? {
        return;
      }
      r := files.Write(out, contents.Copied());
      assert prepared.files[out := []][out := contents.Copied()] == prepared.files[out := contents.Copied()];
      if contents.Broken? {
        r := Err(contents.msg);
      }
    }

    /** `extract_zip_file`. */
    method ExtractZipFile(payload: Bytes, format: string, dir: Path) returns (r: Result<()>)
      modifies files
      ensures (r, files.State()) == ExtractZipSpec(old(files.State()), payload, dir, format, config.download.flatten, codecs)
    {
      var archive := codecs.unzip(payload);
      if archive.Err? {
        return Err(archive.error);
      }
      var entries := archive.value;
      ghost var goal := ExtractZipEntries(files.State(), entries, dir, format, config.download.flatten, codecs.gbk);
      for i := 0 to |entries|
        invariant goal == ExtractZipEntries(files.State(), entries[i..], dir, format, config.download.flatten, codecs.gbk)
      {
        assert entries[i..][0] == entries[i] && entries[i..][1..] == entries[i + 1..];
        r := ExtractZipMember(entries[i], format, dir);
        if r.Err? {
          return;
        }
      }
      assert entries[|entries|..] == [];
      r := Ok(());
    }

    method ExtractRarMember(name: string, data: Result<Bytes>, format: string, dir: Path) returns (r: Result<()>)
      modifies files
      ensures (r, files.State()) == RarMember(old(files.State()), name, data, dir, format, config.download.flatten)
    {
      var out := MemberPath(dir, format, config.download.flatten, name);
      r := PrepareMemberFolders(format, dir, out);
      if r.Err? {
        return;
      }
      if data.Err? {
        return Err(data.error);
      }
      r := files.Write(out, data.value);
    }

    /** `process_rar_archive`: a header that cannot be read ends the loop. */
    method ProcessRarArchive(headers: seq<RarHeader>, format: string, dir: Path) returns (r: Result<()>)
      modifies files
      ensures (r, files.State()) == ProcessRarHeaders(old(files.State()), headers, dir, format, config.download.flatten)
    {
      ghost var goal := ProcessRarHeaders(files.State(), headers, dir, format, config.download.flatten);
      var i := 0;
      while i < |headers|
        invariant 0 <= i <= |headers|
        invariant goal == ProcessRarHeaders(files.State(), headers[i..], dir, format, config.download.flatten)
      {
        assert headers[i..][0] == headers[i] && headers[i..][1..] == headers[i + 1..];
        match headers[i]
        case RarHeaderError(_) =>
          return Ok(());
        case RarEntry(name, isDirectory, data) =>
          if isDirectory {
            if data.Err? {
              return Err(data.error);
            }
          } else {
            r := ExtractRarMember(name, data, format, dir);
            if r.Err? {
              return;
            }
          }
        i := i + 1;
      }
      assert headers[i..] == [];
      r := Ok(());
    }

    /** `extract_rar_file`. */
    method ExtractRarFile(payload: Bytes, album: Client.Album, format: string, dir: Path) returns (r: Result<()>)
      modifies files
      ensures (r, files.State())
              == ExtractRarSpec(old(files.State()), payload, dir, format, config.download.flatten, album.id, codecs)
    {
      var temp := TempRarPath(dir, album.id);
      r := files.Write(temp, payload);
      if r.Err? {
        return;
      }
      var archive := codecs.unrar(payload);
      if archive.Err? {
        return Err(archive.error);
      }
      r := ProcessRarArchive(archive.value, format, dir);
      if r.Err? {
        return;
      }
      var removed := files.RemoveFile(temp);
      r := Ok(());
    }

    /** `download_format`. */
    method DownloadFormat(album: Client.Album, format: string, dir: Path) returns (r: Result<()>)
      modifies client, files
      ensures (r, Current()) == DownloadFormatSpec(Environment(), old(Current()), album, format, dir)
    {
      var links := client.GetDownloadLinks(album.id, format);
      if links.Err? {
        return Err(links.error);
      }
      if |links.value| == 0 {
        return Ok(());
      }
      if format !in links.value {
        return Err("no download link for format " + format);
      }
      var data := client.DownloadFile(links.value[format], album.id);
      if data.Err? {
        return Err(data.error);
      }
      match DetectArchiveFormat(data.value)
      case Zip =>
        r := ExtractZipFile(data.value, format, dir);
      case Rar =>
        r := ExtractRarFile(data.value, album, format, dir);
      case Unknown =>
        var path := JoinPath(dir, album.title + "." + FileExtension(format));
        r := files.Write(path, data.value);
    }

    /** `download_album`. */
    method DownloadAlbum(album: Client.Album) returns (r: Result<()>)
      modifies client, files
      ensures (r, Current()) == DownloadAlbumSpec(Environment(), old(Current()), album)
    {
      var details, a := client.GetAlbumDetails(album);
      var dir := GetAlbumDirectory(a);
      r := ProcessAlbum(a, dir);
    }

    /** `download_album` after the details step. */
    method ProcessAlbum(a: Client.Album, dir: Path) returns (r: Result<()>)
      modifies client, files
      ensures (r, Current()) == AlbumAfterDetails(Environment(), old(Current()), a, dir)
    {
      if config.behavior.skipExisting {
        var present := files.PathExists(dir);
        if present {
          return Ok(());
        }
      }
      r := files.CreateDirAll(dir);
      if r.Err? {
        return;
      }
      WriteSidecars(a, dir);
      if config.behavior.metadataOnly {
        return Ok(());
      }
      DownloadFormats(a, dir);
      r := Ok(());
    }

    /** The README and NFO steps of `download_album`. */
    method WriteSidecars(a: Client.Album, dir: Path)
      modifies files
      ensures files.State() == NfoStep(Environment(), ReadmeStep(Environment(), old(files.State()), a, dir), a, dir)
    {
      if config.behavior.generateReadme {
        var readme := GenerateReadme(a, dir);
      }
      if config.behavior.generateNfo {
        var nfo := GenerateNfo(a, dir);
      }
    }

    /** The download loop of `download_album`. */
    method DownloadFormats(a: Client.Album, dir: Path)
      modifies client, files
      ensures Current() == FormatsSpec(Environment(), old(Current()), a, config.download.formats, dir)
    {
      var formats := config.download.formats;
      ghost var goal := FormatsSpec(Environment(), Current(), a, formats, dir);
      for i := 0 to |formats|
        invariant goal == FormatsSpec(Environment(), Current(), a, formats[i..], dir)
      {
        assert formats[i..][0] == formats[i] && formats[i..][1..] == formats[i + 1..];
        var attempt := DownloadFormat(a, formats[i], dir);
      }
      assert formats[|formats|..] == [];
    }

    /** `sync_all_albums`. */
    method SyncAllAlbums(albums: seq<Client.Album>) returns (r: Result<()>)
      modifies client, files
      ensures (r, Current()) == SyncSpec(Environment(), old(Current()), albums)
    {
      r := files.CreateDirAll(JoinPath(cwd, config.paths.outputDir));
      if r.Err? {
        return;
      }
      ghost var goal := AlbumsLoop(Environment(), Current(), albums);
      for i := 0 to |albums|
        invariant goal == AlbumsLoop(Environment(), Current(), albums[i..])
      {
        assert albums[i..][0] == albums[i] && albums[i..][1..] == albums[i + 1..];
        var album := albums[i];
        if album.releaseDate.None? {
          album := album.(releaseDate := None, description := None, tags := [], year := None, authors := None);
        }
        var outcome := DownloadAlbum(album);
      }
      assert albums[|albums|..] == [];
      r := Ok(());
    }
  }
}

=== FILE: extraction.dfy ===
/** Unpacking a downloaded archive into the album directory: where each
    member goes, which members are skipped, and what is left on disk when
    something fails part way. Archives are given as the member list their
    library would enumerate; decompression itself is not modelled. */
module Extraction {
  import opened Wrappers
  import opened Text
  import opened Utf8
  import opened Files

  /** What `io::copy` gets out of a ZIP member: all of its contents, or the
      bytes it had copied when a read failed, with the failure. */
  datatype Contents = Complete(bytes: Bytes) | Broken(copied: Bytes, msg: string)
  {
    /** The bytes that reach the output file either way. */
    function Copied(): Bytes {
      match this
      case Complete(b) => b
      case Broken(c, _) => c
    }
  }

  /** A ZIP member as `by_index` yields it: its raw name bytes and what
      reading it gives, or the error `by_index` returns. */
  datatype ZipEntry = ZipEntry(rawName: Bytes, contents: Contents) | ZipEntryError(msg: string)

  /** A RAR header as `read_header` yields it. For a directory, `data` is
      the outcome of skipping it; for a file, of reading it. */
  datatype RarHeader = RarEntry(name: string, isDirectory: bool, data: Result<Bytes>) | RarHeaderError(msg: string)

  /** The archive libraries and the GBK decoder, which the model does not
      look inside. */
  datatype Codecs = Codecs(
    unzip: Bytes -> Result<seq<ZipEntry>>,
    unrar: Bytes -> Result<seq<RarHeader>>,
    gbk: Bytes -> string)

  /** A ZIP member's name: its bytes as UTF-8 when they are valid UTF-8, else
      decoded as GBK. */
  function ZipName(raw: Bytes, gbk: Bytes -> string): (name: string)
    ensures Decode(raw).Some? ==> name == Decode(raw).value && Encode(name) == raw
    ensures Decode(raw).None? ==> name == gbk(raw)
  {
    match Decode(raw)
    case Some(s) =>
      EncodeDecode(raw);
      s
    case None => gbk(raw)
  }

  /** A name stored as UTF-8 is read back exactly, whatever GBK would make of it. */
  lemma ZipNameUtf8(s: string, gbk: Bytes -> string)
    ensures ZipName(Encode(s), gbk) == s
  {
    DecodeEncode(s);
  }

  /** Where a member named `name` goes: under the album directory itself
      when flattening, else under its format's folder. Names are joined
      lexically, so the path holds no empty, `.` or `..` component. */
  function MemberPath(albumDir: Path, format: string, flatten: bool, name: string): (r: Path)
    ensures (forall k :: 0 <= k < |albumDir| ==> IsNormal(albumDir[k])) ==>
              forall k :: 0 <= k < |r| ==> IsNormal(r[k])
  {
    if flatten then
      JoinPathIsNormal(albumDir, name);
      JoinPath(albumDir, name)
    else
      var folder := JoinPath(albumDir, format);
      JoinPathIsNormal(albumDir, format);
      JoinPathIsNormal(folder, name);
      JoinPath(folder, name)
  }

  /** A name with only plain components, such as `CD1/01.flac`, keeps its
      whole relative path under the album directory, or under the format's
      folder there. */
  lemma MemberPathPlain(albumDir: Path, format: string, flatten: bool, name: string)
    requires forall k :: 0 <= k < |SplitSlash(name)| ==> IsNormal(SplitSlash(name)[k])
    requires !flatten ==> IsNormal(format) && '/' !in format
    ensures flatten ==> MemberPath(albumDir, format, flatten, name) == albumDir + SplitSlash(name)
    ensures !flatten ==> MemberPath(albumDir, format, flatten, name) == albumDir + [format] + SplitSlash(name)
  {
    if flatten {
      JoinPlainName(albumDir, name);
    } else {
      SplitWithoutSlash(format);
      JoinPlainName(albumDir, format);
      JoinPlainName(albumDir + [format], name);
    }
  }

  /** Text without `/` splits into itself. */
  lemma {:induction false} SplitWithoutSlash(s: string)
    requires '/' !in s
    ensures SplitSlash(s) == [s]
    decreases |s|
  {
    if s != [] {
      SplitWithoutSlash(s[1..]);
      assert [s[0]] + s[1..] == s;
    }
  }

  /** Creating the format's folder (unless flattening) and then the folder
      that will hold `out`; each step's effect stays when a later one fails. */
  function PrepareFolders(fs: Fs, albumDir: Path, format: string, flatten: bool, out: Path): (r: (Result<()>, Fs))
    ensures r.1.files == fs.files && fs.dirs <= r.1.dirs
    ensures r.0.Ok? && out != [] ==> out[..|out| - 1] in r.1.dirs
  {
    var (r1, fs1) := if flatten then (Ok(()), fs) else Outcome(fs, CreateDirAllSpec(fs, JoinPath(albumDir, format)));
    if r1.Err? then (r1, fs1)
    else if out == [] then (Ok(()), fs1)
    else Outcome(fs1, CreateDirAllSpec(fs1, out[..|out| - 1]))
  }

  // ---------------------------------------------------------------- ZIP

  /** The file a ZIP member is extracted to; directory members have none. */
  function ZipTarget(e: ZipEntry, albumDir: Path, format: string, flatten: bool, gbk: Bytes -> string): Option<Path> {
    match e
    case ZipEntryError(_) => None
    case ZipEntry(raw, _) =>
      var name := ZipName(raw, gbk);
      if EndsWith(name, "/") then None else Some(MemberPath(albumDir, format, flatten, name))
  }

  /** `File::create` followed by `io::copy`: the file is created empty
      before its contents are read, so a read that fails part way leaves the
      bytes copied until then behind. */
  function CreateAndCopy(fs: Fs, out: Path, contents: Contents): (r: (Result<()>, Fs))
    ensures Valid(fs) ==> Valid(r.1)
    ensures fs.dirs <= r.1.dirs
    ensures r.0.Ok? <==> contents.Complete? && WriteSpec(fs, out, []).Ok?
    ensures r.0.Ok? ==> r.1 == WriteSpec(fs, out, contents.bytes).value
    ensures contents.Broken? && WriteSpec(fs, out, []).Ok? ==>
      r.0 == Err(contents.msg) && r.1 == WriteSpec(fs, out, contents.copied).value
    ensures WriteSpec(fs, out, []).Err? ==> r.1 == fs
  {
    match WriteSpec(fs, out, [])
    case Err(m) => (Err(m), fs)
    case Ok(_) =>
      match contents
      case Complete(bytes) => (Ok(()), WriteSpec(fs, out, bytes).value)
      case Broken(copied, m) => (Err(m), WriteSpec(fs, out, copied).value)
  }

  /** One member of `extract_zip_file`'s loop. The file is created before
      its contents are copied, so a member whose contents cannot be read
      leaves what was copied of it behind. */
  function ZipMember(fs: Fs, e: ZipEntry, albumDir: Path, format: string, flatten: bool, gbk: Bytes -> string): (r: (Result<()>, Fs))
    ensures e.ZipEntryError? ==> r == (Err(e.msg), fs)
    ensures ZipTarget(e, albumDir, format, flatten, gbk).None? && e.ZipEntry? ==> r == (Ok(()), fs)
    ensures r.0.Ok? && ZipTarget(e, albumDir, format, flatten, gbk).Some? ==>
      e.contents.Complete? && r.1.files == fs.files[ZipTarget(e, albumDir, format, flatten, gbk).value := e.contents.bytes]
    ensures ZipTarget(e, albumDir, format, flatten, gbk).Some? && e.contents.Broken? ==> r.0.Err?
    ensures Valid(fs) ==> Valid(r.1)
    ensures fs.dirs <= r.1.dirs
  {
    match e
    case ZipEntryError(m) => (Err(m), fs)
    case ZipEntry(raw, contents) =>
      var name := ZipName(raw, gbk);
      if EndsWith(name, "/") then (Ok(()), fs)
      else
        var out := MemberPath(albumDir, format, flatten, name);
        var (r1, fs1) := PrepareFolders(fs, albumDir, format, flatten, out);
        if r1.Err? then (r1, fs1)
        else CreateAndCopy(fs1, out, contents)
  }

  /** The member loop of `extract_zip_file`: members in order, stopping at
      the first error. */
  function ExtractZipEntries(fs: Fs, entries: seq<ZipEntry>, albumDir: Path, format: string, flatten: bool,
                             gbk: Bytes -> string): (r: (Result<()>, Fs))
    ensures Valid(fs) ==> Valid(r.1)
    ensures fs.dirs <= r.1.dirs
    decreases |entries|
  {
    if entries == [] then (Ok(()), fs)
    else
      var step := ZipMember(fs, entries[0], albumDir, format, flatten, gbk);
      if step.0.Err? then step
      else ExtractZipEntries(step.1, entries[1..], albumDir, format, flatten, gbk)
  }

  /** `extract_zip_file`: an unreadable archive changes nothing. */
  function ExtractZipSpec(fs: Fs, payload: Bytes, albumDir: Path, format: string, flatten: bool, codecs: Codecs): (r: (Result<()>, Fs))
    ensures codecs.unzip(payload).Err? ==> r == (Err(codecs.unzip(payload).error), fs)
    ensures Valid(fs) ==> Valid(r.1)
    ensures fs.dirs <= r.1.dirs
  {
    match codecs.unzip(payload)
    case Err(m) => (Err(m), fs)
    case Ok(entries) => ExtractZipEntries(fs, entries, albumDir, format, flatten, codecs.gbk)
  }

  /** A file no member is extracted to keeps what it held, or stays absent. */
  lemma {:induction false} ZipUntouched(fs: Fs, entries: seq<ZipEntry>, albumDir: Path, format: string, flatten: bool,
                                        gbk: Bytes -> string, q: Path)
    requires forall k :: 0 <= k < |entries| ==> ZipTarget(entries[k], albumDir, format, flatten, gbk) != Some(q)
    ensures var after := ExtractZipEntries(fs, entries, albumDir, format, flatten, gbk).1;
      (q in after.files <==> q in fs.files) && (q in fs.files ==> after.files[q] == fs.files[q])
    decreases |entries|
  {
    if entries != [] {
      var (r1, fs1) := ZipMember(fs, entries[0], albumDir, format, flatten, gbk);
      assert (q in fs1.files <==> q in fs.files) && (q in fs.files ==> fs1.files[q] == fs.files[q]) by {
        ZipMemberFrame(fs, entries[0], albumDir, format, flatten, gbk, q);
      }
      if r1.Ok? {
        ZipUntouched(fs1, entries[1..], albumDir, format, flatten, gbk, q);
      }
    }
  }

  /** A member's step leaves alone every file but its own target. */
  lemma ZipMemberFrame(fs: Fs, e: ZipEntry, albumDir: Path, format: string, flatten: bool, gbk: Bytes -> string, q: Path)
    requires ZipTarget(e, albumDir, format, flatten, gbk) != Some(q)
    ensures var after := ZipMember(fs, e, albumDir, format, flatten, gbk).1;
      (q in after.files <==> q in fs.files) && (q in fs.files ==> after.files[q] == fs.files[q])
  {
  }

  /** When extraction succeeds, each file member's target holds its contents
      unless a later member is extracted to the same place: existing files
      are overwritten and the last writer wins. */
  lemma {:induction false} ZipLastWriteWins(fs: Fs, entries: seq<ZipEntry>, albumDir: Path, format: string, flatten: bool,
                                            gbk: Bytes -> string, i: int, p: Path)
    requires ExtractZipEntries(fs, entries, albumDir, format, flatten, gbk).0.Ok?
    requires 0 <= i < |entries| && ZipTarget(entries[i], albumDir, format, flatten, gbk) == Some(p)
    requires forall k :: i < k < |entries| ==> ZipTarget(entries[k], albumDir, format, flatten, gbk) != Some(p)
    ensures entries[i].ZipEntry? && entries[i].contents.Complete?
    ensures var after := ExtractZipEntries(fs, entries, albumDir, format, flatten, gbk).1;
      p in after.files && after.files[p] == entries[i].contents.bytes
    decreases |entries|
  {
    if i == 0 {
      ZipFirstWriteKept(fs, entries, albumDir, format, flatten, gbk, p);
    } else {
      var fs1 := ZipEntriesStep(fs, entries, albumDir, format, flatten, gbk);
      TargetsAfterHead(entries, albumDir, format, flatten, gbk, i, p);
      ZipLastWriteWins(fs1, entries[1..], albumDir, format, flatten, gbk, i - 1, p);
      var after := ExtractZipEntries(fs1, entries[1..], albumDir, format, flatten, gbk).1;
      assert p in after.files && after.files[p] == entries[1..][i - 1].contents.bytes;
    }
  }

  /** Dropping the first member keeps the members after `i` away from `p`. */
  lemma TargetsAfterHead(entries: seq<ZipEntry>, albumDir: Path, format: string, flatten: bool,
                         gbk: Bytes -> string, i: int, p: Path)
    requires 0 <= i < |entries|
    requires forall k :: i < k < |entries| ==> ZipTarget(entries[k], albumDir, format, flatten, gbk) != Some(p)
    ensures i > 0 ==> entries[1..][i - 1] == entries[i]
    ensures forall k :: i - 1 < k < |entries[1..]| ==> ZipTarget(entries[1..][k], albumDir, format, flatten, gbk) != Some(p)
  {
    forall k | i - 1 < k < |entries[1..]|
      ensures ZipTarget(entries[1..][k], albumDir, format, flatten, gbk) != Some(p)
    {
      assert entries[1..][k] == entries[k + 1];
    }
  }

  /** A successful extraction of several members is the first member's
      extraction followed by the rest's. */
  lemma ZipEntriesStep(fs: Fs, entries: seq<ZipEntry>, albumDir: Path, format: string, flatten: bool,
                       gbk: Bytes -> string) returns (fs1: Fs)
    requires entries != [] && ExtractZipEntries(fs, entries, albumDir, format, flatten, gbk).0.Ok?
    ensures ExtractZipEntries(fs, entries, albumDir, format, flatten, gbk)
         == ExtractZipEntries(fs1, entries[1..], albumDir, format, flatten, gbk)
  {
    fs1 := ZipMember(fs, entries[0], albumDir, format, flatten, gbk).1;
  }

  /** The first member's file survives when no later member targets it. */
  lemma ZipFirstWriteKept(fs: Fs, entries: seq<ZipEntry>, albumDir: Path, format: string, flatten: bool,
                          gbk: Bytes -> string, p: Path)
    requires ExtractZipEntries(fs, entries, albumDir, format, flatten, gbk).0.Ok?
    requires 0 < |entries| && ZipTarget(entries[0], albumDir, format, flatten, gbk) == Some(p)
    requires forall k :: 0 < k < |entries| ==> ZipTarget(entries[k], albumDir, format, flatten, gbk) != Some(p)
    ensures entries[0].ZipEntry? && entries[0].contents.Complete?
    ensures var after := ExtractZipEntries(fs, entries, albumDir, format, flatten, gbk).1;
      p in after.files && after.files[p] == entries[0].contents.bytes
  {
    var step := ZipMember(fs, entries[0], albumDir, format, flatten, gbk);
    assert step.0.Ok?;
    TargetsAfterHead(entries, albumDir, format, flatten, gbk, 0, p);
    ZipUntouched(step.1, entries[1..], albumDir, format, flatten, gbk, p);
  }

  /** An archive of directory members only writes nothing. */
  lemma {:induction false} ZipDirectoriesWriteNothing(fs: Fs, entries: seq<ZipEntry>, albumDir: Path, format: string,
                                                      flatten: bool, gbk: Bytes -> string)
    requires forall k :: 0 <= k < |entries| ==> entries[k].ZipEntry? && EndsWith(ZipName(entries[k].rawName, gbk), "/")
    ensures ExtractZipEntries(fs, entries, albumDir, format, flatten, gbk) == (Ok(()), fs)
    decreases |entries|
  {
    if entries != [] {
      ZipDirectoriesWriteNothing(fs, entries[1..], albumDir, format, flatten, gbk);
    }
  }

  // ---------------------------------------------------------------- RAR

  /** One file header of `process_rar_archive`: folders first, then the
      contents are read, and only then is the file written. */
  function RarMember(fs: Fs, name: string, data: Result<Bytes>, albumDir: Path, format: string, flatten: bool): (r: (Result<()>, Fs))
    ensures r.0.Ok? ==> data.Ok? && r.1.files == fs.files[MemberPath(albumDir, format, flatten, name) := data.value]
    ensures r.0.Err? ==> r.1.files == fs.files
    ensures data.Err? ==> r.0.Err?
    ensures Valid(fs) ==> Valid(r.1)
    ensures fs.dirs <= r.1.dirs
  {
    var out := MemberPath(albumDir, format, flatten, name);
    var (r1, fs1) := PrepareFolders(fs, albumDir, format, flatten, out);
    if r1.Err? then (r1, fs1)
    else match data
      case Err(m) => (Err(m), fs1)
      case Ok(bytes) => Outcome(fs1, WriteSpec(fs1, out, bytes))
  }

  /** `process_rar_archive`: headers in order; a directory is skipped, a
      failure to skip or to extract a file is an error, and a header that
      cannot be read ends the loop as if the archive ended there. */
  function ProcessRarHeaders(fs: Fs, headers: seq<RarHeader>, albumDir: Path, format: string, flatten: bool): (r: (Result<()>, Fs))
    ensures forall q :: q in fs.files ==> q in r.1.files
    ensures Valid(fs) ==> Valid(r.1)
    ensures fs.dirs <= r.1.dirs
    decreases |headers|
  {
    if headers == [] then (Ok(()), fs)
    else match headers[0]
      case RarHeaderError(_) => (Ok(()), fs)
      case RarEntry(name, isDirectory, data) =>
        if isDirectory then
          if data.Err? then (Err(data.error), fs)
          else ProcessRarHeaders(fs, headers[1..], albumDir, format, flatten)
        else
          var (r1, fs1) := RarMember(fs, name, data, albumDir, format, flatten);
          if r1.Err? then (r1, fs1)
          else ProcessRarHeaders(fs1, headers[1..], albumDir, format, flatten)
  }

  /** The file a RAR header is extracted to; directories and unreadable
      headers have none. */
  function RarTarget(h: RarHeader, albumDir: Path, format: string, flatten: bool): Option<Path> {
    match h
    case RarHeaderError(_) => None
    case RarEntry(name, isDirectory, _) => if isDirectory then None else Some(MemberPath(albumDir, format, flatten, name))
  }

  /** A file no header is extracted to keeps what it held, or stays absent. */
  lemma {:induction false} RarUntouched(fs: Fs, headers: seq<RarHeader>, albumDir: Path, format: string, flatten: bool, q: Path)
    requires forall k :: 0 <= k < |headers| ==> RarTarget(headers[k], albumDir, format, flatten) != Some(q)
    ensures var after := ProcessRarHeaders(fs, headers, albumDir, format, flatten).1;
      (q in after.files <==> q in fs.files) && (q in fs.files ==> after.files[q] == fs.files[q])
    decreases |headers|
  {
    if headers != [] && headers[0].RarEntry? {
      assert forall k :: 0 <= k < |headers[1..]| ==> headers[1..][k] == headers[k + 1];
      var RarEntry(name, isDirectory, data) := headers[0];
      if isDirectory {
        RarUntouched(fs, headers[1..], albumDir, format, flatten, q);
      } else {
        var (r1, fs1) := RarMember(fs, name, data, albumDir, format, flatten);
        if r1.Ok? {
          RarUntouched(fs1, headers[1..], albumDir, format, flatten, q);
        }
      }
    }
  }

  /** When the loop succeeds, each file header's target holds its contents
      unless a later header is extracted to the same place, provided every
      header up to it could be read (an unreadable one ends the loop). */
  lemma {:induction false} RarLastWriteWins(fs: Fs, headers: seq<RarHeader>, albumDir: Path, format: string, flatten: bool,
                                            i: int, p: Path)
    requires ProcessRarHeaders(fs, headers, albumDir, format, flatten).0.Ok?
    requires 0 <= i < |headers| && RarTarget(headers[i], albumDir, format, flatten) == Some(p)
    requires forall k :: 0 <= k < i ==> headers[k].RarEntry?
    requires forall k :: i < k < |headers| ==> RarTarget(headers[k], albumDir, format, flatten) != Some(p)
    ensures headers[i].data.Ok?
    ensures var after := ProcessRarHeaders(fs, headers, albumDir, format, flatten).1;
      p in after.files && after.files[p] == headers[i].data.value
    decreases |headers|
  {
    var RarEntry(name, isDirectory, data) := headers[0];
    var rest := headers[1..];
    assert forall k :: 0 <= k < |rest| ==> rest[k] == headers[k + 1];
    if i == 0 {
      var (r1, fs1) := RarMember(fs, name, data, albumDir, format, flatten);
      RarUntouched(fs1, rest, albumDir, format, flatten, p);
    } else if isDirectory {
      RarLastWriteWins(fs, rest, albumDir, format, flatten, i - 1, p);
    } else {
      var (r1, fs1) := RarMember(fs, name, data, albumDir, format, flatten);
      RarLastWriteWins(fs1, rest, albumDir, format, flatten, i - 1, p);
    }
  }

  /** An archive of directory headers only, all skipped without error,
      writes nothing. */
  lemma {:induction false} RarDirectoriesWriteNothing(fs: Fs, headers: seq<RarHeader>, albumDir: Path, format: string, flatten: bool)
    requires forall k :: 0 <= k < |headers| ==> headers[k].RarEntry? && headers[k].isDirectory && headers[k].data.Ok?
    ensures ProcessRarHeaders(fs, headers, albumDir, format, flatten) == (Ok(()), fs)
    decreases |headers|
  {
    if headers != [] {
      RarDirectoriesWriteNothing(fs, headers[1..], albumDir, format, flatten);
    }
  }

  /** The headers after one that cannot be read are never looked at, and the
      loop still succeeds if everything before it did. */
  lemma {:induction false} RarHeaderErrorEndsLoop(fs: Fs, before: seq<RarHeader>, msg: string, after: seq<RarHeader>,
                                                  albumDir: Path, format: string, flatten: bool)
    ensures ProcessRarHeaders(fs, before + [RarHeaderError(msg)] + after, albumDir, format, flatten)
            == ProcessRarHeaders(fs, before, albumDir, format, flatten)
    decreases |before|
  {
    var hs := before + [RarHeaderError(msg)] + after;
    if before == [] {
      assert hs[0] == RarHeaderError(msg);
    } else {
      assert hs[0] == before[0];
      assert hs[1..] == before[1..] + [RarHeaderError(msg)] + after;
      match before[0]
      case RarHeaderError(_) =>
      case RarEntry(name, isDirectory, data) =>
        if isDirectory {
          RarHeaderErrorEndsLoop(fs, before[1..], msg, after, albumDir, format, flatten);
        } else {
          var (r1, fs1) := RarMember(fs, name, data, albumDir, format, flatten);
          if r1.Ok? {
            RarHeaderErrorEndsLoop(fs1, before[1..], msg, after, albumDir, format, flatten);
          }
        }
    }
  }

  /** The temporary copy of the archive in the album directory. */
  function TempRarPath(albumDir: Path, id: string): Path {
    JoinPath(albumDir, "temp_" + id + ".rar")
  }

  /** `extract_rar_file`: the payload is written to `temp_<id>.rar`, opened,
      processed and the copy removed. A failure to open or process it leaves
      the copy behind; a failure to remove it is only logged. */
  function ExtractRarSpec(fs: Fs, payload: Bytes, albumDir: Path, format: string, flatten: bool, id: string,
                          codecs: Codecs): (r: (Result<()>, Fs))
    ensures Valid(fs) ==> Valid(r.1)
    ensures fs.dirs <= r.1.dirs
  {
    var temp := TempRarPath(albumDir, id);
    match WriteSpec(fs, temp, payload)
    case Err(m) => (Err(m), fs)
    case Ok(fs1) =>
      match codecs.unrar(payload)
      case Err(m) => (Err(m), fs1)
      case Ok(headers) =>
        var (r2, fs2) := ProcessRarHeaders(fs1, headers, albumDir, format, flatten);
        if r2.Err? then (r2, fs2)
        else (Ok(()), match RemoveFileSpec(fs2, temp) case Ok(fs3) => fs3 case Err(_) => fs2)
  }

  /** Extraction succeeds exactly when the copy can be written, the archive
      opened and its members processed; the copy is gone afterwards. */
  lemma RarSuccess(fs: Fs, payload: Bytes, albumDir: Path, format: string, flatten: bool, id: string, codecs: Codecs)
    ensures var temp := TempRarPath(albumDir, id);
      ExtractRarSpec(fs, payload, albumDir, format, flatten, id, codecs).0.Ok? <==>
        WriteSpec(fs, temp, payload).Ok? && codecs.unrar(payload).Ok?
        && ProcessRarHeaders(WriteSpec(fs, temp, payload).value, codecs.unrar(payload).value,
                             albumDir, format, flatten).0.Ok?
    ensures ExtractRarSpec(fs, payload, albumDir, format, flatten, id, codecs).0.Ok? ==>
      TempRarPath(albumDir, id) !in ExtractRarSpec(fs, payload, albumDir, format, flatten, id, codecs).1.files
  {
  }

  /** When the archive opens but processing fails, the copy stays on disk. */
  lemma RarFailureLeavesCopy(fs: Fs, payload: Bytes, albumDir: Path, format: string, flatten: bool, id: string, codecs: Codecs)
    requires WriteSpec(fs, TempRarPath(albumDir, id), payload).Ok?
    requires ExtractRarSpec(fs, payload, albumDir, format, flatten, id, codecs).0.Err?
    ensures TempRarPath(albumDir, id) in ExtractRarSpec(fs, payload, albumDir, format, flatten, id, codecs).1.files
  {
  }
}

=== FILE: files.dfy ===
/** The part of the file system the downloader touches: directories, whole
    files of bytes, and paths built by joining relative names onto a base.
    Every operation either succeeds with the new state or fails and leaves
    the state as it was. */
module Files {
  import opened Wrappers
  import opened Text
  import opened Utf8

  /** An absolute path as its components from the root. */
  type Path = seq<string>

  /** `s.split('/')`: the text between separators, empty pieces included. */
  function SplitSlash(s: string): (r: seq<string>)
    ensures |r| >= 1
    ensures forall k :: 0 <= k < |r| ==> '/' !in r[k]
    decreases |s|
  {
    if s == [] then [""]
    else
      var rest := SplitSlash(s[1..]);
      if s[0] == '/' then [""] + rest
      else [[s[0]] + rest[0]] + rest[1..]
  }

  /** Splitting on `/` and joining with `/` gives the text back. */
  lemma {:induction false} SplitSlashJoin(s: string)
    ensures Join(SplitSlash(s), "/") == s
    decreases |s|
  {
    if s != [] {
      SplitSlashJoin(s[1..]);
      if s[0] == '/' {
        JoinAfterSlash(s, SplitSlash(s[1..]));
      } else {
        JoinIntoFirst(s, SplitSlash(s[1..]));
      }
    }
  }

  lemma JoinAfterSlash(s: string, rest: seq<string>)
    requires s != [] && s[0] == '/' && |rest| >= 1 && Join(rest, "/") == s[1..]
    ensures Join([""] + rest, "/") == s
  {
    assert ([""] + rest)[1..] == rest;
    JoinUnfold([""] + rest);
    assert "" + "/" + s[1..] == [s[0]] + s[1..];
    assert s == [s[0]] + s[1..];
  }

  lemma JoinIntoFirst(s: string, rest: seq<string>)
    requires s != [] && |rest| >= 1 && Join(rest, "/") == s[1..]
    ensures Join([[s[0]] + rest[0]] + rest[1..], "/") == s
  {
    var parts := [[s[0]] + rest[0]] + rest[1..];
    if |rest| == 1 {
      assert parts == [[s[0]] + rest[0]];
    } else {
      JoinUnfold(rest);
      assert parts[1..] == rest[1..];
      JoinUnfold(parts);
      ConsJoin(s[0], rest[0], Join(rest[1..], "/"));
    }
    assert s == [s[0]] + s[1..];
  }

  lemma JoinUnfold(parts: seq<string>)
    requires |parts| > 1
    ensures Join(parts, "/") == parts[0] + "/" + Join(parts[1..], "/")
  {
  }

  lemma ConsJoin(c: char, a: string, j: string)
    ensures [c] + (a + "/" + j) == ([c] + a) + "/" + j
  {
  }

  /** A component that names a child: not empty, `.` or `..`. */
  predicate IsNormal(c: string) {
    c != "" && c != "." && c != ".."
  }

  /** The components `comps` followed from `base`: empty components and `.`
      stay put, `..` goes up (and stays at the root), a name goes down. */
  function Resolve(base: Path, comps: seq<string>): Path
    decreases |comps|
  {
    if comps == [] then base
    else
      var c := comps[0];
      var next :=
        if c == "" || c == "." then base
        else if c == ".." then (if base == [] then [] else base[..|base| - 1])
        else base + [c];
      Resolve(next, comps[1..])
  }

  /** `base.join(rel)`: an absolute `rel` starts again from the root. */
  function JoinPath(base: Path, rel: string): Path {
    Resolve(if rel != [] && rel[0] == '/' then [] else base, SplitSlash(rel))
  }

  /** Names without empty, `.` or `..` components just extend the base. */
  lemma {:induction false} ResolveNormal(base: Path, comps: seq<string>)
    requires forall k :: 0 <= k < |comps| ==> IsNormal(comps[k])
    ensures Resolve(base, comps) == base + comps
    decreases |comps|
  {
    if comps != [] {
      ResolveNormal(base + [comps[0]], comps[1..]);
      assert base + [comps[0]] + comps[1..] == base + comps;
    }
  }

  /** A relative name made only of plain components lands under the base,
      one level per component. */
  lemma JoinPlainName(base: Path, rel: string)
    requires forall k :: 0 <= k < |SplitSlash(rel)| ==> IsNormal(SplitSlash(rel)[k])
    ensures JoinPath(base, rel) == base + SplitSlash(rel)
  {
    if rel != [] && rel[0] == '/' {
      assert SplitSlash(rel)[0] == "";
    }
    ResolveNormal(base, SplitSlash(rel));
  }

  /** Joining never leaves an empty, `.` or `..` component behind. */
  lemma {:induction false} ResolveIsNormal(base: Path, comps: seq<string>)
    requires forall k :: 0 <= k < |base| ==> IsNormal(base[k])
    ensures forall k :: 0 <= k < |Resolve(base, comps)| ==> IsNormal(Resolve(base, comps)[k])
    decreases |comps|
  {
    if comps != [] {
      var c := comps[0];
      var next :=
        if c == "" || c == "." then base
        else if c == ".." then (if base == [] then [] else base[..|base| - 1])
        else base + [c];
      assert forall k :: 0 <= k < |next| ==> IsNormal(next[k]);
      var r := Resolve(next, comps[1..]);
      assert Resolve(base, comps) == r;
      ResolveIsNormal(next, comps[1..]);
      assert forall k :: 0 <= k < |r| ==> IsNormal(r[k]);
    } else {
      assert Resolve(base, comps) == base;
    }
  }

  /** Joining onto a base of plain components gives plain components. */
  lemma JoinPathIsNormal(base: Path, rel: string)
    ensures (forall k :: 0 <= k < |base| ==> IsNormal(base[k])) ==>
              forall k :: 0 <= k < |JoinPath(base, rel)| ==> IsNormal(JoinPath(base, rel)[k])
  {
    if forall k :: 0 <= k < |base| ==> IsNormal(base[k]) {
      ResolveIsNormal(base, SplitSlash(rel));
      ResolveIsNormal([], SplitSlash(rel));
    }
  }

  // ---------------------------------------------------------------- state

  datatype Fs = Fs(files: map<Path, Bytes>, dirs: set<Path>)

  /** Every ancestor of `p`, `p` included, is in `dirs`. */
  predicate AncestorsIn(p: Path, dirs: set<Path>) {
    forall k :: 0 <= k <= |p| ==> p[..k] in dirs
  }

  /** The root is a directory, the ancestors of a directory are directories,
      and a file sits in a directory and is not one itself. */
  predicate Valid(fs: Fs) {
    [] in fs.dirs
    && (forall p :: p in fs.dirs ==> AncestorsIn(p, fs.dirs))
    && (forall p :: p in fs.files ==> p != [] && p[..|p| - 1] in fs.dirs && p !in fs.dirs)
  }

  /** `Path::exists`. */
  predicate Exists(fs: Fs, p: Path) {
    p in fs.files || p in fs.dirs
  }

  /** `p` and every ancestor of it. */
  function Ancestors(p: Path): (r: set<Path>)
    ensures forall k :: 0 <= k <= |p| ==> p[..k] in r
    ensures forall q :: q in r ==> |q| <= |p| && q == p[..|q|]
  {
    set k | 0 <= k <= |p| :: p[..k]
  }

  /** `fs::create_dir_all`: fails when `p` or one of its ancestors is a
      file, otherwise makes `p` and its ancestors directories. */
  function CreateDirAllSpec(fs: Fs, p: Path): (r: Result<Fs>)
    ensures r.Ok? <==> forall k :: 0 <= k <= |p| ==> p[..k] !in fs.files
    ensures r.Ok? ==> r.value.files == fs.files && p in r.value.dirs && fs.dirs <= r.value.dirs
    ensures Valid(fs) && r.Ok? ==> Valid(r.value)
  {
    if exists k :: 0 <= k <= |p| && p[..k] in fs.files then Err("Not a directory")
    else
      var r := fs.(dirs := fs.dirs + Ancestors(p));
      assert forall q, k :: q in Ancestors(p) && 0 <= k <= |q| ==> q[..k] == p[..k];
      assert p[..|p|] == p;
      Ok(r)
  }

  /** Creating a directory adds exactly it and its ancestors. */
  lemma CreateDirAllAdds(fs: Fs, p: Path, q: Path)
    requires CreateDirAllSpec(fs, p).Ok?
    ensures q in CreateDirAllSpec(fs, p).value.dirs <==> q in fs.dirs || (|q| <= |p| && q == p[..|q|])
  {
  }

  /** `fs::write` (and `File::create` followed by writing): fails when `p` is
      a directory or its parent is not one; otherwise `p` holds `data`,
      replacing what it held. */
  function WriteSpec(fs: Fs, p: Path, data: Bytes): (r: Result<Fs>)
    ensures r.Ok? <==> p != [] && p !in fs.dirs && p[..|p| - 1] in fs.dirs
    ensures r.Ok? ==> r.value.dirs == fs.dirs && p in r.value.files && r.value.files[p] == data
    ensures Valid(fs) && r.Ok? ==> Valid(r.value)
  {
    if p == [] || p in fs.dirs || p[..|p| - 1] !in fs.dirs then Err("cannot create file")
    else Ok(fs.(files := fs.files[p := data]))
  }

  /** Writing one file leaves every other file as it was, present or absent. */
  lemma WriteFrame(fs: Fs, p: Path, data: Bytes, q: Path)
    requires WriteSpec(fs, p, data).Ok? && q != p
    ensures q in WriteSpec(fs, p, data).value.files <==> q in fs.files
    ensures q in fs.files ==> WriteSpec(fs, p, data).value.files[q] == fs.files[q]
  {
  }

  /** `fs::remove_file`: fails unless `p` is a file, which it removes. */
  function RemoveFileSpec(fs: Fs, p: Path): (r: Result<Fs>)
    ensures r.Ok? <==> p in fs.files
    ensures r.Ok? ==> r.value.dirs == fs.dirs && r.value.files == fs.files - {p}
    ensures Valid(fs) && r.Ok? ==> Valid(r.value)
  {
    if p in fs.files then Ok(fs.(files := fs.files - {p})) else Err("No such file")
  }

  /** `fs::read_to_string`: the file's bytes as UTF-8 text. */
  function ReadToStringSpec(fs: Fs, p: Path): (r: Result<string>)
    ensures r.Ok? <==> p in fs.files && Decode(fs.files[p]).Some?
    ensures r.Ok? ==> Encode(r.value) == fs.files[p]
  {
    if p !in fs.files then Err("No such file")
    else match Decode(fs.files[p])
      case None => Err("stream did not contain valid UTF-8")
      case Some(s) =>
        EncodeDecode(fs.files[p]);
        Ok(s)
  }

  /** A text written as UTF-8 reads back as itself. */
  lemma WriteThenRead(fs: Fs, p: Path, s: string)
    requires WriteSpec(fs, p, Encode(s)).Ok?
    ensures ReadToStringSpec(WriteSpec(fs, p, Encode(s)).value, p) == Ok(s)
  {
    DecodeEncode(s);
  }

  /** What a failing operation leaves behind: the state it started from. */
  function Outcome(fs: Fs, r: Result<Fs>): (Result<()>, Fs) {
    match r
    case Ok(next) => (Ok(()), next)
    case Err(e) => (Err(e), fs)
  }

  /** The file system, whose operations change it in place. */
  class FileSystem {
    var files: map<Path, Bytes>
    var dirs: set<Path>

    function State(): Fs
      reads this
    {
      Fs(files, dirs)
    }

    constructor (fs: Fs)
      ensures State() == fs
    {
      files := fs.files;
      dirs := fs.dirs;
    }

    method CreateDirAll(p: Path) returns (r: Result<()>)
      modifies this
      ensures (r, State()) == Outcome(old(State()), CreateDirAllSpec(old(State()), p))
    {
      match CreateDirAllSpec(State(), p)
      case Ok(next) =>
        dirs := next.dirs;
        r := Ok(());
      case Err(e) =>
        r := Err(e);
    }

    method Write(p: Path, data: Bytes) returns (r: Result<()>)
      modifies this
      ensures (r, State()) == Outcome(old(State()), WriteSpec(old(State()), p, data))
    {
      if p == [] || p in dirs || p[..|p| - 1] !in dirs {
        r := Err("cannot create file");
      } else {
        files := files[p := data];
        r := Ok(());
      }
    }

    method RemoveFile(p: Path) returns (r: Result<()>)
      modifies this
      ensures (r, State()) == Outcome(old(State()), RemoveFileSpec(old(State()), p))
    {
      if p in files {
        files := files - {p};
        r := Ok(());
      } else {
        r := Err("No such file");
      }
    }

    method PathExists(p: Path) returns (b: bool)
      ensures b == Exists(State(), p)
    {
      b := p in files || p in dirs;
    }

    method ReadToString(p: Path) returns (r: Result<string>)
      ensures r == ReadToStringSpec(State(), p)
    {
      r := ReadToStringSpec(State(), p);
    }
  }
}

=== FILE: html.dfy ===
/** A parsed HTML page, reduced to what the scrapers look at: every element
    in document order with its tag name, its `class` and `href` attributes
    and its text content (the concatenation of all descendant text nodes).
    A CSS selector then becomes a predicate on elements, and
    `document.select(&selector)` the filter of the document by it. */
module Html {
  import opened Wrappers
  import opened Text

  datatype Element = Element(tag: string, classAttr: Option<string>, href: Option<string>, text: string)

  type Document = seq<Element>

  /** `[href*="pat"]`: the element has an `href` attribute containing `pat`. */
  predicate HrefContains(e: Element, pat: string) {
    e.href.Some? && Contains(e.href.value, pat)
  }

  /** `[class*="pat"]`. */
  predicate ClassContains(e: Element, pat: string) {
    e.classAttr.Some? && Contains(e.classAttr.value, pat)
  }

  /** `i` is the position of the first element the selector `p` selects. */
  predicate IsFirst(doc: Document, p: Element -> bool, i: int) {
    0 <= i < |doc| && p(doc[i]) && forall j :: 0 <= j < i ==> !p(doc[j])
  }

  /** The selector `p` selects nothing. */
  predicate NoneMatch(doc: Document, p: Element -> bool) {
    forall j :: 0 <= j < |doc| ==> !p(doc[j])
  }

  /** There is one first element a selector selects. */
  lemma FirstIsUnique(doc: Document, p: Element -> bool)
    ensures forall i, j :: IsFirst(doc, p, i) && IsFirst(doc, p, j) ==> i == j
  {
  }

  /** `document.select(&p).next()`, as a position. */
  function First(doc: Document, p: Element -> bool): (r: Option<nat>)
    ensures r.Some? ==> IsFirst(doc, p, r.value)
    ensures r.None? <==> NoneMatch(doc, p)
  {
    if doc == [] then None
    else if p(doc[0]) then Some(0)
    else match First(doc[1..], p)
      case None => None
      case Some(i) => Some(i + 1)
  }
}

=== FILE: naming.dfy ===
/** The pure text work of the downloader: file-name sanitising, date
    conversion, the extension table, the directory-name and README templates
    and the NFO document. */
module Naming {
  import opened Wrappers
  import opened Text
  import opened Scrapers
  import Client

  /** The current time, which the downloader reads from the system clock:
      the year (`%Y`), the date (`%Y-%m-%d`) and the timestamp
      (`%Y-%m-%d %H:%M:%S UTC`). */
  datatype Clock = Clock(year: string, date: string, timestamp: string)

  // ---------------------------------------------------------------- sanitize_filename

  /** The characters `< > : " / \ | ? *` that file systems refuse. */
  predicate IsReserved(c: char) {
    c == '<' || c == '>' || c == ':' || c == '"' || c == '/' || c == '\\' || c == '|' || c == '?' || c == '*'
  }

  /** Every reserved character replaced by `_`. */
  function ReplaceReserved(s: string): (r: string)
    ensures |r| == |s|
    ensures forall i :: 0 <= i < |s| ==> r[i] == (if IsReserved(s[i]) then '_' else s[i])
  {
    seq(|s|, i requires 0 <= i < |s| => if IsReserved(s[i]) then '_' else s[i])
  }

  /** `sanitize_filename`: reserved characters become `_`, then the result is
      trimmed. */
  function SanitizeFilename(name: string): (r: string)
    ensures forall c :: c in r ==> !IsReserved(c)
    ensures IsTrimmed(r)
    ensures forall c :: c in r && c != '_' ==> c in name
    ensures (forall c :: c in name ==> !IsReserved(c)) && IsTrimmed(name) ==> r == name
  {
    var t := ReplaceReserved(name);
    assert forall c :: c in t ==> !IsReserved(c) && (c == '_' || c in name) by {
      forall c | c in t ensures !IsReserved(c) && (c == '_' || c in name) {
        var i :| 0 <= i < |t| && t[i] == c;
      }
    }
    assert (forall c :: c in name ==> !IsReserved(c)) ==> t == name by {
      if forall c :: c in name ==> !IsReserved(c) {
        assert forall i :: 0 <= i < |name| ==> t[i] == name[i];
      }
    }
    Trim(t)
  }

  /** A name without white space at either end keeps its length, and each of
      its characters is kept or, when reserved, replaced by `_`. */
  lemma SanitizeTrimmedName(name: string)
    requires IsTrimmed(name)
    ensures var r := SanitizeFilename(name);
      |r| == |name| && forall i :: 0 <= i < |name| ==> r[i] == (if IsReserved(name[i]) then '_' else name[i])
  {
    var t := ReplaceReserved(name);
    if t != [] {
      assert !IsWhitespace(t[0]) && !IsWhitespace(t[|t| - 1]);
    }
    assert Trim(t) == t;
  }

  /** Sanitising a sanitised name changes nothing. */
  lemma SanitizeIdempotent(name: string)
    ensures SanitizeFilename(SanitizeFilename(name)) == SanitizeFilename(name)
  {
  }

  // ---------------------------------------------------------------- convert_chinese_date_to_iso

  /** The date expression `(\d{4})年(\d{1,2})月(\d{1,2})日` tried at each position. */
  function DateMatcher(s: string): nat -> Option<nat> {
    (j: nat) => DateAt(s, j)
  }

  /** One or two digits have a value below 100. */
  lemma SmallValue(s: string)
    requires AllDigits(s) && |s| <= 2
    ensures DigitsValue(s) < 100
  {
    if s != [] {
      assert AllDigits(s[..|s| - 1]);
      if |s| == 2 {
        assert DigitsValue(s[..1]) == s[0] as int - '0' as int;
      }
    }
  }

  /** `format!("{:02}", v)` for a value below 100. */
  function Pad2(v: nat): (r: string)
    requires v < 100
    ensures |r| == 2 && AllDigits(r) && DigitsValue(r) == v
  {
    var r := [('0' as int + v / 10) as char, ('0' as int + v % 10) as char];
    assert r[..1] == [r[0]] && [r[0]][..0] == [];
    assert DigitsValue(r[..1]) == v / 10;
    r
  }

  /** `YYYY-MM-DD`. */
  predicate IsIsoDate(r: string) {
    |r| == 10 && DigitsAt(r, 0, 4) && r[4] == '-' && DigitsAt(r, 5, 2) && r[7] == '-' && DigitsAt(r, 8, 2)
  }

  /** The digits at `i..i + n`, which `DigitsAt` says are all digits, as a number. */
  function ValueAt(s: string, i: nat, n: nat): (v: nat)
    requires DigitsAt(s, i, n) && n <= 2
    ensures AllDigits(s[i..i + n]) && v == DigitsValue(s[i..i + n]) && v < 100
  {
    var t := s[i..i + n];
    assert AllDigits(t) by {
      forall k | 0 <= k < |t| ensures IsDigit(t[k]) {
        assert t[k] == s[i + k];
      }
    }
    SmallValue(t);
    DigitsValue(t)
  }

  /** The date whose shape `DateShapeAt(s, j, m, d)` describes, as `YYYY-MM-DD`. */
  function IsoAt(s: string, j: nat, m: nat, d: nat): (r: string)
    requires 1 <= m <= 2 && 1 <= d <= 2 && DateShapeAt(s, j, m, d)
    ensures IsIsoDate(r) && '年' !in r
    ensures r[..4] == s[j..j + 4]
    ensures DigitsValue(r[5..7]) == DigitsValue(s[j + 5..j + 5 + m])
    ensures DigitsValue(r[8..]) == DigitsValue(s[j + 6 + m..j + 6 + m + d])
  {
    var month, day := ValueAt(s, j + 5, m), ValueAt(s, j + 6 + m, d);
    var year, mm, dd := s[j..j + 4], Pad2(month), Pad2(day);
    var r := year + "-" + mm + "-" + dd;
    assert r[..4] == year && r[4] == '-' && r[5..7] == mm && r[7] == '-' && r[8..] == dd;
    assert forall k :: 0 <= k < |r| ==> IsDigit(r[k]) || r[k] == '-' by {
      forall k | 0 <= k < |r| ensures IsDigit(r[k]) || r[k] == '-' {
        if k < 4 {
          assert r[k] == s[j + k];
        } else if 5 <= k < 7 {
          assert r[k] == mm[k - 5];
        } else if 8 <= k {
          assert r[k] == dd[k - 8];
        }
      }
    }
    assert IsIsoDate(r);
    r
  }

  /** `convert_chinese_date_to_iso`: the first `YYYY年M月D日` in the text
      rewritten as `YYYY-MM-DD` (month and day padded to two digits), or the
      text unchanged when it holds no such date. */
  function ConvertChineseDateToIso(s: string): (r: string)
    ensures (forall j: nat :: j <= |s| ==> DateAt(s, j).None?) ==> r == s
    ensures (exists j: nat :: j <= |s| && DateAt(s, j).Some?) ==> IsIsoDate(r) && r != s
    ensures forall j: nat :: j <= |s| && DateAt(s, j).Some? && (forall q: nat :: q < j ==> DateAt(s, q).None?)
                             ==> r == IsoOfFound(s, j, DateAt(s, j).value)
  {
    match Leftmost(|s|, 0, DateMatcher(s))
    case None =>
      NoDateFound(s);
      s
    case Some(found) =>
      FoundIsLeftmost(s);
      IsoOfFound(s, found.0, found.1)
  }

  /** The position the scan finds is the leftmost one where a date is written. */
  lemma FoundIsLeftmost(s: string)
    requires Leftmost(|s|, 0, DateMatcher(s)).Some?
    ensures var found := Leftmost(|s|, 0, DateMatcher(s)).value;
      DateAt(s, found.0) == Some(found.1)
      && forall j: nat :: j <= |s| && DateAt(s, j).Some? && (forall q: nat :: q < j ==> DateAt(s, q).None?)
                          ==> j == found.0
  {
    var found := Leftmost(|s|, 0, DateMatcher(s)).value;
    assert DateMatcher(s)(found.0) == Some(found.1);
    forall j: nat | j <= |s| && DateAt(s, j).Some? && (forall q: nat :: q < j ==> DateAt(s, q).None?)
      ensures j == found.0
    {
      assert DateMatcher(s)(j) == DateAt(s, j);
    }
  }

  /** Where the scan finds no date, there is none. */
  lemma NoDateFound(s: string)
    requires Leftmost(|s|, 0, DateMatcher(s)).None?
    ensures forall j: nat :: j <= |s| ==> DateAt(s, j).None?
  {
    forall j: nat | j <= |s| ensures DateAt(s, j).None? {
      assert DateMatcher(s)(j).None?;
    }
  }

  /** The date found at `j`, of length `n`, rewritten as `YYYY-MM-DD`. */
  function IsoOfFound(s: string, j: nat, n: nat): (r: string)
    requires DateAt(s, j) == Some(n)
    ensures IsIsoDate(r) && r != s
    ensures exists m: nat, d: nat :: 1 <= m <= 2 && 1 <= d <= 2 && n == 7 + m + d && DateShapeAt(s, j, m, d)
                                     && r == IsoAt(s, j, m, d)
  {
    var m := RunLength(s, j + 5, 2, IsDigit);
    assert s[j + 4] in s;
    IsoAt(s, j, m, n - 7 - m)
  }

  /** A whole Chinese date `t` converts to its year, then the month and the
      day as two-digit numbers with the same values. */
  lemma {:induction false} IsoOfChineseDate(t: string, m: nat, d: nat)
    requires 1 <= m <= 2 && 1 <= d <= 2 && |t| == 7 + m + d && DateShapeAt(t, 0, m, d)
    ensures ConvertChineseDateToIso(t) == IsoAt(t, 0, m, d)
  {
    assert t[0..0 + 7 + m + d] == t;
    DateAtComplete(t, 0, 7 + m + d);
    LeftmostAt(|t|, 0, DateMatcher(t), 0);
    RunOfDigits(t, 5, m);
  }

  /** The example in the source's own comment. */
  lemma IsoExample()
    ensures ConvertChineseDateToIso("2025年6月10日") == "2025-06-10"
  {
    ExampleShape();
    IsoOfChineseDate("2025年6月10日", 1, 2);
    ExampleIso();
  }

  lemma ExampleIso()
    requires DateShapeAt("2025年6月10日", 0, 1, 2)
    ensures IsoAt("2025年6月10日", 0, 1, 2) == "2025-06-10"
  {
    var t := "2025年6月10日";
    ExampleValues();
    assert Pad2(6) == "06" && Pad2(10) == "10";
    assert t[0..4] == "2025";
  }

  lemma ExampleShape()
    ensures DateShapeAt("2025年6月10日", 0, 1, 2)
  {
  }

  lemma ExampleValues()
    ensures DigitsAt("2025年6月10日", 5, 1) && ValueAt("2025年6月10日", 5, 1) == 6
    ensures DigitsAt("2025年6月10日", 7, 2) && ValueAt("2025年6月10日", 7, 2) == 10
  {
    var t := "2025年6月10日";
    assert t[5..6] == "6";
    assert t[7..9] == "10";
    assert DigitsValue("1") == 1;
  }

  // ---------------------------------------------------------------- get_file_extension

  /** `get_file_extension`. */
  function FileExtension(format: string): (ext: string)
    ensures ext == "mp3" <==> format == "128" || format == "MP3"
    ensures ext == "flac" <==> format == "FLAC"
    ensures ext == "unknown" <==> format == "gift"
    ensures ext == "bin" <==> format !in ["128", "MP3", "FLAC", "gift"]
  {
    match format
    case "128" => "mp3"
    case "MP3" => "mp3"
    case "FLAC" => "flac"
    case "gift" => "unknown"
    case _ => "bin"
  }

  // ---------------------------------------------------------------- generate_directory_name

  /** The value of `{date}`: the release date in ISO form, or today's date. */
  function DateValue(a: Client.Album, clock: Clock): string {
    match a.releaseDate
    case Some(d) => ConvertChineseDateToIso(d)
    case None => clock.date
  }

  /** The placeholders of a directory-name template, in the order
      `generate_directory_name` replaces them. */
  const DirectoryPatterns: seq<string> := ["{album}", "{label}", "{authors}", "{year}", "{date}"]

  /** Their values: `{album}`, `{label}` and `{authors}` (falling back to the
      label) sanitised, `{year}` the album's year or the current one, `{date}`
      the converted release date or today's. */
  function DirectoryValues(a: Client.Album, clock: Clock): (vals: seq<string>)
    ensures |vals| == |DirectoryPatterns|
  {
    [SanitizeFilename(a.title), SanitizeFilename(a.labelName), SanitizeFilename(a.authors.GetOr(a.labelName)),
     a.year.GetOr(clock.year), DateValue(a, clock)]
  }

  /** The directory patterns are distinct placeholders. */
  lemma DirectoryPatternsWellFormed()
    ensures AllPlaceholders(DirectoryPatterns)
    ensures forall i, j :: 0 <= i < j < |DirectoryPatterns| ==> DirectoryPatterns[i] != DirectoryPatterns[j]
  {
    var ps := DirectoryPatterns;
    assert IsPlaceholder(ps[0]) && IsPlaceholder(ps[1]) && IsPlaceholder(ps[2]);
    assert IsPlaceholder(ps[3]) && IsPlaceholder(ps[4]);
    assert ps[0][1] != ps[1][1];
  }

  /** `generate_directory_name`: each placeholder replaced in turn. A
      template without braces is the directory name itself. */
  function DirectoryName(template: string, a: Client.Album, clock: Clock): (r: string)
    ensures '{' !in template ==> r == template
  {
    DirectoryPatternsWellFormed();
    ReplaceEachBraceFree(template, DirectoryPatterns, DirectoryValues(a, clock));
    ReplaceEach(template, DirectoryPatterns, DirectoryValues(a, clock))
  }

  /** The replacements one after the other, as `generate_directory_name`
      writes them. */
  lemma DirectoryNameSteps(template: string, a: Client.Album, clock: Clock)
    ensures DirectoryName(template, a, clock)
         == Replace(Replace(Replace(Replace(Replace(template,
              "{album}", SanitizeFilename(a.title)),
              "{label}", SanitizeFilename(a.labelName)),
              "{authors}", SanitizeFilename(a.authors.GetOr(a.labelName))),
              "{year}", a.year.GetOr(clock.year)),
              "{date}", DateValue(a, clock))
  {
    var ps, vs := DirectoryPatterns, DirectoryValues(a, clock);
    DirectoryPatternsWellFormed();
    var r1 := Replace(template, ps[0], vs[0]);
    var r2 := Replace(r1, ps[1], vs[1]);
    var r3 := Replace(r2, ps[2], vs[2]);
    var r4 := Replace(r3, ps[3], vs[3]);
    var r5 := Replace(r4, ps[4], vs[4]);
    assert ps[0..] == ps && vs[0..] == vs;
    ReplaceEachFrom(template, ps, vs, 0);
    ReplaceEachFrom(r1, ps, vs, 1);
    ReplaceEachFrom(r2, ps, vs, 2);
    ReplaceEachFrom(r3, ps, vs, 3);
    ReplaceEachFrom(r4, ps, vs, 4);
    assert ps[5..] == [];
  }

  /** A sanitised name has a `{` only when the name had one. */
  lemma SanitizeKeepsBraceFree(name: string)
    requires '{' !in name
    ensures '{' !in SanitizeFilename(name)
  {
  }

  /** `{album}` alone in a template with no other `{` becomes the sanitised
      title, the text around it kept. (A value with a `{` of its own could be
      rewritten again by a later placeholder, so here and below the value is
      taken without one.) */
  lemma DirectoryNameAlbum(p: string, q: string, a: Client.Album, clock: Clock)
    requires '{' !in p && '{' !in q && '{' !in a.title
    ensures DirectoryName(p + "{album}" + q, a, clock) == p + SanitizeFilename(a.title) + q
  {
    SanitizeKeepsBraceFree(a.title);
    DirectoryField(p, q, a, clock, 0);
  }

  /** `{label}` becomes the sanitised label. */
  lemma DirectoryNameLabel(p: string, q: string, a: Client.Album, clock: Clock)
    requires '{' !in p && '{' !in q && '{' !in a.labelName
    ensures DirectoryName(p + "{label}" + q, a, clock) == p + SanitizeFilename(a.labelName) + q
  {
    SanitizeKeepsBraceFree(a.labelName);
    DirectoryField(p, q, a, clock, 1);
  }

  /** `{authors}` becomes the sanitised authors, or the sanitised label when
      there are none. */
  lemma DirectoryNameAuthors(p: string, q: string, a: Client.Album, clock: Clock)
    requires '{' !in p && '{' !in q && '{' !in a.authors.GetOr(a.labelName)
    ensures DirectoryName(p + "{authors}" + q, a, clock) == p + SanitizeFilename(a.authors.GetOr(a.labelName)) + q
  {
    SanitizeKeepsBraceFree(a.authors.GetOr(a.labelName));
    DirectoryField(p, q, a, clock, 2);
  }

  /** `{year}` becomes the album's year, or the current year, unsanitised. */
  lemma DirectoryNameYear(p: string, q: string, a: Client.Album, clock: Clock)
    requires '{' !in p && '{' !in q && '{' !in a.year.GetOr(clock.year)
    ensures DirectoryName(p + "{year}" + q, a, clock) == p + a.year.GetOr(clock.year) + q
  {
    DirectoryField(p, q, a, clock, 3);
  }

  /** `{date}` becomes the release date converted to `YYYY-MM-DD`, or today's
      date when there is none, unsanitised. */
  lemma DirectoryNameDate(p: string, q: string, a: Client.Album, clock: Clock)
    requires '{' !in p && '{' !in q && '{' !in DateValue(a, clock)
    ensures DirectoryName(p + "{date}" + q, a, clock)
         == p + (match a.releaseDate case Some(d) => ConvertChineseDateToIso(d) case None => clock.date) + q
  {
    DirectoryField(p, q, a, clock, 4);
  }

  /** The `k`-th directory placeholder alone in a template becomes its value. */
  lemma DirectoryField(p: string, q: string, a: Client.Album, clock: Clock, k: nat)
    requires '{' !in p && '{' !in q && k < |DirectoryPatterns| && '{' !in DirectoryValues(a, clock)[k]
    ensures DirectoryName(p + DirectoryPatterns[k] + q, a, clock) == p + DirectoryValues(a, clock)[k] + q
  {
    DirectoryPatternsWellFormed();
    ReplaceEachFillsOne(p, q, DirectoryPatterns, DirectoryValues(a, clock), k);
  }

  /** `{album}` replaced in the default template. */
  lemma DefaultTemplateAlbum(t: string)
    ensures Replace("{album}/@{label}", "{album}", t) == t + "/@{label}"
  {
    DefaultTemplateSplit();
    NoAlbumAfterAlbum();
    ReplaceLeading("/@{label}", "{album}", t);
  }

  lemma DefaultTemplateSplit()
    ensures "{album}/@{label}" == "{album}" + "/@{label}"
  {
  }

  /** What follows `{album}` in the default template holds no `{album}`. */
  lemma NoAlbumAfterAlbum()
    ensures !Occurs("/@{label}", "{album}")
  {
    var rest := "/@{label}";
    forall j: nat | j <= |rest| ensures !OccursAt(rest, "{album}", j) {
      if j + 7 <= |rest| {
        assert rest[j..j + 7][1] == rest[j + 1];
      }
    }
  }

  /** `{label}` replaced after a sanitised album name without braces. */
  lemma DefaultTemplateLabel(t: string, l: string)
    requires '{' !in t
    ensures Replace(t + "/@{label}", "{label}", l) == t + "/@" + l
  {
    var r1 := t + "/@{label}";
    NoEarlyStart(t + "/@", "{label}", "{label}");
    assert r1 == (t + "/@") + "{label}";
    ReplaceSkipsPrefix(r1, |t| + 2, "{label}", l);
    assert r1[..|t| + 2] == t + "/@" && r1[|t| + 2..] == "{label}";
    ReplaceLeading("", "{label}", l);
    assert "{label}" + "" == "{label}";
  }

  /** The default template `{album}/@{label}` gives `<album>/@<label>`,
      sanitised, when neither name has a brace of its own. */
  lemma {:induction false} DefaultTemplateName(a: Client.Album, clock: Clock)
    requires '{' !in a.title && '{' !in a.labelName
    ensures DirectoryName("{album}/@{label}", a, clock)
            == SanitizeFilename(a.title) + "/@" + SanitizeFilename(a.labelName)
  {
    var t := SanitizeFilename(a.title);
    var l := SanitizeFilename(a.labelName);
    DefaultTemplateAlbum(t);
    DefaultTemplateLabel(t, l);
    var r2 := t + "/@" + l;
    assert '{' !in r2;
    DirectoryNameSteps("{album}/@{label}", a, clock);
    DirectoryNameTail(r2, a, clock);
  }

  /** The steps after `{label}` leave a text without braces alone. */
  lemma DirectoryNameTail(r2: string, a: Client.Album, clock: Clock)
    requires '{' !in r2
    ensures Replace(Replace(Replace(r2, "{authors}", SanitizeFilename(a.authors.GetOr(a.labelName))),
                            "{year}", a.year.GetOr(clock.year)),
                    "{date}", DateValue(a, clock))
            == r2
  {
    FirstCharAbsent(r2, "{authors}");
    FirstCharAbsent(r2, "{year}");
    FirstCharAbsent(r2, "{date}");
  }

  // ---------------------------------------------------------------- apply_template_variables

  /** The README template used when `readme.template.md` cannot be read. */
  const DefaultReadmeTemplate: string :=
    "# {album}\n\n**厂牌:** {label}  \n**发布日期:** {release_date}  \n**专辑ID:** {id}  \n\n"
    + "## 描述\n\n{description}\n\n## 标签\n\n{tags}\n\n"
    + "## 下载信息\n\n- **下载时间:** {download_date}\n- **下载格式:** {formats}\n\n---\n\n"
    + "*由 DizzySync 自动生成*\n"

  /** The placeholders of a README template, in the order
      `apply_template_variables` replaces them. */
  const ReadmePatterns: seq<string> :=
    ["{album}", "{label}", "{id}", "{cover}", "{release_date}", "{description}",
     "{tags}", "{authors}", "{year}", "{download_date}", "{formats}"]

  /** Their values, with `未知`, `暂无描述` and the label standing in for absent
      values, and tags and formats joined by `, `. */
  function ReadmeValues(a: Client.Album, formats: seq<string>, clock: Clock): (vals: seq<string>)
    ensures |vals| == |ReadmePatterns|
  {
    [a.title, a.labelName, a.id, a.cover, a.releaseDate.GetOr("未知"), a.description.GetOr("暂无描述"),
     Join(a.tags, ", "), a.authors.GetOr(a.labelName), a.year.GetOr("未知"), clock.timestamp, Join(formats, ", ")]
  }

  /** The README patterns are distinct placeholders. */
  lemma ReadmePatternsWellFormed()
    ensures AllPlaceholders(ReadmePatterns)
    ensures forall i, j :: 0 <= i < j < |ReadmePatterns| ==> ReadmePatterns[i] != ReadmePatterns[j]
  {
    forall k | 0 <= k < |ReadmePatterns| ensures IsPlaceholder(ReadmePatterns[k]) {
    }
    ReadmePatternsDistinct();
  }

  lemma ReadmePatternsDistinct()
    ensures forall i, j :: 0 <= i < j < |ReadmePatterns| ==> ReadmePatterns[i] != ReadmePatterns[j]
  {
    var ps := ReadmePatterns;
    var keys := [(7, 'a'), (7, 'l'), (4, 'i'), (7, 'c'), (14, 'r'), (13, 'd'), (6, 't'), (9, 'a'), (6, 'y'), (15, 'd'), (9, 'f')];
    forall k | 0 <= k < |ps| ensures (|ps[k]|, ps[k][1]) == keys[k] {
    }
    forall i, j | 0 <= i < j < |ps| ensures ps[i] != ps[j] {
      assert keys[i] != keys[j];
    }
  }

  /** `apply_template_variables`: each placeholder replaced in turn. A
      template without braces is copied verbatim. */
  function ReadmeText(template: string, a: Client.Album, formats: seq<string>, clock: Clock): (r: string)
    ensures '{' !in template ==> r == template
  {
    ReadmePatternsWellFormed();
    ReplaceEachBraceFree(template, ReadmePatterns, ReadmeValues(a, formats, clock));
    ReplaceEach(template, ReadmePatterns, ReadmeValues(a, formats, clock))
  }

  /** The first `k` replacements, one after the other, and the rest still to do. */
  lemma {:induction false} ReadmeTextSplit(template: string, a: Client.Album, formats: seq<string>, clock: Clock, k: nat)
    requires k <= |ReadmePatterns|
    ensures AllPlaceholders(ReadmePatterns[k..])
    ensures ReadmeText(template, a, formats, clock)
         == ReplaceEach(ReplaceFirst(template, a, formats, clock, k), ReadmePatterns[k..],
                        ReadmeValues(a, formats, clock)[k..])
    decreases k
  {
    ReadmePatternsWellFormed();
    var ps, vs := ReadmePatterns, ReadmeValues(a, formats, clock);
    if k == 0 {
      assert ps[0..] == ps && vs[0..] == vs;
    } else {
      ReadmeTextSplit(template, a, formats, clock, k - 1);
      ReplaceEachFrom(ReplaceFirst(template, a, formats, clock, k - 1), ps, vs, k - 1);
    }
  }

  /** The first `k` README replacements. */
  function ReplaceFirst(template: string, a: Client.Album, formats: seq<string>, clock: Clock, k: nat): string
    requires k <= |ReadmePatterns|
  {
    if k == 0 then template
    else Replace(ReplaceFirst(template, a, formats, clock, k - 1), ReadmePatterns[k - 1],
                 ReadmeValues(a, formats, clock)[k - 1])
  }

  /** The `k`-th README placeholder alone in a template becomes its value. */
  lemma ReadmeField(p: string, q: string, a: Client.Album, formats: seq<string>, clock: Clock, k: nat)
    requires '{' !in p && '{' !in q && k < |ReadmePatterns| && '{' !in ReadmeValues(a, formats, clock)[k]
    ensures ReadmeText(p + ReadmePatterns[k] + q, a, formats, clock) == p + ReadmeValues(a, formats, clock)[k] + q
  {
    ReadmePatternsWellFormed();
    ReplaceEachFillsOne(p, q, ReadmePatterns, ReadmeValues(a, formats, clock), k);
  }

  /** `{album}`, `{label}`, `{id}` and `{cover}`, each alone in a template
      with no other `{`, become the title, label, id and cover URL as they
      are (no sanitising here). */
  lemma ReadmeNames(p: string, q: string, a: Client.Album, formats: seq<string>, clock: Clock)
    requires '{' !in p && '{' !in q
    ensures '{' !in a.title ==> ReadmeText(p + "{album}" + q, a, formats, clock) == p + a.title + q
    ensures '{' !in a.labelName ==> ReadmeText(p + "{label}" + q, a, formats, clock) == p + a.labelName + q
    ensures '{' !in a.id ==> ReadmeText(p + "{id}" + q, a, formats, clock) == p + a.id + q
    ensures '{' !in a.cover ==> ReadmeText(p + "{cover}" + q, a, formats, clock) == p + a.cover + q
  {
    if '{' !in a.title { ReadmeField(p, q, a, formats, clock, 0); }
    if '{' !in a.labelName { ReadmeField(p, q, a, formats, clock, 1); }
    if '{' !in a.id { ReadmeField(p, q, a, formats, clock, 2); }
    if '{' !in a.cover { ReadmeField(p, q, a, formats, clock, 3); }
  }

  /** `{release_date}` becomes the raw release date, or `未知`. */
  lemma ReadmeReleaseDate(p: string, q: string, a: Client.Album, formats: seq<string>, clock: Clock)
    requires '{' !in p && '{' !in q && '{' !in a.releaseDate.GetOr("未知")
    ensures ReadmeText(p + "{release_date}" + q, a, formats, clock) == p + a.releaseDate.GetOr("未知") + q
    ensures a.releaseDate.None? ==> ReadmeText(p + "{release_date}" + q, a, formats, clock) == p + "未知" + q
  {
    ReadmeField(p, q, a, formats, clock, 4);
  }

  /** `{description}` becomes the description, or `暂无描述`. */
  lemma ReadmeDescription(p: string, q: string, a: Client.Album, formats: seq<string>, clock: Clock)
    requires '{' !in p && '{' !in q && '{' !in a.description.GetOr("暂无描述")
    ensures ReadmeText(p + "{description}" + q, a, formats, clock) == p + a.description.GetOr("暂无描述") + q
    ensures a.description.None? ==> ReadmeText(p + "{description}" + q, a, formats, clock) == p + "暂无描述" + q
  {
    ReadmeField(p, q, a, formats, clock, 5);
  }

  /** `{tags}` becomes the tags joined by `, `. */
  lemma ReadmeTags(p: string, q: string, a: Client.Album, formats: seq<string>, clock: Clock)
    requires '{' !in p && '{' !in q && '{' !in Join(a.tags, ", ")
    ensures ReadmeText(p + "{tags}" + q, a, formats, clock) == p + Join(a.tags, ", ") + q
  {
    ReadmeField(p, q, a, formats, clock, 6);
  }

  /** `{authors}` becomes the authors, or the label when there are none. */
  lemma ReadmeAuthors(p: string, q: string, a: Client.Album, formats: seq<string>, clock: Clock)
    requires '{' !in p && '{' !in q && '{' !in a.authors.GetOr(a.labelName)
    ensures ReadmeText(p + "{authors}" + q, a, formats, clock) == p + a.authors.GetOr(a.labelName) + q
    ensures a.authors.None? ==> ReadmeText(p + "{authors}" + q, a, formats, clock) == p + a.labelName + q
  {
    ReadmeField(p, q, a, formats, clock, 7);
  }

  /** `{year}` becomes the year, or `未知` (not the current year, unlike the
      directory name). */
  lemma ReadmeYear(p: string, q: string, a: Client.Album, formats: seq<string>, clock: Clock)
    requires '{' !in p && '{' !in q && '{' !in a.year.GetOr("未知")
    ensures ReadmeText(p + "{year}" + q, a, formats, clock) == p + a.year.GetOr("未知") + q
    ensures a.year.None? ==> ReadmeText(p + "{year}" + q, a, formats, clock) == p + "未知" + q
  {
    ReadmeField(p, q, a, formats, clock, 8);
  }

  /** `{download_date}` becomes the current UTC time stamp. */
  lemma ReadmeDownloadDate(p: string, q: string, a: Client.Album, formats: seq<string>, clock: Clock)
    requires '{' !in p && '{' !in q && '{' !in clock.timestamp
    ensures ReadmeText(p + "{download_date}" + q, a, formats, clock) == p + clock.timestamp + q
  {
    ReadmeField(p, q, a, formats, clock, 9);
  }

  /** `{formats}` becomes the configured formats joined by `, `. */
  lemma ReadmeFormats(p: string, q: string, a: Client.Album, formats: seq<string>, clock: Clock)
    requires '{' !in p && '{' !in q && '{' !in Join(formats, ", ")
    ensures ReadmeText(p + "{formats}" + q, a, formats, clock) == p + Join(formats, ", ") + q
  {
    ReadmeField(p, q, a, formats, clock, 10);
  }

  // ---------------------------------------------------------------- generate_nfo_content

  const NfoHeader: string := "<?xml version=\"1.0\" encoding=\"UTF-8\" standalone=\"yes\"?>\n<album>"

  /** `<tag>value</tag>`. */
  function XmlElement(tag: string, v: string): string {
    "<" + tag + ">" + v + "</" + tag + ">"
  }

  /** One indented element on a line of its own. */
  function NfoField(tag: string, v: string): string {
    "\n    " + XmlElement(tag, v)
  }

  /** The fields from `<year>` to `<plot>`. */
  function NfoDetails(a: Client.Album): string {
    NfoField("year", a.year.GetOr("Unknown")) + NfoField("releasedate", a.releaseDate.GetOr("Unknown"))
    + NfoField("label", a.labelName) + NfoField("id", a.id) + NfoField("plot", a.description.GetOr(""))
  }

  /** The fields between the header and `<tags>`: title, artist (the authors,
      else the label), genre (the first tag, else `Music`), then the details. */
  function NfoFields(a: Client.Album): string {
    NfoField("title", a.title)
    + (NfoField("artist", a.authors.GetOr(a.labelName))
       + (NfoField("genre", if a.tags == [] then "Music" else a.tags[0]) + NfoDetails(a)))
  }

  /** The `<tags>` element, one `<tag>` line per tag, then the source and
      the start of the URL. */
  function NfoTagsBlock(tags: seq<string>): string {
    "\n    <tags>\n        "
    + Join(seq(|tags|, i requires 0 <= i < |tags| => "        <tag>" + tags[i] + "</tag>"), "\n")
    + "\n    </tags>\n    <source>Dizzylab</source>\n    <url>" + Client.SiteRoot
  }

  /** The end of the album's page URL and the closing tag. */
  function NfoEnd(id: string): string {
    "/d/" + id + "/</url>\n</album>"
  }

  /** `generate_nfo_content`: the album as a Kodi-style NFO document. */
  function NfoContent(a: Client.Album): string {
    NfoHeader + (NfoFields(a) + (NfoTagsBlock(a.tags) + NfoEnd(a.id)))
  }

  /** The document opens with the XML declaration and `<album>`, and closes
      with the album's page URL and `</album>`. */
  lemma NfoFrame(a: Client.Album)
    ensures StartsWith(NfoContent(a), NfoHeader)
    ensures EndsWith(NfoContent(a), "/d/" + a.id + "/</url>\n</album>")
  {
    StartsWithConcat(NfoHeader, NfoFields(a) + (NfoTagsBlock(a.tags) + NfoEnd(a.id)));
    var e := NfoEnd(a.id);
    assert EndsWith(e, e) by { assert e[|e| - |e|..] == e; }
    EndsWithExtend(NfoTagsBlock(a.tags), e, e);
    EndsWithExtend(NfoFields(a), NfoTagsBlock(a.tags) + e, e);
    EndsWithExtend(NfoHeader, NfoFields(a) + (NfoTagsBlock(a.tags) + e), e);
  }

  /** An element occurs in its own indented line. */
  lemma OccursInField(tag: string, v: string)
    ensures Occurs(NfoField(tag, v), XmlElement(tag, v))
  {
    OccursSelf(XmlElement(tag, v));
    OccursInRight("\n    ", XmlElement(tag, v), XmlElement(tag, v));
  }

  /** The NFO names the authors as artist, or the label when there are none. */
  lemma NfoNamesArtist(a: Client.Album)
    ensures Occurs(NfoContent(a), XmlElement("artist", a.authors.GetOr(a.labelName)))
  {
    var x := XmlElement("artist", a.authors.GetOr(a.labelName));
    var g := NfoField("genre", if a.tags == [] then "Music" else a.tags[0]) + NfoDetails(a);
    OccursInField("artist", a.authors.GetOr(a.labelName));
    OccursInLeft(NfoField("artist", a.authors.GetOr(a.labelName)), g, x);
    OccursInRight(NfoField("title", a.title), NfoField("artist", a.authors.GetOr(a.labelName)) + g, x);
    OccursInLeft(NfoFields(a), NfoTagsBlock(a.tags) + NfoEnd(a.id), x);
    OccursInRight(NfoHeader, NfoFields(a) + (NfoTagsBlock(a.tags) + NfoEnd(a.id)), x);
  }

  /** The NFO's genre is the first tag, or `Music` when there are no tags. */
  lemma NfoNamesGenre(a: Client.Album)
    ensures Occurs(NfoContent(a), XmlElement("genre", if a.tags == [] then "Music" else a.tags[0]))
  {
    var genre := if a.tags == [] then "Music" else a.tags[0];
    var x := XmlElement("genre", genre);
    var artist := NfoField("artist", a.authors.GetOr(a.labelName));
    OccursInField("genre", genre);
    OccursInLeft(NfoField("genre", genre), NfoDetails(a), x);
    OccursInRight(artist, NfoField("genre", genre) + NfoDetails(a), x);
    OccursInRight(NfoField("title", a.title), artist + (NfoField("genre", genre) + NfoDetails(a)), x);
    OccursInLeft(NfoFields(a), NfoTagsBlock(a.tags) + NfoEnd(a.id), x);
    OccursInRight(NfoHeader, NfoFields(a) + (NfoTagsBlock(a.tags) + NfoEnd(a.id)), x);
  }
}

=== FILE: scrapers.dfy ===
/** The scanners of the Dizzylab client: each one looks for the first element
    a CSS selector picks (or the first whose text a regular expression
    matches) and takes a value out of it. The regular expressions are written
    out as the leftmost-first, greedy scans the regex engine performs. */
module Scrapers {
  import opened Wrappers
  import opened Text
  import opened Html
  import Utf8

  // ---------------------------------------------------------------- token

  const TokenMarker: string := "token = '"

  /** `i` is where `pat` first occurs in `s`. */
  predicate FirstOccurrence(s: string, pat: string, i: nat) {
    OccursAt(s, pat, i) && forall j: nat :: j < i ==> !OccursAt(s, pat, j)
  }

  /** What the token scan finds once it has located the marker at `i` and
      the closing quote at `e`. */
  lemma TokenShape(html: string, i: nat, e: nat)
    requires OccursAt(html, TokenMarker, i) && i + |TokenMarker| <= |html|
    requires IndexOf(html, "'", i + |TokenMarker|) == Some(e)
    ensures '\'' !in html[i + |TokenMarker|..e]
    ensures OccursAt(html, TokenMarker + html[i + |TokenMarker|..e] + "'", i)
  {
    var start := i + |TokenMarker|;
    var t := html[start..e];
    forall k | 0 <= k < |t| ensures t[k] != '\'' {
      assert !OccursAt(html, "'", start + k);
      assert html[start + k..start + k + 1] == [t[k]];
    }
    assert html[i..e + 1] == html[i..start] + t + html[e..e + 1];
  }

  /** The token embedded in the music page's script: the text between the
      first `token = '` and the next `'`. */
  function TokenFrom(html: string): (r: Result<string>)
    ensures r.Ok? ==> '\'' !in r.value
    ensures r.Ok? ==> exists i: nat :: FirstOccurrence(html, TokenMarker, i)
                                       && OccursAt(html, TokenMarker + r.value + "'", i)
    ensures r.Err? <==> forall i: nat :: FirstOccurrence(html, TokenMarker, i)
                                         ==> !Occurs(html[i + |TokenMarker|..], "'")
  {
    match IndexOf(html, TokenMarker, 0)
    case None => Err("token not found in page")
    case Some(i) =>
      var start := i + |TokenMarker|;
      assert FirstOccurrence(html, TokenMarker, i);
      IndexOfSuffix(html, "'", start);
      match IndexOf(html, "'", start)
      case None => Err("token not found in page")
      case Some(e) =>
        TokenShape(html, i, e);
        Ok(html[start..e])
  }

  // ---------------------------------------------------------------- user id

  /** `a[href*="/u/"]`. */
  predicate IsUserLink(e: Element) {
    e.tag == "a" && HrefContains(e, "/u/")
  }

  /** Value of a decimal numeral. */
  function DigitsValue(s: string): (n: nat)
    requires AllDigits(s)
  {
    if s == [] then 0 else DigitsValue(s[..|s| - 1]) * 10 + (s[|s| - 1] as int - '0' as int)
  }

  /** `str::parse::<u32>` of a non-empty run of ASCII digits. */
  function ParseU32(s: string): (r: Result<nat>)
    requires s != [] && AllDigits(s)
    ensures r.Ok? <==> DigitsValue(s) < 0x1_0000_0000
    ensures r.Ok? ==> r.value == DigitsValue(s)
  {
    var v := DigitsValue(s);
    if v < 0x1_0000_0000 then Ok(v) else Err("number too large to fit in target type")
  }

  /** `/u/(\d+)` tried at position `i`: the greedy run of digits after `/u/`. */
  function UidAt(h: string, i: nat): (r: Option<string>)
    ensures r.Some? ==> r.value != [] && AllDigits(r.value) && OccursAt(h, "/u/" + r.value, i)
    ensures r.Some? ==> i + 3 + |r.value| == |h| || !IsDigit(h[i + 3 + |r.value|])
    ensures r.None? ==> !OccursAt(h, "/u/", i) || i + 3 == |h| || !IsDigit(h[i + 3])
  {
    if OccursAt(h, "/u/", i) then
      var n := RunLength(h, i + 3, |h|, IsDigit);
      if n > 0 then
        var d := h[i + 3..i + 3 + n];
        assert h[i..i + 3 + n] == h[i..i + 3] + d;
        Some(d)
      else None
    else None
  }

  /** The first capture of `/u/(\d+)` in `h`: the one at the leftmost
      position where the expression matches. */
  function UidIn(h: string): (r: Option<string>)
    ensures r.Some? ==> r.value != [] && AllDigits(r.value)
    ensures r.Some? ==> exists p: nat :: p <= |h| && UidAt(h, p) == r
                                         && forall q: nat :: q < p ==> UidAt(h, q).None?
    ensures r.None? <==> forall p: nat :: p <= |h| ==> UidAt(h, p).None?
  {
    UidLeftmost(h);
    match Leftmost(|h|, 0, UidMatcher(h))
    case None => None
    case Some((_, d)) => Some(d)
  }

  function UidMatcher(h: string): nat -> Option<string> {
    (i: nat) => UidAt(h, i)
  }

  /** What the leftmost scan for `/u/(\d+)` finds, in terms of `UidAt`. */
  lemma UidLeftmost(h: string)
    ensures var r := Leftmost(|h|, 0, UidMatcher(h));
      (r.Some? ==> r.value.0 <= |h| && UidAt(h, r.value.0) == Some(r.value.1)
                   && forall q: nat :: q < r.value.0 ==> UidAt(h, q).None?)
      && (r.None? ==> forall p: nat :: p <= |h| ==> UidAt(h, p).None?)
  {
    var at := UidMatcher(h);
    var r := Leftmost(|h|, 0, at);
    if r.Some? {
      assert at(r.value.0) == UidAt(h, r.value.0);
      forall q: nat | q < r.value.0 ensures UidAt(h, q).None? {
        assert at(q).None?;
      }
    } else {
      forall p: nat | p <= |h| ensures UidAt(h, p).None? {
        assert at(p).None?;
      }
    }
  }

  /** A user link whose `href` the user-id expression matches. */
  predicate HasUid(e: Element) {
    IsUserLink(e) && UidIn(e.href.value).Some?
  }

  /** `extract_user_id`: the number after `/u/` in the first user link that
      has one, which must fit in 32 bits. */
  function ExtractUserId(doc: Document): (r: Result<nat>)
    ensures r.Ok? ==> r.value < 0x1_0000_0000
    ensures forall i :: IsFirst(doc, HasUid, i) ==>
                          (r.Ok? <==> DigitsValue(UidIn(doc[i].href.value).value) < 0x1_0000_0000)
    ensures forall i :: IsFirst(doc, HasUid, i) && r.Ok? ==>
                          r.value == DigitsValue(UidIn(doc[i].href.value).value)
    ensures NoneMatch(doc, HasUid) ==> r.Err?
  {
    match First(doc, HasUid)
    case None => Err("user id not found in page")
    case Some(i) =>
      var d := UidIn(doc[i].href.value).value;
      ParseU32(d)
  }

  // ---------------------------------------------------------------- title and label

  predicate IsTitle(e: Element) {
    e.tag == "title"
  }

  predicate IsH1(e: Element) {
    e.tag == "h1"
  }

  /** `extract_title`: the page title up to the first ` - `, trimmed, when the
      page has a `<title>`; otherwise the first `h1`'s trimmed text when it
      is not empty. */
  function ExtractTitle(doc: Document): (r: Option<string>)
    ensures r.Some? ==> IsTrimmed(r.value)
    ensures !NoneMatch(doc, IsTitle) ==> r.Some? && !Occurs(r.value, " - ")
    ensures forall i :: IsFirst(doc, IsTitle, i) ==> r == Some(Trim(BeforeFirst(doc[i].text, " - ")))
    ensures NoneMatch(doc, IsTitle) ==>
      (r.Some? <==> exists i :: IsFirst(doc, IsH1, i) && Trim(doc[i].text) != [])
    ensures NoneMatch(doc, IsTitle) && r.Some? ==>
      exists i :: IsFirst(doc, IsH1, i) && r.value == Trim(doc[i].text)
  {
    match First(doc, IsTitle)
    case Some(i) =>
      var b := BeforeFirst(doc[i].text, " - ");
      var t := Trim(b);
      assert !Occurs(t, " - ") by {
        var a, c := TrimInfix(b);
        InfixKeepsAbsence(b, a, c, " - ");
      }
      Some(t)
    case None =>
      match First(doc, IsH1)
      case None => None
      case Some(j) =>
        var t := Trim(doc[j].text);
        if t != [] then Some(t) else None
  }

  /** `[class*='label']`. The selector the client uses,
      `.album-info .label, .disc-label, [class*='label']`, selects exactly
      these elements: an element of class `label` or `disc-label` has
      `label` inside its class attribute. */
  predicate IsLabelClass(e: Element) {
    ClassContains(e, "label")
  }

  /** `a[href*="/l/"]`. */
  predicate IsLabelLink(e: Element) {
    e.tag == "a" && HrefContains(e, "/l/")
  }

  /** `extract_label`: the trimmed text of the first element with `label` in
      its class, when not empty; otherwise that of the first label link,
      when not empty. */
  function ExtractLabel(doc: Document): (r: Option<string>)
    ensures r.Some? ==> r.value != [] && IsTrimmed(r.value)
    ensures r.Some? ==> exists i :: (IsFirst(doc, IsLabelClass, i) || IsFirst(doc, IsLabelLink, i))
                                    && r.value == Trim(doc[i].text)
    ensures r.None? ==> forall i :: IsFirst(doc, IsLabelClass, i) || IsFirst(doc, IsLabelLink, i)
                                    ==> Trim(doc[i].text) == []
  {
    var c := First(doc, IsLabelClass);
    var l := First(doc, IsLabelLink);
    assert forall i :: IsFirst(doc, IsLabelClass, i) ==> c == Some(i) by {
      FirstIsUnique(doc, IsLabelClass);
    }
    assert forall j :: IsFirst(doc, IsLabelLink, j) ==> l == Some(j) by {
      FirstIsUnique(doc, IsLabelLink);
    }
    if c.Some? && Trim(doc[c.value].text) != [] then Some(Trim(doc[c.value].text))
    else if l.Some? && Trim(doc[l.value].text) != [] then Some(Trim(doc[l.value].text))
    else None
  }

  /** The class selector wins whenever its first element has text; the link
      is consulted only when there is no such element or its text is blank;
      with neither there is no label. */
  lemma LabelPrecedence(doc: Document)
    ensures forall i :: IsFirst(doc, IsLabelClass, i) && Trim(doc[i].text) != [] ==>
                          ExtractLabel(doc) == Some(Trim(doc[i].text))
    ensures NoneMatch(doc, IsLabelClass) ==>
      forall j :: IsFirst(doc, IsLabelLink, j) && Trim(doc[j].text) != [] ==> ExtractLabel(doc) == Some(Trim(doc[j].text))
    ensures forall i, j :: (IsFirst(doc, IsLabelClass, i) && Trim(doc[i].text) == [] && IsFirst(doc, IsLabelLink, j)
                            && Trim(doc[j].text) != []) ==> ExtractLabel(doc) == Some(Trim(doc[j].text))
    ensures NoneMatch(doc, IsLabelClass) && NoneMatch(doc, IsLabelLink) ==> ExtractLabel(doc).None?
  {
    FirstIsUnique(doc, IsLabelClass);
    FirstIsUnique(doc, IsLabelLink);
    var c, l := First(doc, IsLabelClass), First(doc, IsLabelLink);
    assert forall i :: IsFirst(doc, IsLabelClass, i) ==> c == Some(i);
    assert forall j :: IsFirst(doc, IsLabelLink, j) ==> l == Some(j);
  }

  // ---------------------------------------------------------------- release date and year

  /** `n` digits start at position `i` of `s`. */
  predicate DigitsAt(s: string, i: nat, n: nat) {
    i + n <= |s| && forall k :: i <= k < i + n ==> IsDigit(s[k])
  }

  /** Four digits, 年, `m` digits, 月, `d` digits and 日 start at `j` of `s`. */
  predicate DateShapeAt(s: string, j: nat, m: nat, d: nat) {
    j + 7 + m + d <= |s| && DigitsAt(s, j, 4) && s[j + 4] == '年'
    && DigitsAt(s, j + 5, m) && s[j + 5 + m] == '月'
    && DigitsAt(s, j + 6 + m, d) && s[j + 6 + m + d] == '日'
  }

  /** The whole of `t` has the form `\d{4}年\d{1,2}月\d{1,2}日`. */
  predicate IsChineseDate(t: string) {
    exists m: nat, d: nat :: 1 <= m <= 2 && 1 <= d <= 2 && |t| == 7 + m + d && DateShapeAt(t, 0, m, d)
  }

  /** A date shape read in place or in the slice that holds it is the same. */
  lemma DateShapeSlice(s: string, j: nat, m: nat, d: nat)
    requires j + 7 + m + d <= |s|
    ensures DateShapeAt(s, j, m, d) <==> DateShapeAt(s[j..j + 7 + m + d], 0, m, d)
  {
    var t := s[j..j + 7 + m + d];
    assert forall k :: 0 <= k < |t| ==> t[k] == s[j + k];
  }

  /** `\d{4}年\d{1,2}月\d{1,2}日` tried at position `j`: the length it matches.
      Backtracking a `\d{1,2}` never helps, because the character after a
      shorter run would be a digit, not the expected 月 or 日. */
  function DateAt(s: string, j: nat): (r: Option<nat>)
    ensures r.Some? ==> j + r.value <= |s| && IsChineseDate(s[j..j + r.value])
    ensures r.Some? ==> var m := RunLength(s, j + 5, 2, IsDigit);
      1 <= m <= 2 && 8 + m <= r.value <= 9 + m && DateShapeAt(s, j, m, r.value - 7 - m)
  {
    if j + 5 <= |s| && DigitsAt(s, j, 4) && s[j + 4] == '年' then
      var m := RunLength(s, j + 5, 2, IsDigit);
      if m > 0 && j + 5 + m < |s| && s[j + 5 + m] == '月' then
        var d := RunLength(s, j + 6 + m, 2, IsDigit);
        if d > 0 && j + 6 + m + d < |s| && s[j + 6 + m + d] == '日' then
          assert DateShapeAt(s, j, m, d);
          DateShapeSlice(s, j, m, d);
          Some(7 + m + d)
        else None
      else None
    else None
  }

  /** The scan finds every date written at `j`, and measures it exactly. */
  lemma DateAtComplete(s: string, j: nat, n: nat)
    requires j + n <= |s| && IsChineseDate(s[j..j + n])
    ensures DateAt(s, j) == Some(n)
  {
    var m, d := DateShapeIn(s, j, n);
    RunOfDigits(s, j + 5, m);
    RunOfDigits(s, j + 6 + m, d);
    DateAtShape(s, j, m, d);
  }

  /** The digit-run lengths of a date written at `j`. */
  lemma DateShapeIn(s: string, j: nat, n: nat) returns (m: nat, d: nat)
    requires j + n <= |s| && IsChineseDate(s[j..j + n])
    ensures 1 <= m <= 2 && 1 <= d <= 2 && n == 7 + m + d && DateShapeAt(s, j, m, d)
  {
    var t := s[j..j + n];
    m, d :| 1 <= m <= 2 && 1 <= d <= 2 && |t| == 7 + m + d && DateShapeAt(t, 0, m, d);
    DateShapeSlice(s, j, m, d);
  }

  /** Where the runs of digits have the lengths `m` and `d` of a date shape,
      the scan measures that shape. */
  lemma DateAtShape(s: string, j: nat, m: nat, d: nat)
    requires 1 <= m <= 2 && 1 <= d <= 2 && DateShapeAt(s, j, m, d)
    requires RunLength(s, j + 5, 2, IsDigit) == m && RunLength(s, j + 6 + m, 2, IsDigit) == d
    ensures DateAt(s, j) == Some(7 + m + d)
  {
  }

  /** A run of `n` (one or two) digits followed by a non-digit has length `n`. */
  lemma RunOfDigits(s: string, i: nat, n: nat)
    requires 1 <= n <= 2 && i + n < |s|
    requires DigitsAt(s, i, n) && !IsDigit(s[i + n])
    ensures RunLength(s, i, 2, IsDigit) == n
  {
    assert RunLength(s, i + n, 2 - n, IsDigit) == 0;
    if n == 2 {
      assert RunLength(s, i + 1, 1, IsDigit) == 1;
    }
  }

  /** `发布于(\d{4}年\d{1,2}月\d{1,2}日)` tried at `i`: the captured date. */
  function ReleaseDateAt(s: string, i: nat): (r: Option<string>)
    ensures r.Some? ==> IsChineseDate(r.value) && OccursAt(s, "发布于" + r.value, i)
  {
    if OccursAt(s, "发布于", i) then
      match DateAt(s, i + 3)
      case None => None
      case Some(n) =>
        var d := s[i + 3..i + 3 + n];
        assert s[i..i + 3 + n] == s[i..i + 3] + d;
        Some(d)
    else None
  }

  /** `ReleaseDateAt` is exact: wherever `发布于` and a date are written, it
      captures that date. */
  lemma ReleaseDateAtComplete(s: string, i: nat, t: string)
    requires IsChineseDate(t) && OccursAt(s, "发布于" + t, i)
    ensures ReleaseDateAt(s, i) == Some(t)
  {
    var p := "发布于";
    var u := p + t;
    var w := s[i..i + |u|];
    assert |p| == 3 && w == u;
    assert s[i..i + 3] == w[..3] && w[..3] == p;
    assert OccursAt(s, p, i);
    assert s[i + 3..i + 3 + |t|] == w[3..] && w[3..] == t;
    DateAtComplete(s, i + 3, |t|);
    assert ReleaseDateAt(s, i) == Some(s[i + 3..i + 3 + |t|]);
  }

  /** The first capture of the release-date expression in `s`: the date
      after the leftmost `发布于` that a date follows. */
  function ReleaseDateIn(s: string): (r: Option<string>)
    ensures r.Some? ==> IsChineseDate(r.value) && Occurs(s, "发布于" + r.value)
    ensures r.Some? ==> exists p: nat :: p <= |s| && ReleaseDateAt(s, p) == r
                                         && forall q: nat :: q < p ==> ReleaseDateAt(s, q).None?
    ensures r.None? <==> forall p: nat :: p <= |s| ==> ReleaseDateAt(s, p).None?
  {
    ReleaseDateLeftmost(s);
    match Leftmost(|s|, 0, ReleaseDateMatcher(s))
    case None => None
    case Some((_, d)) => Some(d)
  }

  function ReleaseDateMatcher(s: string): nat -> Option<string> {
    (i: nat) => ReleaseDateAt(s, i)
  }

  /** What the leftmost scan for the release date finds, in terms of
      `ReleaseDateAt`. */
  lemma ReleaseDateLeftmost(s: string)
    ensures var r := Leftmost(|s|, 0, ReleaseDateMatcher(s));
      (r.Some? ==> r.value.0 <= |s| && ReleaseDateAt(s, r.value.0) == Some(r.value.1)
                   && forall q: nat :: q < r.value.0 ==> ReleaseDateAt(s, q).None?)
      && (r.None? ==> forall p: nat :: p <= |s| ==> ReleaseDateAt(s, p).None?)
  {
    var at := ReleaseDateMatcher(s);
    var r := Leftmost(|s|, 0, at);
    if r.Some? {
      assert at(r.value.0) == ReleaseDateAt(s, r.value.0);
      forall q: nat | q < r.value.0 ensures ReleaseDateAt(s, q).None? {
        assert at(q).None?;
      }
    } else {
      forall p: nat | p <= |s| ensures ReleaseDateAt(s, p).None? {
        assert at(p).None?;
      }
    }
  }

  /** A paragraph whose text holds a release date. (The client's preliminary
      test that the text contains `发布于` is implied by the match.) */
  predicate HasReleaseDate(e: Element) {
    e.tag == "p" && ReleaseDateIn(e.text).Some?
  }

  /** `extract_release_date`: the date after `发布于` in the first paragraph
      that has one. */
  function ExtractReleaseDate(doc: Document): (r: Option<string>)
    ensures r.Some? ==> IsChineseDate(r.value)
    ensures r.Some? ==> exists i :: IsFirst(doc, HasReleaseDate, i)
                                    && Occurs(doc[i].text, "发布于" + r.value)
    ensures r.None? <==> NoneMatch(doc, HasReleaseDate)
    ensures forall i :: IsFirst(doc, HasReleaseDate, i) ==> r == ReleaseDateIn(doc[i].text)
  {
    match First(doc, HasReleaseDate)
    case None => None
    case Some(i) =>
      FirstIsUnique(doc, HasReleaseDate);
      ReleaseDateIn(doc[i].text)
  }

  /** `(\d{4})年` tried at `i`. */
  function YearAt(s: string, i: nat): Option<string> {
    if i + 5 <= |s| && DigitsAt(s, i, 4) && s[i + 4] == '年' then Some(s[i..i + 4]) else None
  }

  /** A date starts with its year. */
  lemma YearOfDate(date: string)
    requires IsChineseDate(date)
    ensures |date| >= 4 && YearAt(date, 0) == Some(date[..4]) && AllDigits(date[..4])
  {
    var m: nat, d: nat :| 1 <= m <= 2 && 1 <= d <= 2 && |date| == 7 + m + d && DateShapeAt(date, 0, m, d);
  }

  /** `extract_year`: the four digits before the first 年 of the release
      date. Since the date itself starts with four digits and 年, that is the
      date's first four characters, and there is a year exactly when there
      is a release date. */
  function ExtractYear(doc: Document): (r: Option<string>)
    ensures r.None? <==> ExtractReleaseDate(doc).None?
    ensures r.Some? ==> |ExtractReleaseDate(doc).value| >= 4
                        && r.value == ExtractReleaseDate(doc).value[..4]
                        && |r.value| == 4 && AllDigits(r.value)
  {
    match ExtractReleaseDate(doc)
    case None => None
    case Some(date) =>
      YearOfDate(date);
      LeftmostAt(|date|, 0, YearMatcher(date), 0);
      match Leftmost(|date|, 0, YearMatcher(date))
      case None => None
      case Some((_, y)) => Some(y)
  }

  function YearMatcher(date: string): nat -> Option<string> {
    (i: nat) => YearAt(date, i)
  }

  // ---------------------------------------------------------------- description

  /** An `h3` whose trimmed text is longer than 20 bytes of UTF-8. */
  predicate IsDescriptionHeading(e: Element) {
    e.tag == "h3" && |Utf8.Encode(Trim(e.text))| > 20
  }

  /** `extract_description`: the trimmed text of the first `h3` longer than
      20 bytes. */
  function ExtractDescription(doc: Document): (r: Option<string>)
    ensures r.Some? ==> r.value != [] && IsTrimmed(r.value) && |Utf8.Encode(r.value)| > 20
    ensures r.Some? ==> exists i :: IsFirst(doc, IsDescriptionHeading, i) && r.value == Trim(doc[i].text)
    ensures r.None? <==> NoneMatch(doc, IsDescriptionHeading)
  {
    match First(doc, IsDescriptionHeading)
    case None => None
    case Some(i) => Some(Trim(doc[i].text))
  }

  // ---------------------------------------------------------------- tags

  /** `a[href*='/albums/tags/']`. */
  predicate IsTagLink(e: Element) {
    e.tag == "a" && HrefContains(e, "/albums/tags/")
  }

  /** A tag link whose text starts with `#`. */
  predicate IsHashTag(e: Element) {
    IsTagLink(e) && StartsWith(e.text, "#")
  }

  /** The tags of a page, in document order: each tag link's text without its
      leading `#`; links not starting with `#` are passed over. */
  function TagsOf(doc: Document): (tags: seq<string>)
    ensures |tags| <= |doc|
  {
    if doc == [] then []
    else (if IsHashTag(doc[0]) then [doc[0].text[1..]] else []) + TagsOf(doc[1..])
  }

  /** `extract_tags`. */
  method ExtractTags(doc: Document) returns (tags: seq<string>)
    ensures tags == TagsOf(doc)
  {
    tags := [];
    var i := 0;
    while i < |doc|
      invariant 0 <= i <= |doc|
      invariant tags + TagsOf(doc[i..]) == TagsOf(doc)
    {
      TagsOfStep(doc, i);
      if IsHashTag(doc[i]) {
        tags := tags + [doc[i].text[1..]];
      }
      i := i + 1;
    }
    assert doc[i..] == [];
  }

  /** The tags from position `i` on: that element's, then the rest's. */
  lemma TagsOfStep(doc: Document, i: nat)
    requires i < |doc|
    ensures TagsOf(doc[i..]) == (if IsHashTag(doc[i]) then [doc[i].text[1..]] else []) + TagsOf(doc[i + 1..])
  {
    assert doc[i..][1..] == doc[i + 1..];
  }

  /** Tags of a concatenated document are the tags of each part in order. */
  lemma {:induction false} TagsOfAppend(d1: Document, d2: Document)
    ensures TagsOf(d1 + d2) == TagsOf(d1) + TagsOf(d2)
  {
    if d1 == [] {
      assert d1 + d2 == d2;
    } else {
      var head := if IsHashTag(d1[0]) then [d1[0].text[1..]] else [];
      assert (d1 + d2)[0] == d1[0];
      assert (d1 + d2)[1..] == d1[1..] + d2;
      TagsOfAppend(d1[1..], d2);
      calc {
        TagsOf(d1 + d2);
        head + TagsOf(d1[1..] + d2);
        head + (TagsOf(d1[1..]) + TagsOf(d2));
        (head + TagsOf(d1[1..])) + TagsOf(d2);
      }
    }
  }

  /** Every tag comes from a tag link whose text is `#` followed by it. */
  lemma {:induction false} TagsAreHashTags(doc: Document, k: int)
    requires 0 <= k < |TagsOf(doc)|
    ensures exists i :: 0 <= i < |doc| && IsTagLink(doc[i]) && doc[i].text == "#" + TagsOf(doc)[k]
  {
    var head := if IsHashTag(doc[0]) then [doc[0].text[1..]] else [];
    if k < |head| {
      assert doc[0].text == "#" + doc[0].text[1..];
    } else {
      TagsAreHashTags(doc[1..], k - |head|);
      var i :| 0 <= i < |doc[1..]| && IsTagLink(doc[1..][i]) && doc[1..][i].text == "#" + TagsOf(doc[1..])[k - |head|];
      assert doc[i + 1] == doc[1..][i];
    }
  }

  /** Every tag link starting with `#` contributes its tag. */
  lemma {:induction false} HashTagsAreTags(doc: Document, i: int)
    requires 0 <= i < |doc| && IsHashTag(doc[i])
    ensures doc[i].text[1..] in TagsOf(doc)
  {
    if i > 0 {
      HashTagsAreTags(doc[1..], i - 1);
    }
  }

  // ---------------------------------------------------------------- authors

  /** The names the author expressions look for, in the order they are tried. */
  const AuthorNames: seq<string> := ["music", "作曲", "作词", "Lyrics"]

  /** `[^\n\r<]`. */
  predicate NotLineEnd(c: char) {
    c != '\n' && c != '\r' && c != '<'
  }

  /** The capture `[^\n\r<]+` can start at `a`. */
  predicate CaptureStart(s: string, a: nat) {
    a < |s| && NotLineEnd(s[a])
  }

  /** The greedy capture starting at `a`: the longest run of `[^\n\r<]`. */
  function LineRun(s: string, a: nat): (r: string)
    requires a <= |s|
    ensures forall c :: c in r ==> NotLineEnd(c)
    ensures a + |r| <= |s| && OccursAt(s, r, a)
    ensures a + |r| == |s| || !NotLineEnd(s[a + |r|])
  {
    var n := RunLength(s, a, |s|, NotLineEnd);
    s[a..a + n]
  }

  /** `a` is where the backtracking `\s*` finally lets the capture start,
      after a colon whose next character is at `j`: the last position up to
      the end of the white-space run at `j` (or just past it) where a capture
      can start. The characters skipped are white space. */
  predicate CaptureFrom(s: string, j: nat, a: nat) {
    var w := RunLength(s, j, |s|, IsWhitespace);
    j <= a <= j + w && CaptureStart(s, a)
    && (forall c :: j <= c < a ==> IsWhitespace(s[c]))
    && forall b: nat :: a < b <= j + w ==> !CaptureStart(s, b)
  }

  /** The capture after a colon whose next character is at `j` is `v`. */
  ghost predicate CapturesAfter(s: string, j: nat, v: string) {
    exists a: nat :: CaptureFrom(s, j, a) && v == LineRun(s, a)
  }

  /** A capture can start somewhere after a colon whose next character is at `j`. */
  ghost predicate CanCapture(s: string, j: nat) {
    exists a: nat :: CaptureFrom(s, j, a)
  }

  /** `name` and a full-width or ASCII colon at `i`. */
  predicate NameAndColonAt(s: string, name: string, i: nat) {
    OccursAt(s, name, i) && i + |name| < |s| && (s[i + |name|] == '：' || s[i + |name|] == ':')
  }

  /** `\s*([^\n\r<]+)` after a colon at `j - 1`, where `k` is how much white
      space the greedy `\s*` still holds: the engine gives back white space
      one character at a time until the capture can start. */
  function Backoff(s: string, j: nat, k: nat): (r: Option<string>)
    ensures r.Some? ==> r.value != [] && forall c :: c in r.value ==> NotLineEnd(c)
    decreases k
  {
    if CaptureStart(s, j + k) then
      Some(LineRun(s, j + k))
    else if k == 0 then None
    else Backoff(s, j, k - 1)
  }

  /** `name[：:]\s*([^\n\r<]+)` tried at `i`: `name` and a full-width or
      ASCII colon at `i`, then the capture wherever the white space lets it
      start. */
  function AuthorAt(s: string, name: string, i: nat): (r: Option<string>)
    ensures r.Some? ==> r.value != [] && forall c :: c in r.value ==> NotLineEnd(c)
    ensures r.Some? ==> NameAndColonAt(s, name, i) && CapturesAfter(s, i + |name| + 1, r.value)
    ensures NameAndColonAt(s, name, i) && CanCapture(s, i + |name| + 1) ==> r.Some?
  {
    var j := i + |name|;
    if NameAndColonAt(s, name, i) then
      AfterColon(s, j + 1);
      Backoff(s, j + 1, RunLength(s, j + 1, |s|, IsWhitespace))
    else None
  }

  /** Backing off over the whole white-space run after a colon finds the
      capture `CaptureFrom` describes, when there is one. */
  /** Backing off from `j + k` stops at the last position where a capture
      can start, and fails only when there is none down to `j`. */
  lemma {:induction false} BackoffFinds(s: string, j: nat, k: nat)
    ensures var r := Backoff(s, j, k);
      (r.Some? ==> exists a: nat :: j <= a <= j + k && CaptureStart(s, a) && r.value == LineRun(s, a)
                                    && forall b: nat :: a < b <= j + k ==> !CaptureStart(s, b))
      && (r.None? <==> forall b: nat :: j <= b <= j + k ==> !CaptureStart(s, b))
    decreases k
  {
    if !CaptureStart(s, j + k) && k > 0 {
      BackoffFinds(s, j, k - 1);
    }
  }

  lemma AfterColon(s: string, j: nat)
    ensures var r := Backoff(s, j, RunLength(s, j, |s|, IsWhitespace));
      (r.Some? ==> CapturesAfter(s, j, r.value)) && (CanCapture(s, j) ==> r.Some?)
  {
    var w := RunLength(s, j, |s|, IsWhitespace);
    var r := Backoff(s, j, w);
    BackoffFinds(s, j, w);
    if r.Some? {
      var a: nat :| j <= a <= j + w && CaptureStart(s, a) && r.value == LineRun(s, a)
                    && forall b: nat :: a < b <= j + w ==> !CaptureStart(s, b);
      assert CaptureFrom(s, j, a);
    }
  }

  function AuthorMatcher(s: string, name: string): nat -> Option<string> {
    (i: nat) => AuthorAt(s, name, i)
  }

  /** The first capture of the author expression for `name` in `s`. */
  function AuthorIn(s: string, name: string): (r: Option<string>)
    ensures r.Some? ==> r.value != [] && forall c :: c in r.value ==> NotLineEnd(c)
  {
    match Leftmost(|s|, 0, AuthorMatcher(s, name))
    case None => None
    case Some((p, a)) =>
      assert AuthorMatcher(s, name)(p) == AuthorAt(s, name, p);
      Some(a)
  }

  /** The author capture is the one at the leftmost position where the
      expression matches. */
  lemma AuthorInLeftmost(s: string, name: string)
    ensures var r := AuthorIn(s, name);
      (r.Some? ==> exists p: nat :: p <= |s| && AuthorAt(s, name, p) == r
                                    && forall q: nat :: q < p ==> AuthorAt(s, name, q).None?)
      && (r.None? <==> forall p: nat :: p <= |s| ==> AuthorAt(s, name, p).None?)
  {
    var at := AuthorMatcher(s, name);
    var r := Leftmost(|s|, 0, at);
    if r.Some? {
      assert at(r.value.0) == AuthorAt(s, name, r.value.0);
      forall q: nat | q < r.value.0 ensures AuthorAt(s, name, q).None? {
        assert at(q).None?;
      }
    } else {
      forall p: nat | p <= |s| ensures AuthorAt(s, name, p).None? {
        assert at(p).None?;
      }
    }
  }

  /** The capture of the first of `names` for which `find` gives one. */
  function FirstFound(names: seq<string>, find: string -> Option<string>): (r: Option<string>)
    ensures r.None? <==> forall k :: 0 <= k < |names| ==> find(names[k]).None?
  {
    if names == [] then None
    else match find(names[0])
      case Some(a) => Some(a)
      case None =>
        var r := FirstFound(names[1..], find);
        assert forall k :: 1 <= k < |names| ==> names[k] == names[1..][k - 1];
        r
  }

  /** The names are tried in order: the capture found is that of the first
      name `find` gives one for. */
  lemma {:induction false} FirstFoundIsFirst(names: seq<string>, find: string -> Option<string>) returns (k: nat)
    ensures var r := FirstFound(names, find);
      r.Some? ==> k < |names| && find(names[k]) == r
                  && forall k' :: 0 <= k' < k ==> find(names[k']).None?
  {
    k := 0;
    if names != [] && find(names[0]).None? {
      var j := FirstFoundIsFirst(names[1..], find);
      k := j + 1;
      if FirstFound(names, find).Some? {
        assert names[1..][j] == names[k];
        forall k' | 0 <= k' < k ensures find(names[k']).None? {
          if k' > 0 {
            assert names[k'] == names[1..][k' - 1];
          }
        }
      }
    }
  }

  function AuthorFinder(s: string): string -> Option<string> {
    name => AuthorIn(s, name)
  }

  /** The capture of the first of `names` whose expression matches. */
  function FirstAuthor(s: string, names: seq<string>): (r: Option<string>)
    ensures r.Some? ==> forall c :: c in r.value ==> NotLineEnd(c)
    ensures r.None? <==> forall k :: 0 <= k < |names| ==> AuthorIn(s, names[k]).None?
  {
    var r := FirstFound(names, AuthorFinder(s));
    assert forall k :: 0 <= k < |names| ==> AuthorFinder(s)(names[k]) == AuthorIn(s, names[k]);
    assert r.Some? ==> forall c :: c in r.value ==> NotLineEnd(c) by {
      var k := FirstFoundIsFirst(names, AuthorFinder(s));
    }
    r
  }

  /** The capture found is that of the first name whose expression matches:
      the names are tried in order. */
  lemma FirstAuthorIsFirst(s: string, names: seq<string>) returns (k: nat)
    ensures var r := FirstAuthor(s, names);
      r.Some? ==> k < |names| && AuthorIn(s, names[k]) == r
                  && forall k' :: 0 <= k' < k ==> AuthorIn(s, names[k']).None?
  {
    k := FirstFoundIsFirst(names, AuthorFinder(s));
    assert forall k' :: 0 <= k' < |names| ==> AuthorFinder(s)(names[k']) == AuthorIn(s, names[k']);
  }

  /** `extract_authors`: the trimmed capture of the first author expression
      that matches the description, when there is a description. */
  function ExtractAuthors(doc: Document): (r: Option<string>)
    ensures r.Some? ==> ExtractDescription(doc).Some?
    ensures r.Some? ==> IsTrimmed(r.value) && forall c :: c in r.value ==> NotLineEnd(c)
    ensures r.None? <==> ExtractDescription(doc).None?
                         || forall k :: 0 <= k < |AuthorNames| ==> AuthorIn(ExtractDescription(doc).value, AuthorNames[k]).None?
    ensures r.Some? ==> exists k :: 0 <= k < |AuthorNames|
                                    && AuthorIn(ExtractDescription(doc).value, AuthorNames[k]).Some?
                                    && r.value == Trim(AuthorIn(ExtractDescription(doc).value, AuthorNames[k]).value)
                                    && forall k' :: 0 <= k' < k ==> AuthorIn(ExtractDescription(doc).value, AuthorNames[k']).None?
  {
    match ExtractDescription(doc)
    case None => None
    case Some(d) => AuthorsIn(d)
  }

  /** The trimmed capture of the first author expression that matches `d`. */
  function AuthorsIn(d: string): (r: Option<string>)
    ensures r.Some? ==> IsTrimmed(r.value) && forall c :: c in r.value ==> NotLineEnd(c)
    ensures r.None? <==> forall k :: 0 <= k < |AuthorNames| ==> AuthorIn(d, AuthorNames[k]).None?
    ensures r.Some? ==> FirstAuthor(d, AuthorNames).Some? && r.value == Trim(FirstAuthor(d, AuthorNames).value)
    ensures r.Some? ==> exists k :: 0 <= k < |AuthorNames| && AuthorIn(d, AuthorNames[k]).Some?
                                    && r.value == Trim(AuthorIn(d, AuthorNames[k]).value)
                                    && forall k' :: 0 <= k' < k ==> AuthorIn(d, AuthorNames[k']).None?
  {
    assert FirstAuthor(d, AuthorNames).Some? ==>
      exists k :: 0 <= k < |AuthorNames| && AuthorIn(d, AuthorNames[k]) == FirstAuthor(d, AuthorNames)
                  && forall k' :: 0 <= k' < k ==> AuthorIn(d, AuthorNames[k']).None? by {
      var k := FirstAuthorIsFirst(d, AuthorNames);
    }
    match FirstAuthor(d, AuthorNames)
    case None => None
    case Some(a) => Some(Trim(a))
  }

  // ---------------------------------------------------------------- download key

  /** The anchor the key is read from: `a[href*="/albums/download_gift/"]`
      for the gift, `a[href*="tp=<format>"]` for any other format. */
  predicate IsKeyLink(format: string, e: Element) {
    e.tag == "a" && HrefContains(e, if format == "gift" then "/albums/download_gift/" else "tp=" + format)
  }

  function KeyLinkSelector(format: string): Element -> bool {
    e => IsKeyLink(format, e)
  }

  /** `[^&]`. */
  predicate NotAmp(c: char) {
    c != '&'
  }

  /** `k=([^&]+)` tried at `i`. */
  function KeyAt(h: string, i: nat): (r: Option<string>)
    ensures r.Some? ==> r.value != [] && '&' !in r.value && OccursAt(h, "k=" + r.value, i)
    ensures r.Some? ==> i + 2 + |r.value| == |h| || h[i + 2 + |r.value|] == '&'
    ensures OccursAt(h, "k=", i) && i + 2 < |h| && h[i + 2] != '&' ==> r.Some?
  {
    if OccursAt(h, "k=", i) then
      var n := RunLength(h, i + 2, |h|, NotAmp);
      if n > 0 then
        var k := h[i + 2..i + 2 + n];
        assert h[i..i + 2 + n] == h[i..i + 2] + k;
        assert forall c :: c in k ==> NotAmp(c);
        Some(k)
      else None
    else None
  }

  function KeyMatcher(h: string): nat -> Option<string> {
    (i: nat) => KeyAt(h, i)
  }

  /** The first capture of `k=([^&]+)` in `h` (`KeyInLeftmost` says which). */
  function KeyIn(h: string): (r: Option<string>)
    ensures r.Some? ==> r.value != [] && '&' !in r.value && Occurs(h, "k=" + r.value)
  {
    match Leftmost(|h|, 0, KeyMatcher(h))
    case None => None
    case Some((p, k)) =>
      assert KeyAt(h, p) == Some(k);
      Some(k)
  }

  /** The key capture is the one at the leftmost position where the
      expression matches, and there is none exactly when it matches nowhere. */
  lemma KeyInLeftmost(h: string)
    ensures var r := KeyIn(h);
      (r.Some? ==> exists p: nat :: p <= |h| && KeyAt(h, p) == r
                                    && forall q: nat :: q < p ==> KeyAt(h, q).None?)
      && (r.None? <==> forall p: nat :: p <= |h| ==> KeyAt(h, p).None?)
  {
    var at := KeyMatcher(h);
    var r := Leftmost(|h|, 0, at);
    if r.Some? {
      assert at(r.value.0) == KeyAt(h, r.value.0);
      forall q: nat | q < r.value.0 ensures KeyAt(h, q).None? {
        assert at(q).None?;
      }
      assert KeyIn(h) == Some(r.value.1);
    } else {
      forall p: nat | p <= |h| ensures KeyAt(h, p).None? {
        assert at(p).None?;
      }
    }
  }

  /** `extract_download_key`: the key in the `href` of the first anchor for
      `format`; only that first anchor is looked at. */
  function ExtractDownloadKey(doc: Document, format: string): (r: Result<string>)
    ensures r.Ok? ==> r.value != [] && '&' !in r.value
    ensures r.Ok? ==> exists i :: IsFirst(doc, KeyLinkSelector(format), i)
                                  && KeyIn(doc[i].href.value) == Some(r.value)
    ensures r.Err? <==> forall i :: IsFirst(doc, KeyLinkSelector(format), i) ==> KeyIn(doc[i].href.value).None?
  {
    match First(doc, KeyLinkSelector(format))
    case None => Err("download key not found for format " + format)
    case Some(i) =>
      match KeyIn(doc[i].href.value)
      case None => Err("download key not found for format " + format)
      case Some(k) => Ok(k)
  }
}

=== FILE: text.dfy ===
/** String scans shared by the scrapers and the naming code: substring search,
    the leftmost-first search a regular expression performs, Rust's
    `str::replace` and `str::trim`. Strings are sequences of Unicode scalar
    values. */
module Text {
  import opened Wrappers

  /** Unicode's White_Space property: what Rust's `char::is_whitespace`
      (and so `str::trim`) and the regex class `\s` test. */
  predicate IsWhitespace(c: char) {
    IsWhitespaceCode(c as int)
  }

  predicate IsWhitespaceCode(n: int) {
    (9 <= n <= 13) || n == 32 || n == 0x85 || n == 0xA0 || n == 0x1680
    || (0x2000 <= n <= 0x200A) || n == 0x2028 || n == 0x2029
    || n == 0x202F || n == 0x205F || n == 0x3000
  }

  /** `\d` of the scanners, read as an ASCII digit. */
  predicate IsDigit(c: char) {
    '0' <= c <= '9'
  }

  predicate AllDigits(s: string) {
    forall i :: 0 <= i < |s| ==> IsDigit(s[i])
  }

  predicate IsPrefix(p: string, s: string) {
    |p| <= |s| && s[..|p|] == p
  }

  predicate OccursAt(s: string, pat: string, i: nat) {
    i + |pat| <= |s| && s[i..i + |pat|] == pat
  }

  predicate Occurs(s: string, pat: string) {
    exists i: nat :: i <= |s| && OccursAt(s, pat, i)
  }

  /** A piece of `t`, where `t` sits in `s` at offset `a`, is the
      corresponding piece of `s`. */
  lemma InfixWithin(s: string, t: string, a: nat, j: nat, len: nat)
    requires a + |t| <= |s| && j + len <= |t|
    requires forall m :: 0 <= m < |t| ==> t[m] == s[a + m]
    ensures t[j..j + len] == s[a + j..a + j + len]
  {
    var u, v := t[j..j + len], s[a + j..a + j + len];
    forall m | 0 <= m < len ensures u[m] == v[m] {
      assert u[m] == t[j + m];
    }
    assert u == v;
  }

  /** `str::find` from position `from`: the first occurrence of `pat` there or later. */
  function IndexOf(s: string, pat: string, from: nat): (r: Option<nat>)
    requires from <= |s|
    ensures r.Some? ==> from <= r.value <= |s| && OccursAt(s, pat, r.value)
    ensures r.Some? ==> forall j: nat :: from <= j < r.value ==> !OccursAt(s, pat, j)
    ensures r.None? ==> forall j: nat :: from <= j <= |s| ==> !OccursAt(s, pat, j)
    decreases |s| - from
  {
    if from + |pat| > |s| then None
    else if OccursAt(s, pat, from) then Some(from)
    else IndexOf(s, pat, from + 1)
  }

  /** Searching from `from` finds something exactly when the suffix there
      contains `pat`. */
  lemma IndexOfSuffix(s: string, pat: string, from: nat)
    requires from <= |s|
    ensures IndexOf(s, pat, from).None? <==> !Occurs(s[from..], pat)
  {
    match IndexOf(s, pat, from)
    case Some(e) =>
      InfixWithin(s, s[from..], from, e - from, |pat|);
      assert OccursAt(s[from..], pat, e - from);
    case None =>
      forall j: nat | j <= |s[from..]| ensures !OccursAt(s[from..], pat, j) {
        assert !OccursAt(s, pat, from + j);
        if j + |pat| <= |s[from..]| {
          InfixWithin(s, s[from..], from, j, |pat|);
        }
      }
  }

  /** `str::contains`. */
  function Contains(s: string, pat: string): (b: bool)
    ensures b <==> Occurs(s, pat)
  {
    IndexOf(s, pat, 0).Some?
  }

  predicate StartsWith(s: string, p: string) {
    IsPrefix(p, s)
  }

  predicate EndsWith(s: string, suffix: string) {
    |suffix| <= |s| && s[|s| - |suffix|..] == suffix
  }

  /** The leftmost position in `from..len` at which the matcher `at` succeeds,
      with what it matched: how a regular expression without anchors picks
      its match. */
  function Leftmost<T>(len: nat, from: nat, at: nat -> Option<T>): (r: Option<(nat, T)>)
    ensures r.Some? ==> from <= r.value.0 <= len && at(r.value.0) == Some(r.value.1)
    ensures r.Some? ==> forall j: nat :: from <= j < r.value.0 ==> at(j).None?
    ensures r.None? ==> forall j: nat :: from <= j <= len ==> at(j).None?
    decreases len + 1 - from
  {
    if from > len then None
    else match at(from)
      case Some(v) => Some((from, v))
      case None => Leftmost(len, from + 1, at)
  }

  /** A position where the matcher succeeds, with failures everywhere before
      it, is the leftmost match. */
  lemma LeftmostAt<T>(len: nat, from: nat, at: nat -> Option<T>, p: nat)
    requires from <= p <= len && at(p).Some?
    requires forall j: nat :: from <= j < p ==> at(j).None?
    ensures Leftmost(len, from, at) == Some((p, at(p).value))
  {
  }

  /** Length of the run of characters satisfying `p` that starts at `i`, at most `max`. */
  function RunLength(s: string, i: nat, max: nat, p: char -> bool): (n: nat)
    ensures n <= max && (n == 0 || i + n <= |s|)
    ensures forall k :: i <= k < i + n ==> p(s[k])
    ensures n < max && i + n < |s| ==> !p(s[i + n])
    decreases max
  {
    if max == 0 || i >= |s| || !p(s[i]) then 0
    else 1 + RunLength(s, i + 1, max - 1, p)
  }

  /** The text before the first `sep`, or all of `s`: `s.split(sep).next()`. */
  function BeforeFirst(s: string, sep: string): (r: string)
    requires |sep| > 0
    ensures IsPrefix(r, s)
    ensures !Occurs(r, sep)
    ensures !Occurs(s, sep) ==> r == s
  {
    match IndexOf(s, sep, 0)
    case None => s
    case Some(i) =>
      assert forall j: nat :: j <= i && OccursAt(s[..i], sep, j) ==> OccursAt(s, sep, j) by {
        forall j: nat | j <= i && OccursAt(s[..i], sep, j) ensures OccursAt(s, sep, j) {
          InfixWithin(s, s[..i], 0, j, |sep|);
        }
      }
      s[..i]
  }

  /** `str::trim_start`. */
  function TrimStart(s: string): (r: string)
    ensures |r| <= |s| && r == s[|s| - |r|..]
    ensures forall i :: 0 <= i < |s| - |r| ==> IsWhitespace(s[i])
    ensures r == [] || !IsWhitespace(r[0])
  {
    if |s| > 0 && IsWhitespace(s[0]) then TrimStart(s[1..]) else s
  }

  /** `str::trim_end`. */
  function TrimEnd(s: string): (r: string)
    ensures |r| <= |s| && r == s[..|r|]
    ensures forall i :: |r| <= i < |s| ==> IsWhitespace(s[i])
    ensures r == [] || !IsWhitespace(r[|r| - 1])
  {
    if |s| > 0 && IsWhitespace(s[|s| - 1]) then TrimEnd(s[..|s| - 1]) else s
  }

  /** Neither starts nor ends with white space. */
  predicate IsTrimmed(s: string) {
    s == [] || (!IsWhitespace(s[0]) && !IsWhitespace(s[|s| - 1]))
  }

  /** `str::trim`: the infix left after removing white space at both ends
      (`TrimInfix` says where it sits). */
  function Trim(s: string): (r: string)
    ensures IsTrimmed(r)
    ensures forall c :: c in r ==> c in s
    ensures IsTrimmed(s) ==> r == s
  {
    var t := TrimStart(s);
    var r := TrimEnd(t);
    TrimParts(s, t, r);
    TrimmedUnchanged(s);
    r
  }

  /** The trimmed text is the infix `s[a..b]`, with only white space before
      `a` and after `b`. */
  lemma TrimInfix(s: string) returns (a: nat, b: nat)
    ensures a <= b <= |s| && Trim(s) == s[a..b]
    ensures forall i :: 0 <= i < a ==> IsWhitespace(s[i])
    ensures forall i :: b <= i < |s| ==> IsWhitespace(s[i])
  {
    var t := TrimStart(s);
    var r := TrimEnd(t);
    assert Trim(s) == r;
    TrimParts(s, t, r);
    a, b := |s| - |t|, |s| - |t| + |r|;
  }

  /** `r`, a prefix of the suffix `t` of `s`, with white space before `t`
      and after `r` and none at the ends of `r`, is a trimmed infix of `s`. */
  lemma TrimParts(s: string, t: string, r: string)
    requires |t| <= |s| && t == s[|s| - |t|..] && (t == [] || !IsWhitespace(t[0]))
    requires forall i :: 0 <= i < |s| - |t| ==> IsWhitespace(s[i])
    requires |r| <= |t| && r == t[..|r|] && (r == [] || !IsWhitespace(r[|r| - 1]))
    requires forall i :: |r| <= i < |t| ==> IsWhitespace(t[i])
    ensures IsTrimmed(r)
    ensures var a := |s| - |t|;
      a + |r| <= |s| && r == s[a..a + |r|]
      && (forall i :: 0 <= i < a ==> IsWhitespace(s[i]))
      && (forall i :: a + |r| <= i < |s| ==> IsWhitespace(s[i]))
    ensures forall c :: c in r ==> c in s
  {
    var a := |s| - |t|;
    if r != [] {
      assert r[0] == t[0];
    }
    assert r == s[a..a + |r|];
    forall i | a + |r| <= i < |s| ensures IsWhitespace(s[i]) {
      assert s[i] == t[i - a];
    }
    InfixChars(s, a, a + |r|);
  }

  /** Every character of an infix is a character of the text. */
  lemma InfixChars(s: string, a: nat, b: nat)
    requires a <= b <= |s|
    ensures forall c :: c in s[a..b] ==> c in s
  {
    forall c | c in s[a..b] ensures c in s {
      var k :| 0 <= k < b - a && s[a..b][k] == c;
      assert s[a + k] == c;
    }
  }

  /** A trimmed text is left alone at both ends. */
  lemma TrimmedUnchanged(s: string)
    ensures IsTrimmed(s) ==> TrimEnd(TrimStart(s)) == s
  {
    if s != [] && IsTrimmed(s) {
      assert TrimStart(s) == s;
    }
  }

  lemma TrimIdempotent(s: string)
    ensures Trim(Trim(s)) == Trim(s)
  {
  }

  /** Dropping the first character shifts every occurrence one place left. */
  lemma OccursShift(s: string, pat: string, i: nat)
    requires |s| > 0
    ensures OccursAt(s[1..], pat, i) <==> OccursAt(s, pat, i + 1)
  {
    if i + 1 + |pat| <= |s| {
      InfixWithin(s, s[1..], 1, i, |pat|);
    }
  }

  /** An infix of a string without `pat` has no `pat` either. */
  lemma InfixKeepsAbsence(s: string, a: nat, b: nat, pat: string)
    requires a <= b <= |s|
    requires !Occurs(s, pat)
    ensures !Occurs(s[a..b], pat)
  {
    forall j: nat | j <= b - a ensures !OccursAt(s[a..b], pat, j) {
      assert !OccursAt(s, pat, a + j);
      if j + |pat| <= b - a {
        InfixWithin(s, s[a..b], a, j, |pat|);
      }
    }
  }

  /** Rust's `str::replace`: every non-overlapping occurrence of `pat`,
      scanning left to right, replaced by `rep`. */
  function Replace(s: string, pat: string, rep: string): (r: string)
    requires |pat| > 0
    ensures !Occurs(s, pat) ==> r == s
    decreases |s|
  {
    if |s| < |pat| then s
    else if s[..|pat|] == pat then
      assert OccursAt(s, pat, 0);
      rep + Replace(s[|pat|..], pat, rep)
    else
      assert !Occurs(s, pat) ==> !Occurs(s[1..], pat) by {
        forall j: nat | j <= |s[1..]| ensures OccursAt(s[1..], pat, j) ==> Occurs(s, pat) {
          OccursShift(s, pat, j);
        }
      }
      [s[0]] + Replace(s[1..], pat, rep)
  }

  /** A pattern whose first character does not occur cannot occur. */
  lemma FirstCharAbsent(s: string, pat: string)
    requires |pat| > 0 && pat[0] !in s
    ensures !Occurs(s, pat)
  {
    forall j: nat | j <= |s| ensures !OccursAt(s, pat, j) {
      if j + |pat| <= |s| {
        assert s[j..j + |pat|][0] == s[j];
      }
    }
  }

  /** Replacing in `pat + b` rewrites the leading occurrence and continues after it. */
  lemma ReplaceLeading(b: string, pat: string, rep: string)
    requires |pat| > 0
    ensures Replace(pat + b, pat, rep) == rep + Replace(b, pat, rep)
  {
    assert (pat + b)[..|pat|] == pat;
    assert (pat + b)[|pat|..] == b;
  }

  /** One step of `Replace` where no occurrence starts at the front. */
  lemma ReplaceStep(s: string, pat: string, rep: string)
    requires |pat| > 0 && |s| > 0 && !OccursAt(s, pat, 0)
    ensures Replace(s, pat, rep) == [s[0]] + Replace(s[1..], pat, rep)
  {
    if |s| < |pat| {
      assert !Occurs(s[1..], pat);
    }
  }

  /** Occurrence-free positions stay occurrence-free one place to the left
      once the first character is dropped. */
  lemma PrefixShift(s: string, n: nat, pat: string)
    requires 0 < n <= |s|
    requires forall i: nat :: i < n ==> !OccursAt(s, pat, i)
    ensures forall i: nat :: i < n - 1 ==> !OccursAt(s[1..], pat, i)
  {
    forall i: nat | i < n - 1 ensures !OccursAt(s[1..], pat, i) {
      OccursShift(s, pat, i);
    }
  }

  /** The first `n` characters are the head followed by `n - 1` of the tail. */
  lemma SplitAfterHead(s: string, n: nat, x: string)
    requires 0 < n <= |s|
    ensures s[1..][n - 1..] == s[n..]
    ensures [s[0]] + (s[1..][..n - 1] + x) == s[..n] + x
  {
    assert [s[0]] + s[1..][..n - 1] == s[..n];
  }

  /** A prefix in which no occurrence starts is copied unchanged. */
  lemma {:induction false} ReplaceSkipsPrefix(s: string, n: nat, pat: string, rep: string)
    requires |pat| > 0 && n <= |s|
    requires forall i: nat :: i < n ==> !OccursAt(s, pat, i)
    ensures Replace(s, pat, rep) == s[..n] + Replace(s[n..], pat, rep)
    decreases n
  {
    if n > 0 {
      ReplaceStep(s, pat, rep);
      var t := s[1..];
      PrefixShift(s, n, pat);
      ReplaceSkipsPrefix(t, n - 1, pat, rep);
      SplitAfterHead(s, n, Replace(s[n..], pat, rep));
    } else {
      assert s[..n] == [] && s[n..] == s;
    }
  }

  /** `[T]::join(sep)` on strings. */
  function Join(parts: seq<string>, sep: string): (r: string)
    ensures parts == [] ==> r == []
    ensures parts != [] ==> IsPrefix(parts[0], r)
    ensures |parts| == 1 ==> r == parts[0]
  {
    if parts == [] then []
    else if |parts| == 1 then parts[0]
    else parts[0] + sep + Join(parts[1..], sep)
  }

  /** `pat` occurs in `p + pat + q` right after `p`. */
  lemma OccursBetween(p: string, pat: string, q: string)
    ensures OccursAt(p + pat + q, pat, |p|)
  {
    assert (p + pat + q)[|p|..|p| + |pat|] == pat;
  }

  lemma OccursSelf(x: string)
    ensures Occurs(x, x)
  {
    assert OccursAt(x, x, 0);
  }

  /** An occurrence in `p` is one in `p + q`. */
  lemma OccursInLeft(p: string, q: string, x: string)
    requires Occurs(p, x)
    ensures Occurs(p + q, x)
  {
    var i: nat :| i <= |p| && OccursAt(p, x, i);
    assert (p + q)[i..i + |x|] == p[i..i + |x|];
    assert OccursAt(p + q, x, i);
  }

  /** An occurrence in `q` is one in `p + q`, shifted by `|p|`. */
  lemma OccursInRight(p: string, q: string, x: string)
    requires Occurs(q, x)
    ensures Occurs(p + q, x)
  {
    var i: nat :| i <= |q| && OccursAt(q, x, i);
    assert (p + q)[|p| + i..|p| + i + |x|] == q[i..i + |x|];
    assert OccursAt(p + q, x, |p| + i);
  }

  lemma StartsWithConcat(p: string, q: string)
    ensures StartsWith(p + q, p)
  {
    assert (p + q)[..|p|] == p;
  }

  /** A suffix of `q` is a suffix of `p + q`. */
  lemma EndsWithExtend(p: string, q: string, x: string)
    requires EndsWith(q, x)
    ensures EndsWith(p + q, x)
  {
    assert (p + q)[|p + q| - |x|..] == q[|q| - |x|..];
  }

  // ---------------------------------------------------------------- placeholders

  /** A template placeholder such as `{album}`: braces at both ends and
      none inside. */
  predicate IsPlaceholder(pat: string) {
    |pat| >= 2 && pat[0] == '{' && pat[|pat| - 1] == '}'
    && (forall i :: 0 < i < |pat| ==> pat[i] != '{')
    && (forall i :: 0 <= i < |pat| - 1 ==> pat[i] != '}')
  }

  /** Every pattern of `pats` is a placeholder. */
  predicate AllPlaceholders(pats: seq<string>) {
    forall k :: 0 <= k < |pats| ==> IsPlaceholder(pats[k])
  }

  /** `s.replace(pats[0], vals[0]).replace(pats[1], vals[1])...`: each
      replacement applied to the result of the ones before it. */
  function ReplaceEach(s: string, pats: seq<string>, vals: seq<string>): string
    requires AllPlaceholders(pats) && |vals| == |pats|
    decreases |pats|
  {
    if pats == [] then s else ReplaceEach(Replace(s, pats[0], vals[0]), pats[1..], vals[1..])
  }

  /** The replacements from the `i`-th on: the `i`-th, then the rest. */
  lemma ReplaceEachFrom(s: string, pats: seq<string>, vals: seq<string>, i: nat)
    requires AllPlaceholders(pats) && |vals| == |pats| && i < |pats|
    ensures AllPlaceholders(pats[i..]) && AllPlaceholders(pats[i + 1..])
    ensures ReplaceEach(s, pats[i..], vals[i..])
         == ReplaceEach(Replace(s, pats[i], vals[i]), pats[i + 1..], vals[i + 1..])
  {
    assert pats[i..][0] == pats[i] && vals[i..][0] == vals[i];
    assert pats[i..][1..] == pats[i + 1..] && vals[i..][1..] == vals[i + 1..];
  }

  /** A text without `{` holds no placeholder, so the replacements leave it alone. */
  lemma {:induction false} ReplaceEachBraceFree(s: string, pats: seq<string>, vals: seq<string>)
    requires AllPlaceholders(pats) && |vals| == |pats|
    ensures '{' !in s ==> ReplaceEach(s, pats, vals) == s
    decreases |pats|
  {
    if pats != [] && '{' !in s {
      FirstCharAbsent(s, pats[0]);
      ReplaceEachBraceFree(s, pats[1..], vals[1..]);
    }
  }
  /** In `p + pat + q`, with no `{` in `p` or `q`, no other placeholder occurs. */
  lemma PlaceholderAlone(p: string, pat: string, q: string, other: string)
    requires IsPlaceholder(pat) && IsPlaceholder(other) && pat != other
    requires '{' !in p && '{' !in q
    ensures !Occurs(p + pat + q, other)
  {
    var s := p + pat + q;
    forall j: nat | j <= |s| ensures !OccursAt(s, other, j) {
      if j + |other| <= |s| {
        assert s[j..j + |other|][0] == s[j];
        if j < |p| {
          assert s[j] == p[j];
        } else if j >= |p| + |pat| {
          assert s[j] == q[j - |p| - |pat|];
        } else if j > |p| {
          assert s[j] == pat[j - |p|];
        } else if OccursAt(s, other, j) {
          SamePlaceholder(s, j, pat, other);
        }
      }
    }
  }

  /** Two placeholders that both start at `j` of `s` are the same. */
  lemma SamePlaceholder(s: string, j: nat, pat: string, other: string)
    requires IsPlaceholder(pat) && IsPlaceholder(other)
    requires OccursAt(s, other, j) && j + |pat| <= |s| && s[j..j + |pat|] == pat
    ensures pat == other
  {
    forall k | 0 <= k < |other| && k < |pat| ensures other[k] == pat[k] {
      assert other[k] == s[j + k] by { assert s[j..j + |other|][k] == s[j + k]; }
      assert pat[k] == s[j + k] by { assert s[j..j + |pat|][k] == s[j + k]; }
    }
  }

  /** Replacing the only placeholder of `p + pat + q`. */
  lemma ReplaceSole(p: string, pat: string, q: string, v: string)
    requires IsPlaceholder(pat) && '{' !in p && '{' !in q
    ensures Replace(p + pat + q, pat, v) == p + v + q
  {
    var s := p + pat + q;
    assert s == p + (pat + q);
    NoEarlyStart(p, pat + q, pat);
    ReplaceSkipsPrefix(s, |p|, pat, v);
    assert s[..|p|] == p && s[|p|..] == pat + q;
    ReplaceLeading(q, pat, v);
    FirstCharAbsent(q, pat);
  }

  /** No occurrence of `pat` starts inside `p` in `p + q` when `pat`'s first
      character is not in `p`. */
  lemma NoEarlyStart(p: string, q: string, pat: string)
    requires |pat| > 0 && pat[0] !in p
    ensures forall i: nat :: i < |p| ==> !OccursAt(p + q, pat, i)
  {
    forall i: nat | i < |p| ensures !OccursAt(p + q, pat, i) {
      if i + |pat| <= |p + q| {
        assert (p + q)[i..i + |pat|][0] == p[i];
      }
    }
  }

  /** A template whose only placeholder is the `k`-th pattern becomes that
      pattern's value, the text around it unchanged: the replacements before
      it find nothing, and those after it find no `{` left. */
  lemma {:induction false} ReplaceEachFillsOne(p: string, q: string, pats: seq<string>, vals: seq<string>, k: nat)
    requires AllPlaceholders(pats) && |vals| == |pats| && k < |pats|
    requires forall j :: 0 <= j < k ==> pats[j] != pats[k]
    requires '{' !in p && '{' !in q && '{' !in vals[k]
    ensures ReplaceEach(p + pats[k] + q, pats, vals) == p + vals[k] + q
    decreases k
  {
    if k == 0 {
      ReplaceSole(p, pats[0], q, vals[0]);
      assert '{' !in p + vals[0] + q;
      ReplaceEachBraceFree(p + vals[0] + q, pats[1..], vals[1..]);
    } else {
      PlaceholderAlone(p, pats[k], q, pats[0]);
      assert pats[1..][k - 1] == pats[k] && vals[1..][k - 1] == vals[k];
      ReplaceEachFillsOne(p, q, pats[1..], vals[1..], k - 1);
    }
  }
}

=== FILE: utf8.dfy ===
/** Bytes and the UTF-8 encoding form (RFC 3629): what `fs::write` of a
    `String` stores, what `std::str::from_utf8` accepts, and the byte length
    that `str::len` reports. */
module Utf8 {
  import opened Wrappers

  newtype byte = x: int | 0 <= x < 256

  type Bytes = seq<byte>

  /** The one to four bytes that encode one scalar value (RFC 3629 section 3). */
  function EncodeChar(c: char): (r: Bytes)
    ensures 1 <= |r| <= 4
  {
    var n := c as int;
    if n < 0x80 then [n as byte]
    else if n < 0x800 then [(0xC0 + n / 64) as byte, (0x80 + n % 64) as byte]
    else if n < 0x1_0000 then
      [(0xE0 + n / 4096) as byte, (0x80 + (n / 64) % 64) as byte, (0x80 + n % 64) as byte]
    else
      [(0xF0 + n / 0x4_0000) as byte, (0x80 + (n / 4096) % 64) as byte,
       (0x80 + (n / 64) % 64) as byte, (0x80 + n % 64) as byte]
  }

  function Encode(s: string): Bytes {
    if s == [] then [] else EncodeChar(s[0]) + Encode(s[1..])
  }

  predicate InRange(b: byte, lo: int, hi: int) {
    lo <= b as int <= hi
  }

  /** The first scalar value of `b` and the number of bytes it takes, when
      `b` starts with one of the well-formed byte sequences of RFC 3629
      section 4 (no overlong forms, no surrogates, nothing above U+10FFFF). */
  function DecodeFirst(b: Bytes): (r: Option<(char, nat)>)
    requires |b| > 0
    ensures r.Some? ==> 1 <= r.value.1 <= |b| && r.value.1 <= 4
  {
    var b0 := b[0] as int;
    if b0 < 0x80 then Some((b0 as char, 1))
    else if 0xC2 <= b0 <= 0xDF then
      if |b| >= 2 && InRange(b[1], 0x80, 0xBF)
      then Some((((b0 - 0xC0) * 64 + (b[1] as int - 0x80)) as char, 2))
      else None
    else if 0xE0 <= b0 <= 0xEF then
      var lo := if b0 == 0xE0 then 0xA0 else 0x80;
      var hi := if b0 == 0xED then 0x9F else 0xBF;
      if |b| >= 3 && InRange(b[1], lo, hi) && InRange(b[2], 0x80, 0xBF)
      then Some((((b0 - 0xE0) * 4096 + (b[1] as int - 0x80) * 64 + (b[2] as int - 0x80)) as char, 3))
      else None
    else if 0xF0 <= b0 <= 0xF4 then
      var lo := if b0 == 0xF0 then 0x90 else 0x80;
      var hi := if b0 == 0xF4 then 0x8F else 0xBF;
      if |b| >= 4 && InRange(b[1], lo, hi) && InRange(b[2], 0x80, 0xBF) && InRange(b[3], 0x80, 0xBF)
      then Some((((b0 - 0xF0) * 0x4_0000 + (b[1] as int - 0x80) * 4096
                  + (b[2] as int - 0x80) * 64 + (b[3] as int - 0x80)) as char, 4))
      else None
    else None
  }

  /** `std::str::from_utf8`: the text when every byte belongs to a
      well-formed sequence, otherwise nothing. */
  function Decode(b: Bytes): (r: Option<string>)
    ensures r.Some? ==> |r.value| <= |b|
    decreases |b|
  {
    if b == [] then Some([])
    else match DecodeFirst(b)
      case None => None
      case Some((c, k)) =>
        match Decode(b[k..])
        case None => None
        case Some(rest) => Some([c] + rest)
  }

  lemma DivMod64(n: int)
    requires n >= 0
    ensures n == (n / 64) * 64 + n % 64 && 0 <= n % 64 < 64
  {
  }

  lemma DecodeFirstOfEncoding2(c: char, rest: Bytes)
    requires 0x80 <= c as int < 0x800
    ensures DecodeFirst(EncodeChar(c) + rest) == Some((c, 2))
  {
    var n := c as int;
    var b := EncodeChar(c) + rest;
    DivMod64(n);
    assert b[0] as int == 0xC0 + n / 64 && b[1] as int == 0x80 + n % 64;
    assert ((b[0] as int - 0xC0) * 64 + (b[1] as int - 0x80)) == n;
  }

  lemma DecodeFirstOfEncoding3(c: char, rest: Bytes)
    requires 0x800 <= c as int < 0x1_0000
    ensures DecodeFirst(EncodeChar(c) + rest) == Some((c, 3))
  {
    var n := c as int;
    var b := EncodeChar(c) + rest;
    var q := n / 64;
    DivMod64(n);
    DivMod64(q);
    assert q / 64 == n / 4096;
    assert b[0] as int == 0xE0 + q / 64 && b[1] as int == 0x80 + q % 64 && b[2] as int == 0x80 + n % 64;
    assert (b[0] as int - 0xE0) * 4096 + (b[1] as int - 0x80) * 64 + (b[2] as int - 0x80) == n;
  }

  lemma DecodeFirstOfEncoding4(c: char, rest: Bytes)
    requires 0x1_0000 <= c as int
    ensures DecodeFirst(EncodeChar(c) + rest) == Some((c, 4))
  {
    var n := c as int;
    var b := EncodeChar(c) + rest;
    var q := n / 64;
    var p := q / 64;
    DivMod64(n);
    DivMod64(q);
    DivMod64(p);
    assert p == n / 4096 && p / 64 == n / 0x4_0000;
    assert b[0] as int == 0xF0 + p / 64 && b[1] as int == 0x80 + p % 64;
    assert b[2] as int == 0x80 + q % 64 && b[3] as int == 0x80 + n % 64;
    assert (b[0] as int - 0xF0) * 0x4_0000 + (b[1] as int - 0x80) * 4096
      + (b[2] as int - 0x80) * 64 + (b[3] as int - 0x80) == n;
  }

  /** Decoding the encoding of a character yields that character. */
  lemma DecodeFirstOfEncoding(c: char, rest: Bytes)
    ensures DecodeFirst(EncodeChar(c) + rest) == Some((c, |EncodeChar(c)|))
  {
    var n := c as int;
    if n < 0x80 {
    } else if n < 0x800 {
      DecodeFirstOfEncoding2(c, rest);
    } else if n < 0x1_0000 {
      DecodeFirstOfEncoding3(c, rest);
    } else {
      DecodeFirstOfEncoding4(c, rest);
    }
  }

  /** Round trip: every string survives encoding and decoding. */
  lemma {:induction false} DecodeEncode(s: string)
    ensures Decode(Encode(s)) == Some(s)
  {
    if s != [] {
      var e := EncodeChar(s[0]);
      var rest := Encode(s[1..]);
      DecodeFirstOfEncoding(s[0], rest);
      assert (e + rest)[|e|..] == rest;
      DecodeEncode(s[1..]);
      assert [s[0]] + s[1..] == s;
    }
  }

  lemma Recombine64(q: int, r: int)
    requires q >= 0 && 0 <= r < 64
    ensures (q * 64 + r) / 64 == q && (q * 64 + r) % 64 == r
  {
  }

  lemma EncodingOfDecodeFirst2(b: Bytes)
    requires |b| >= 2 && 0xC2 <= b[0] as int <= 0xDF && InRange(b[1], 0x80, 0xBF)
    ensures DecodeFirst(b).Some? && EncodeChar(DecodeFirst(b).value.0) == b[..2]
  {
    var n := (b[0] as int - 0xC0) * 64 + (b[1] as int - 0x80);
    Recombine64(b[0] as int - 0xC0, b[1] as int - 0x80);
    assert DecodeFirst(b).value.0 as int == n;
  }

  lemma EncodingOfDecodeFirst3(b: Bytes)
    requires |b| >= 3 && 0xE0 <= b[0] as int <= 0xEF && DecodeFirst(b).Some?
    ensures EncodeChar(DecodeFirst(b).value.0) == b[..3]
  {
    var x, y := b[1] as int - 0x80, b[2] as int - 0x80;
    var q := (b[0] as int - 0xE0) * 64 + x;
    var n := q * 64 + y;
    Recombine64(q, y);
    Recombine64(b[0] as int - 0xE0, x);
    assert n / 4096 == q / 64;
    assert DecodeFirst(b).value.0 as int == n;
  }

  lemma EncodingOfDecodeFirst4(b: Bytes)
    requires |b| >= 4 && 0xF0 <= b[0] as int <= 0xF4 && DecodeFirst(b).Some?
    ensures EncodeChar(DecodeFirst(b).value.0) == b[..4]
  {
    var x, y, z := b[1] as int - 0x80, b[2] as int - 0x80, b[3] as int - 0x80;
    var p := (b[0] as int - 0xF0) * 64 + x;
    var q := p * 64 + y;
    var n := q * 64 + z;
    Recombine64(q, z);
    Recombine64(p, y);
    Recombine64(b[0] as int - 0xF0, x);
    assert n / 4096 == p;
    assert n / 0x4_0000 == p / 64;
    assert DecodeFirst(b).value.0 as int == n;
  }

  /** The bytes a well-formed first sequence came from are its encoding. */
  lemma EncodingOfDecodeFirst(b: Bytes)
    requires |b| > 0 && DecodeFirst(b).Some?
    ensures EncodeChar(DecodeFirst(b).value.0) == b[..DecodeFirst(b).value.1]
  {
    var b0 := b[0] as int;
    if b0 < 0x80 {
    } else if b0 <= 0xDF {
      EncodingOfDecodeFirst2(b);
    } else if b0 <= 0xEF {
      EncodingOfDecodeFirst3(b);
    } else {
      EncodingOfDecodeFirst4(b);
    }
  }

  /** The other half of the round trip: decoding accepts only canonical
      encodings, so re-encoding what it returns gives back the input. */
  lemma {:induction false} EncodeDecode(b: Bytes)
    requires Decode(b).Some?
    ensures Encode(Decode(b).value) == b
    decreases |b|
  {
    if b != [] {
      var (c, k) := DecodeFirst(b).value;
      EncodingOfDecodeFirst(b);
      EncodeDecode(b[k..]);
      var s := Decode(b).value;
      assert s == [c] + Decode(b[k..]).value;
      assert s[1..] == Decode(b[k..]).value;
      assert b[..k] + b[k..] == b;
    }
  }
}

=== FILE: wrappers.dfy ===
/** Optional values and fallible results, the two shapes every scanner and
    network call of the synchroniser returns. */
module Wrappers {

  datatype Option<+T> = None | Some(value: T) {
    function GetOr(default: T): T {
      match this
      case Some(v) => v
      case None => default
    }
  }

  /** `anyhow::Result`: a value or an error message. */
  datatype Result<+T> = Ok(value: T) | Err(error: string)
}
